=== FILE: README.md ===
# HDRTray core, modelled in Dafny

HDRTray is a Windows notification-area tool, plus a command-line tool (`HDRCmd`) and a configuration app. Together they switch the desktop's HDR ("advanced colour") mode. This project models their decision logic as pure functions over immutable data, and proves properties of it. Every Windows call becomes an input.

- **Display-configuration API.** The active paths, the modes, and the answers each mode gives to the colour, name and base-type queries and to a set call. All of these are an input snapshot (`DisplayConfigApi`).
- **Registry.** A single key is modelled as:
  - a map from value name to `REG_DWORD`, `REG_SZ` or another type;
  - the status codes that opening, creating with write access, creating with read access only, probing and reading return (`Registry`).
- **Declared but bodiless.** `DisplayInfo::GetName`, `GetStatus` and `GetStableID`, `GetEnabledDisplays` and the vector overloads of the aggregate operations are declared in common/HDR.h. Their bodies are not part of this model, so their results are carried as uninterpreted values (`HdrApi.DisplayInfo`, `HdrApi.Core`).
- **Borrowed conversions.** Locale lower-casing (`LCMapStringEx`), `CLI::narrow`/`CLI::widen`, `std::filesystem::equivalent` and `urlsplit`/`urlunsplit` are uninterpreted functions passed in as parameters.

The modules follow the program's structure:

- `HdrRoot`, `HdrLib`, `HdrCommon`: the three revisions of the HDR module (HDR.cpp, hdr/HDR.cpp, common/HDR.cpp). Each aggregates per-display statuses, sets and toggles HDR, and lists displays.
  - Their behaviour differs, so each is modelled on its own.
  - `HdrApi` holds the later interface (common/HDR.h): the `Status` order, `DisplayID` equality and three-way comparison, and the no-argument forms.
- `DisplayConfig`, `LoginStartupConfig`, `Autostart`: the stored selection of displays, the login-startup entry, and the older autostart code of the first tray.
- `Decimal`, `Ascii`, `DisplayName`, `ResolveDisplay`, `DisplayUsing`, `DisplayStatus`, `StatusCmd`, `HdrCommands`, `SelectCmd`, `LoginStartupCmd`, `LegacyCommands`: the command-line tool.
  - Displays are found by index, exact name or substring.
  - The selection is de-duplicated.
  - Covered too: the mode validator, status text, the long listing, and the exit codes of every subcommand.
- `L10n`: the string-table walk, with its language fallback and truncating copy.
- `TrayIcon`, `TrayWindow`: the tray's state fields and its transitions:
  - icon, tooltip and menu choices;
  - the display-change re-check counter;
  - the wait timer;
  - taskbar restarts.
- `HdrDisplay`: one display as the configuration app shows it.
- `Md2Html`: the documentation build step that gives relative links an `.html` extension and extracts the title.

Two modules model a defect next to the intended behaviour: `SelectCmd` and `HdrCommon`. They are listed under Findings.

## Model

| member | source | states |
|---|---|---|
| `HdrApi.StatusOrder` | common/HDR.h:24 | Unsupported, Off and On have integer values 0, 1 and 2, and the value identifies the status |
| `HdrApi.MaxStatus` | common/HDR.cpp:114-117 | combining two statuses by `max` of their integer values yields one of them, at least as large as both |
| `HdrApi.MemCmp` | common/HDR.h:37 | `memcmp` over equal-size buffers reports equal exactly when the buffers are equal |
| `HdrApi.IdEquals` | common/HDR.h:34 | two display ids are equal exactly when all adapter bytes and the target ids are equal |
| `HdrApi.Compare` | common/HDR.h:35-43 | equal exactly for equal ids; ids on different adapters are ordered by the adapter bytes' `memcmp`; on the same adapter, less exactly when the target id is smaller |
| `HdrApi.CompareEqualIffEquals` | common/HDR.h:34-43 | the three-way comparison yields `equal` exactly when `operator==` holds |
| `HdrApi.CompareAntisymmetric` | common/HDR.h:35-43 | swapping the operands flips the comparison's answer |
| `HdrApi.CompareTransitive` | common/HDR.h:35-43 | `less` is transitive |
| `HdrApi.GetStatusDefaultsToCached` | common/HDR.h:66 | a status query without a freshness argument is a cached query |
| `HdrApi.NoArgumentFormsIgnoreEnabledSubset` | common/HDR.h:101-112 | the no-argument get/set/toggle act on all displays, so replacing the enabled subset changes none of their answers |
| `DisplayConfigApi.ForEachDisplay` | common/HDR.cpp:20-39 | no display is visited unless both enumeration calls succeed; otherwise one visit per path, in order, with the mode the path names |
| `DisplayConfigApi.CallsToSupported` | hdr/HDR.cpp:92-93 | set calls go to exactly the displays whose query reports support, in enumeration order, each with the requested state |
| `DisplayConfigApi.Accumulate` | common/HDR.cpp:114-117 | the loop accumulator takes its first value as is and then keeps the larger of old and new |
| `DisplayConfigApi.StatusOfColor` | common/HDR.cpp:53-56 | a colour answer is Unsupported without support, On with support and enabled, Off otherwise |
| `HdrRoot.OrFlags` | HDR.cpp:59-65 | the loop's flags are set exactly when some successful query reported support (or, separately, HDR enabled) |
| `HdrRoot.GetWindowsHdrStatus` | HDR.cpp:45-75 | Unsupported iff no display reports support; otherwise On iff some successful query reports HDR enabled |
| `HdrRoot.ToggleResult` | HDR.cpp:99-113 | no result iff no flip request was accepted; never Unsupported; On iff some display was successfully turned on |
| `HdrRoot.ToggleHdrStatus` | HDR.cpp:77-119 | every supported display is asked for the opposite of its own state, and unsupported or unqueryable displays get no set call; the result is absent iff no flip landed, never Unsupported, and On iff some display was flipped on |
| `HdrRoot.NothingVisitedWithoutEnumeration` | HDR.cpp:25-30 | with a failed enumeration call the status is Unsupported and the toggle issues no call and reports failure |
| `HdrLib.GetWindowsHdrStatus` | hdr/HDR.cpp:41-71 | Unsupported iff no successful query reports support; otherwise On iff some successful query reports HDR enabled, even on a display without support |
| `HdrLib.FailedQueryContributesNothing` | hdr/HDR.cpp:55-61 | removing a display whose colour query fails leaves both flags of the status loop unchanged |
| `HdrLib.SetResult` | hdr/HDR.cpp:92-102 | the set loop reports nothing iff no supported display accepted the request, and otherwise the requested state |
| `HdrLib.SetWindowsHdrStatus` | hdr/HDR.cpp:73-108 | the result is absent or the requested state; present iff some supported display accepted; only supported displays are called |
| `HdrLib.SetIgnoresRequery` | hdr/HDR.cpp:95-101 | the answers of a query made after the set call do not influence the result |
| `HdrLib.ToggleHdrStatus` | hdr/HDR.cpp:110-116 | Unsupported is reported without any set call; otherwise the set loop runs with the opposite of the aggregate and only supported displays get a set call, and success never reports the old state |
| `HdrLib.DisplayFor` | hdr/HDR.cpp:132-152 | a display is listed iff both its colour and name queries succeed, always under the monitor's friendly name |
| `HdrLib.GetDisplays` | hdr/HDR.cpp:118-156 | the listing holds only displays whose two queries succeed, each listed, in enumeration order: the k-th entry is that of the k-th path whose queries succeed |
| `HdrCommon.GetDisplayHdrStatus` | common/HDR.cpp:41-57 | a failed colour query or missing support gives Unsupported; otherwise On iff HDR is enabled |
| `HdrCommon.GetWindowsHdrStatusAsWritten` | common/HDR.cpp:59-74 | the loop as written reports the last enumerated display's status, Unsupported for no display |
| `HdrCommon.MaxStatusOf` | common/HDR.cpp:61-71 | the intended aggregate is at least every display's status and is one of them (Unsupported for none) |
| `HdrCommon.GetWindowsHdrStatus` | common/HDR.cpp:59-74 | as intended: Unsupported iff no display reports support, otherwise On iff some supported display has HDR on |
| `HdrCommon.LastDisplayOverridesEarlierOnes` | common/HDR.cpp:64-68 | an HDR-on display followed by one without support: the code as written reports Unsupported and its toggle does nothing; the intended aggregate reports On and its toggle turns the first display off |
| `HdrCommon.SingleDisplayAggregatesAgree` | common/HDR.cpp:59-74 | with a single display the loop as written and the intended aggregate agree |
| `HdrCommon.SetDisplayHdrStatus` | common/HDR.cpp:76-103 | absent iff the query fails, support is missing or the set call is refused; otherwise the re-queried status |
| `HdrCommon.SetReportsObservedState` | common/HDR.cpp:101-102 | an accepted request to enable can be reported as Off, because the re-queried state is returned |
| `HdrCommon.SetResults` | common/HDR.cpp:107-120 | absent iff every per-display call failed; otherwise one of the per-display results and at least all of them |
| `HdrCommon.SetResultsMonotone` | common/HDR.cpp:110-117 | a later failing display never erases an earlier result, and the accumulated status never decreases |
| `HdrCommon.SetWindowsHdrStatus` | common/HDR.cpp:105-121 | absent iff every per-display call failed; otherwise the result is some display's re-queried status and no display's is larger (the maximum); calls go to the supported displays only |
| `HdrCommon.ToggleFrom` | common/HDR.cpp:123-129 | Unsupported gives `Some(Unsupported)` and no call; Off enables, On disables every display |
| `HdrCommon.ToggleHdrStatus` | common/HDR.cpp:123-129 | no call when no display supports HDR; otherwise the outcome, calls and re-queried result alike, is that of setting every display on when none has HDR on, and off otherwise |
| `HdrCommon.ToggleHdrStatusAsWritten` | common/HDR.cpp:123-129 | the toggle as written picks its direction from the last display's status |
| `HdrCommon.GetFallbackDisplayName` | common/HDR.cpp:131-147 | "Internal Display" iff the base-type query succeeds with a technology that is not OTHER and has the INTERNAL bit, else "Unnamed" |
| `HdrCommon.DisplayFor` | common/HDR.cpp:160-186 | a display is listed iff both queries succeed, under its EDID name when it has one and the fallback name otherwise |
| `HdrCommon.GetDisplays` | common/HDR.cpp:149-189 | the listing holds only displays whose two queries succeed, each listed, in enumeration order: the k-th entry is that of the k-th path whose queries succeed |
| `Wrappers.CollectAppend` | common/HDR.cpp:153-188 | a loop that appends each successful answer collects over a concatenation the two parts' answers in turn |
| `Wrappers.CollectSingle` | common/HDR.cpp:153-188 | one path contributes its answer when its queries succeed and nothing otherwise |
| `Registry.CString` | common/LoginStartupConfig.cpp:74-75 | a NUL-terminated buffer reads as its prefix before the first NUL |
| `Registry.CStringOfTerminated` | common/LoginStartupConfig.cpp:74-75 | a string without NUL stored with its terminator reads back unchanged |
| `DisplayConfig.DisplayValueName` | common/DisplayConfig.cpp:37-40 | the value name is "Display." followed by the stable id verbatim |
| `DisplayConfig.DisplayValueNameInjective` | common/DisplayConfig.cpp:37-40 | distinct stable ids are stored under distinct names |
| `DisplayConfig.GetEnabledFlag` | common/DisplayConfig.cpp:42-58 | a failed read-access create gives its code; a missing value gives file-not-found, a non-DWORD unsupported-type, a failed read its code; a read DWORD gives whether it is non-zero |
| `DisplayConfig.SetEnabledFlag` | common/DisplayConfig.cpp:60-73 | success iff the key opens; a landed write stores DWORD 1 or 0 under that name only; the write status is ignored |
| `DisplayConfig.IsEnabled` | common/DisplayConfig.hpp:45-48 | a display is deselected only when its stored flag reads back as false |
| `DisplayConfig.SetThenGet` | common/DisplayConfig.cpp:42-73 | after a landed write, reading back with read access gives the flag written |
| `DisplayConfig.SetLeavesOthers` | common/DisplayConfig.cpp:60-73 | writing one display's flag leaves every other display's flag unchanged |
| `DisplayConfig.UnreadableMeansEnabled` | common/DisplayConfig.hpp:45-48 | a never-written display, one whose key cannot be opened for reading, or one whose value cannot be read, counts as selected |
| `LoginStartupConfig.DirPrefix` | common/LoginStartupConfig.cpp:40-42 | the directory part is a prefix of the path ending in a backslash, with no backslash after it |
| `LoginStartupConfig.ExpectedExe` | common/LoginStartupConfig.cpp:35-43 | the expected executable is exactly `HDRTray.exe` appended to the running executable's directory |
| `LoginStartupConfig.Quoted` | common/LoginStartupConfig.cpp:98-102 | the stored value is the path with one quote character before and after it |
| `LoginStartupConfig.Unquote` | common/LoginStartupConfig.cpp:76-78 | exactly one pair of surrounding quotes is removed, only when there are at least two characters and both ends are quotes; otherwise the text is kept |
| `LoginStartupConfig.UnquoteQuoted` | common/LoginStartupConfig.cpp:76-78 | unquoting undoes quoting for every string |
| `LoginStartupConfig.IsEnabled` | common/LoginStartupConfig.cpp:48-87 | read-access create, probe and read errors are reported; a missing value, one of another type or an empty path is false; otherwise the answer is the equivalence of the expected executable with the unquoted path, error included |
| `LoginStartupConfig.SetEnabled` | common/LoginStartupConfig.cpp:89-111 | success iff the key opens; on stores the quoted path, off deletes the value; no other value is added or changed and every status of the key stays as it was |
| `LoginStartupConfig.EnableRoundTrip` | common/LoginStartupConfig.cpp:76-78 | after a landed enable, the state read back is the equivalence of the expected executable with itself |
| `LoginStartupConfig.DisableRoundTrip` | common/LoginStartupConfig.cpp:97-110 | after a landed disable, the state read back is `false` |
| `Autostart.AutostartValue` | NotifyIcon.cpp:111-122 | the stored value is the executable path in one pair of double quotes |
| `Autostart.IsEnabledIn` | NotifyIcon.cpp:124-148 | enabled iff the probe succeeds or reports more data, the value is a `REG_SZ`, the read succeeds and the text equals the quoted path ignoring case |
| `Autostart.IsAutostartEnabled` | NotifyIcon.cpp:271-284 | false when the key cannot be opened |
| `Autostart.ToggleAutostartEnabled` | NotifyIcon.cpp:150-171 | nothing changes when the key cannot be created; otherwise the quoted path is written when not enabled and deleted when enabled |
| `Autostart.ToggleNegates` | NotifyIcon.cpp:150-171 | a landed toggle negates the enabled state |
| `Autostart.MismatchIsOverwritten` | NotifyIcon.cpp:141 | a present but unquoted value counts as disabled and a toggle overwrites it with the quoted path |
| `Ascii.EqualsIgnoreCaseIsEquivalence` | NotifyIcon.cpp:141 | case-insensitive comparison is an equivalence and agrees with equality of the lower-cased strings |
| `Decimal.ParseLeadingInt` | HDRCmd/subcommand/resolve_display.cpp:58-59 | a parse succeeds only for a leading optional minus and digit, and only with a 32-bit value |
| `Decimal.ParseDecimalString` | HDRCmd/subcommand/resolve_display.cpp:58-59 | the decimal text of an index, followed by any non-digit, parses back to the index |
| `Decimal.ParseDigits` | HDRCmd/subcommand/resolve_display.cpp:58-59 | any run of digits followed by a non-digit parses to its value iff that value fits in 32 bits |
| `Decimal.ParseNegativeDigits` | HDRCmd/subcommand/resolve_display.cpp:58-59 | a minus sign, a run of digits and a non-digit parse to the negated value iff it fits in 32 bits |
| `DisplayName.DisplayName` | HDRCmd/subcommand/display_name.hpp:30-34 | the narrowed name when the name query succeeds, otherwise "display " followed by the index in decimal |
| `DisplayName.FallbackNameNamesIndex` | HDRCmd/subcommand/display_name.hpp:33 | the fallback name carries the index: parsing its tail gives the index back |
| `DisplayName.DisplayNameDependsOnNameAndIndex` | HDRCmd/subcommand/display_name.hpp:32-33 | the name depends only on the name result and the index |
| `ResolveDisplay.Candidates` | HDRCmd/subcommand/resolve_display.cpp:74-79 | the candidates of a stage are exactly the named displays whose folded name matches, in list order |
| `ResolveDisplay.Unique` | HDRCmd/subcommand/resolve_display.cpp:80-84 | a stage yields its candidate iff there is exactly one |
| `ResolveDisplay.IndexHit` | HDRCmd/subcommand/resolve_display.cpp:57-62 | the index stage hits iff a leading integer parses and is a valid position |
| `ResolveDisplay.Resolve` | HDRCmd/subcommand/resolve_display.cpp:54-104 | a valid index wins; else the unique exact match; else, with no exact match, the unique substring match; the result is always a valid position |
| `ResolveDisplay.AmbiguousExactMatchResolvesToNothing` | HDRCmd/subcommand/resolve_display.cpp:88-101 | an ambiguous exact stage ends with no display, since those names are substring matches too |
| `ResolveDisplay.NamelessNeverMatched` | HDRCmd/subcommand/resolve_display.cpp:64-72 | without an index hit, a display whose name query fails is never the result |
| `DisplayUsing.ResolvedDisplays` | HDRCmd/subcommand/DisplayUsing.cpp:39-40 | the resolved displays come from the full list, at most one per id |
| `DisplayUsing.ResolvedStep` | HDRCmd/subcommand/DisplayUsing.cpp:39-40 | resolving one more id appends the display it resolves to, and nothing when it does not resolve |
| `DisplayUsing.Dedup` | HDRCmd/subcommand/DisplayUsing.cpp:41-46 | the selection never holds two displays with the same id |
| `DisplayUsing.DedupDrawsFromInput` | HDRCmd/subcommand/DisplayUsing.cpp:46 | every selected display was resolved from an id |
| `DisplayUsing.DedupCoversInput` | HDRCmd/subcommand/DisplayUsing.cpp:41-46 | every resolved display's id is in the selection |
| `DisplayUsing.DedupStep` | HDRCmd/subcommand/DisplayUsing.cpp:41-46 | a display is appended exactly when its id is not yet selected |
| `DisplayUsing.AlreadySelected` | HDRCmd/subcommand/DisplayUsing.cpp:41-44 | the search finds a display iff one with that id is already selected |
| `DisplayUsing.GetSelectedDisplays` | HDRCmd/subcommand/DisplayUsing.cpp:32-50 | with no ids, the enabled displays; otherwise the de-duplicated resolved displays, no longer than the id list |
| `DisplayUsing.SelectedFitsInDisplays` | HDRCmd/subcommand/DisplayUsing.cpp:37-49 | the selection is never longer than the full display list |
| `DisplayStatus.StatusString` | HDRCmd/subcommand/display_status.cpp:28-39 | Off, On and Unsupported print as "off", "on" and "unsupported" |
| `DisplayStatus.StatusStringInjective` | HDRCmd/subcommand/display_status.cpp:28-39 | different statuses print differently |
| `DisplayStatus.Listed` | HDRCmd/subcommand/display_status.cpp:45 | every kept display is listable and was given, every listable display is kept, and none is added |
| `DisplayStatus.ListedAppend` | HDRCmd/subcommand/display_status.cpp:45 | filtering a concatenation filters each part in turn, so the kept displays stay in their original order |
| `DisplayStatus.ListedSingle` | HDRCmd/subcommand/display_status.cpp:45 | one display is kept exactly when its status and name queries succeed |
| `DisplayStatus.ColumnWidth` | HDRCmd/subcommand/display_status.cpp:53-58 | a column is as wide as its heading or its longest entry, whichever is larger |
| `DisplayStatus.Tabulate` | HDRCmd/subcommand/display_status.cpp:41-82 | rows are numbered by position in the filtered list; the name column is max(4, longest name), the status column max(6, longest status text) |
| `DisplayStatus.PrintStatusLong` | HDRCmd/subcommand/display_status.cpp:41-82 | one row per kept display, numbered from 0 in list order with its narrowed name and status text; no rows when nothing is listable; the name and status columns are as wide as their heading or their widest entry |
| `DisplayStatus.StatusWidthIsFixed` | HDRCmd/subcommand/display_status.cpp:54-58 | the status column is exactly as wide as "Status" or "unsupported" |
| `StatusCmd.RemoveUnderscore` | HDRCmd/subcommand/Status.cpp:35 | removing underscores leaves none, adds no character, and leaves a string without underscores alone |
| `StatusCmd.RemoveUnderscoreContents` | HDRCmd/subcommand/Status.cpp:35 | exactly the underscores are dropped: every other character is kept as often as it occurs |
| `StatusCmd.RemoveUnderscoreAppend` | HDRCmd/subcommand/Status.cpp:35 | removal over a concatenation is the concatenation of the removals, so the kept characters stay in order |
| `StatusCmd.RemoveUnderscoreSingle` | HDRCmd/subcommand/Status.cpp:35 | one character is dropped iff it is an underscore |
| `StatusCmd.Normalize` | HDRCmd/subcommand/Status.cpp:34-35 | the item tested has no upper-case letter and no underscore |
| `StatusCmd.NormalizeAppend` | HDRCmd/subcommand/Status.cpp:34-35 | normalising a concatenation normalises each part in turn |
| `StatusCmd.NormalizeSingle` | HDRCmd/subcommand/Status.cpp:34-35 | one character normalises to nothing if it is an underscore, otherwise to its lower-case form |
| `StatusCmd.NormalizeLength` | HDRCmd/subcommand/Status.cpp:34-35 | the normalised item is shorter than the item by exactly its number of underscores |
| `StatusCmd.Validate` | HDRCmd/subcommand/Status.cpp:32-49 | accepted iff the normalised item is a prefix of a mode or is "x"; the first matching of short, long, exitcode is chosen; errors are non-empty |
| `StatusCmd.ValidateIdempotent` | HDRCmd/subcommand/Status.cpp:36-47 | a canonical mode validates to itself |
| `StatusCmd.ValidateExamples` | HDRCmd/subcommand/Status.cpp:36-45 | the empty item is short, and "x" or "X" is exitcode |
| `StatusCmd.ValidateUnderscoreExamples` | HDRCmd/subcommand/Status.cpp:34-45 | underscores are ignored: "_L" is long and "e_x" is exitcode |
| `StatusCmd.StatusExitCode` | HDRCmd/subcommand/Status.cpp:79-88 | On exits 0, Off 1, Unsupported 2 |
| `StatusCmd.Run` | HDRCmd/subcommand/Status.cpp:62-92 | short and empty print the status of the enabled displays; long adds the listing; exitcode maps the status; anything else is -1 |
| `StatusCmd.ValidatedModeNeverFails` | HDRCmd/subcommand/Status.cpp:70-91 | a mode that passed the validator never exits with -1 |
| `HdrCommands.ExitCodeFor` | HDRCmd/subcommand/Enable.cpp:33-35 | -1 iff no display took the request, 0 iff the requested state is reported, 1 for any other state |
| `HdrCommands.EnableRun` | HDRCmd/subcommand/Enable.cpp:30-36 | enable is requested for the selected displays (the enabled ones when none is named); 0 iff On is reported, -1 iff nothing is, 1 iff another state is reported |
| `HdrCommands.DisableRun` | HDRCmd/subcommand/Disable.cpp:27-33 | disable is requested for all displays; 0 iff Off is reported, -1 iff nothing is, 1 iff another state is reported |
| `HdrCommands.DisableIgnoresSelection` | HDRCmd/subcommand/Disable.cpp:29 | the exit code of `off` does not depend on the enabled subset |
| `HdrCommands.SuccessMeansRequestedState` | HDRCmd/subcommand/Enable.cpp:35 | success is never reported when the opposite state came back |
| `LegacyCommands.LegacyTabulate` | HDRCmd/Subcommands.cpp:82-121 | the old listing shows every display, numbered from 0, with widths max(heading, longest field) |
| `LegacyCommands.StatusRun` | HDRCmd/Subcommands.cpp:123-147 | the old status subcommand dispatches like the new one over all displays; long mode prints the short line and the listing of every display `GetDisplays` returns |
| `LegacyCommands.EnableRun` | HDRCmd/Subcommands.cpp:158-164 | over the set loop of hdr/HDR.cpp, the old `on` exits with 0 or -1, never 1; 0 iff some supported display accepted the request |
| `LegacyCommands.DisableRun` | HDRCmd/Subcommands.cpp:175-181 | over the set loop of hdr/HDR.cpp, the old `off` exits with 0 or -1, never 1; 0 iff some supported display accepted the request |
| `SelectCmd.TargetOf` | HDRCmd/subcommand/Select.cpp:42-45 | an id leads to a stable id iff it resolves to a display that has one |
| `SelectCmd.Targets` | HDRCmd/subcommand/Select.cpp:40-46 | the stable ids written are exactly those the ids lead to, in argument order: the k-th is the target of the k-th id that has one |
| `SelectCmd.StoreFlags` | HDRCmd/subcommand/Select.cpp:46-49 | the writes fail iff there is one and the key cannot be opened, with the key's status; other displays' entries are unchanged |
| `SelectCmd.StoredFlagsReadBack` | HDRCmd/subcommand/Select.cpp:46 | once the writes land and the key reads back, every written display reads back with the requested flag |
| `SelectCmd.ToggleDisplays` | HDRCmd/subcommand/Select.cpp:37-55 | as intended: the first store error, 0 when every store succeeded |
| `SelectCmd.ToggleDisplaysAsWritten` | HDRCmd/subcommand/Select.cpp:47-54 | as written: the exit code is always 0, with the same writes |
| `SelectCmd.ToggleDisplaysAsWrittenLosesError` | HDRCmd/subcommand/Select.cpp:47-54 | a key that cannot be created: the intended code is 5, the code as written is 0 |
| `SelectCmd.Run` | HDRCmd/subcommand/Select.cpp:57-77 | help only with no subcommand; flags stored only for on/off, with on winning; the exit code that of the corrected `toggle_displays`; the listing always printed |
| `SelectCmd.RunAsWritten` | HDRCmd/subcommand/Select.cpp:57-77 | as written: the same help, stored flags and listing as `Run`, but the exit code is always 0 |
| `SelectCmd.RunStoresSelection` | HDRCmd/subcommand/Select.cpp:57-77 | after `select on`/`off` with writes that land and reads that succeed, every addressed display is selected iff `on` |
| `LoginStartupCmd.PrintStatus` | HDRCmd/subcommand/LoginStartup.cpp:36-50 | a failed read prints nothing and returns its code; otherwise ON/OFF, worded with "now" iff a change was requested, and 0 |
| `LoginStartupCmd.Run` | HDRCmd/subcommand/LoginStartup.cpp:52-71 | a failed store returns its code at once; on wins over off; help only without a subcommand; the state is read back and printed |
| `LoginStartupCmd.OffReportsNowOff` | HDRCmd/subcommand/LoginStartup.cpp:52-71 | a landed `off` reports "now OFF" and exits with 0 |
| `LoginStartupCmd.OnReportsNowOn` | HDRCmd/subcommand/LoginStartup.cpp:52-71 | a landed `on` reports "now ON" when the path is equivalent to itself |
| `L10n.CDiv` | common/l10n.cpp:28 | C division truncates toward zero |
| `L10n.CRem` | common/l10n.cpp:42 | C remainder takes the sign of the dividend and completes the division |
| `L10n.BlockId` | common/l10n.cpp:28 | the block is `id / 16 + 1`, kept to 16 bits |
| `L10n.EntryIndex` | common/l10n.cpp:42 | the position in the block is `id % 16` for a non-negative id and never positive for a negative one |
| `L10n.WalkBlock` | common/l10n.cpp:41-53 | the loop returns the entry at the index, or nothing when the block ends first |
| `L10n.EntryAtEncode` | common/l10n.cpp:44-52 | walking an encoded block finds exactly the encoded entries, and nothing past the last |
| `L10n.EntryAtShift` | common/l10n.cpp:44-52 | the walk from an offset does not depend on the data before it |
| `L10n.NegativeIndexFindsNothing` | common/l10n.cpp:42-53 | a negative id never finds a string |
| `L10n.LoadStringLang` | common/l10n.cpp:26-54 | empty when the block is missing or fails to load; otherwise the entry at the id's position |
| `L10n.LoadString` | common/l10n.cpp:56-63 | the neutral string, or the US English one when the neutral one is empty |
| `L10n.MissingNeutralFallsBack` | common/l10n.cpp:58-62 | a missing neutral block makes the lookup the US English one |
| `L10n.LoadStringInto` | common/l10n.cpp:65-74 | an empty buffer is untouched; otherwise as many units as fit, a terminating 0 after them, the rest untouched |
| `TrayIcon.FetchHdrStatus` | HDRTray/NotifyIcon.cpp:322-325 | the status is taken over the enabled displays; nothing else changes |
| `TrayIcon.FetchDarkMode` | HDRTray/NotifyIcon.cpp:327-341 | dark icons iff the taskbar is not light; a failed query changes nothing |
| `TrayIcon.ShownIcon` | HDRTray/NotifyIcon.cpp:343-365 | the "on" icon exactly for On, from the dark set exactly with dark icons, one tooltip per status |
| `TrayIcon.ShownIconDistinguishesStatus` | HDRTray/NotifyIcon.cpp:343-365 | with the same icon set, what is shown identifies the status, and the icon alone tells On from the rest |
| `TrayIcon.UpdateHdrStatus` | HDRTray/NotifyIcon.cpp:156-166 | the status is refreshed, and a change is reported iff it differs from the stored one |
| `TrayIcon.UpdateHdrStatusSettles` | HDRTray/NotifyIcon.cpp:156-166 | a second refresh against unchanged displays reports no change |
| `TrayIcon.Add` | HDRTray/NotifyIcon.cpp:128-147 | status and dark mode are fetched; `added` is set only when the shell accepts the icon |
| `TrayIcon.Remove` | HDRTray/NotifyIcon.cpp:149-154 | `added` is cleared whatever the shell answers |
| `TrayIcon.ReaddAddedIffAccepted` | HDRTray/NotifyIcon.cpp:128-154 | after remove and add, the icon is added exactly when the shell accepted it |
| `TrayIcon.ToggleHdr` | HDRTray/NotifyIcon.cpp:225-246 | a toggle result becomes the status; a failed toggle leaves the state alone |
| `TrayIcon.HdrMenuItem` | HDRTray/NotifyIcon.cpp:298-310 | at the first show of the loaded menu, the HDR item is disabled and relabelled for Unsupported, otherwise default and checked exactly for On |
| `TrayIcon.ShowHdrMenuItem` | HDRTray/NotifyIcon.cpp:298-310 | at a later show the state is set afresh from the status, while the "unsupported" text stays once it was set |
| `TrayIcon.FirstShowIsHdrMenuItem` | HDRTray/NotifyIcon.cpp:298-310 | the first show of the loaded menu gives the item `HdrMenuItem` describes |
| `TrayIcon.RelabelPersists` | HDRTray/NotifyIcon.cpp:298-310 | after any run of shows the item reads "unsupported" exactly when some show found HDR unsupported (or it already did) |
| `TrayIcon.LoginItemChecked` | HDRTray/NotifyIcon.cpp:291-296 | the login item is checked exactly when the setting reads as on |
| `TrayIcon.ToggleLoginStartup` | HDRTray/NotifyIcon.cpp:207-223 | the opposite of the checked state is stored; it fails, leaving the key alone, exactly when the key cannot be created |
| `TrayIcon.CheckedLoginItemTurnsOff` | HDRTray/NotifyIcon.cpp:207-223 | choosing the checked login item turns the setting off once the delete lands |
| `TrayIcon.HandleCommand` | HDRTray/NotifyIcon.cpp:190-205 | the HDR, login and configuration items are handled; only the HDR item changes the state |
| `TrayWindow.Create` | HDRTray/HDRTray.cpp:180-190 | the icon is the first add's result; the wait timer is armed exactly when that add fails; no re-check is pending |
| `TrayWindow.DisplayChange` | HDRTray/HDRTray.cpp:207-217 | the status is always refreshed; when no change shows at once the counter becomes ten and the re-check timer runs, and nothing else changes in either case |
| `TrayWindow.RecheckTick` | HDRTray/HDRTray.cpp:154-160 | a tick with a zero counter stops the timer; otherwise it refreshes and counts down, or stops counting at a change, leaving the timers and the destroyed flag alone |
| `TrayWindow.RecheckTicksBounded` | HDRTray/HDRTray.cpp:154-160 | any run of ticks refreshes at most as often as the counter allowed |
| `TrayWindow.DisplayChangeRechecksAtMostTen` | HDRTray/HDRTray.cpp:154-160 | after one display change the re-checks refresh the status at most ten times |
| `TrayWindow.WaitTimerExpired` | HDRTray/HDRTray.cpp:148-153 | the wait timer stops and the window is destroyed when the icon is still not added; icon, counter and re-check timer are unchanged |
| `TrayWindow.TaskbarCreated` | HDRTray/HDRTray.cpp:236-241 | the icon is removed and added again; the window is destroyed iff that fails; the counter and both timers are unchanged |
| `TrayWindow.LateAddSurvivesWaitTimer` | HDRTray/HDRTray.cpp:148-153 | an icon added on a later taskbar restart keeps the window alive when the wait timer expires |
| `HdrDisplay.Selected` | HDRTrayConfig/HDRDisplay.cpp:40-48 | selected iff the display has a stable id and the store does not record it as deselected |
| `HdrDisplay.Construct` | HDRTrayConfig/HDRDisplay.cpp:27-38 | a failed name query fails construction; HDR is available iff the status query succeeds and is not Unsupported |
| `HdrDisplay.RequestIsSelected` | HDRTrayConfig/HDRDisplay.cpp:50-59 | no stable id: nothing happens; otherwise the flag is stored and only a failed store re-reads the selection |
| `HdrDisplay.FailedRequestShowsSelected` | HDRTrayConfig/HDRDisplay.cpp:54-57 | a failed request leaves the store alone and shows what a read-access open then reads; when that open fails too, the display shows as selected |
| `HdrDisplay.FailedRequestCanShowDeselected` | HDRTrayConfig/HDRDisplay.cpp:50-59 | when only the write-access open fails, a request to select a display stored as 0 shows it as not selected |
| `HdrDisplay.LandedRequestShowsFlag` | HDRTrayConfig/HDRDisplay.cpp:50-59 | a landed request, read back, shows the requested flag |
| `Md2Html.FixDest` | build/md2html.py:48-51 | a relative link gets ".html" on its path, even an empty one, with the other parts kept; any other link is unchanged |
| `Md2Html.FixupLinks` | build/md2html.py:45-53 | the element keeps its class, destination, text and number of children; each link child gets its destination fixed and is not descended into; every other child is fixed up recursively |
| `Md2Html.FixupLinksChildren` | build/md2html.py:45-53 | link children get their destination fixed and are not descended into; other children are fixed up recursively |
| `Md2Html.FixupPreservesShape` | build/md2html.py:45-53 | the fix-up changes nothing but link destinations |
| `Md2Html.FirstMatch` | build/md2html.py:37-42 | the first child, in order, of one of the classes, and none iff no child has one |
| `Md2Html.FirstChildOfType` | build/md2html.py:34-42 | none for a missing element or when no child matches; otherwise the first matching child |
| `Md2Html.Title` | build/md2html.py:58-60 | the text of the first raw text of the first heading, none when either is missing |
| `Md2Html.TitleUnchangedByFixup` | build/md2html.py:55-60 | fixing up the links before looking for the title does not change it |

## Left out

- Threads and change watchers (the registry and display-configuration watchers, the dispatcher hop of the settings view model): these are concurrency, not decision logic.
- Shell and UI calls: `Shell_NotifyIconW`, icon loading, menus, `TrackPopupMenuEx`, the dark-mode hooks, `ShellExecuteW`, message boxes and cursor placement. Their outcomes enter as parameters (`accepted`, `mode`); the calls themselves are not modelled.
- The WinUI pages, view models and property-binding plumbing of the configuration app; its runtime bootstrap and version checks.
- The index-column width of the long listings (`log10`/`ceil`, floating point); rows, name and status widths are modelled.
- Locale lower-casing, `CLI::narrow`/`CLI::widen`, `std::filesystem::equivalent`, `urlsplit`/`urlunsplit` and the Markdown parser/renderer: kept uninterpreted.
- The bodies of `DisplayInfo::GetName`, `GetStatus`, `GetStableID`, `GetEnabledDisplays` and the vector aggregate overloads of common/HDR.h: carried as uninterpreted results; their caching is not modelled.
- The platform's answers are fixed per mode: a query after a set call on another path sees the same answer as before it.
- Case-insensitive comparisons (`_wcsicmp`, `stricmp`, `to_lower`) fold ASCII letters only.
- `LoginStartupConfig.DirPrefix`: the directory of the running executable is taken as everything up to the last backslash; `std::filesystem::path` parsing of other separators and root names is not modelled.
- Writes whose status the source ignores are governed by one `writeLands` parameter per call, so a loop's writes all land or all do not.
- `L10n.WalkBlock`: the source reads length prefixes and bodies without checking them against the block size; the model requires that every entry the walk passes lies within the block (`Fits`), and measures the block in 16-bit units.
- The window procedure's other messages (painting, the notification-icon mouse messages, `IDM_EXIT`, launching the configuration app) and `UpdateDarkMode`: shell plumbing around the modelled state.
- The validator of HDRCmd/Subcommands.cpp:33-50 is the same function as that of HDRCmd/subcommand/Status.cpp and is represented by `StatusCmd.Validate`; likewise its `status_string` (HDRCmd/Subcommands.cpp:63-74) by `DisplayStatus.StatusString`.
- `DisplayInfo::GetIndex` and `GetID` return the constructor's arguments; they are the fields of `HdrApi.DisplayInfo` and need no separate statement.
- The command-line wiring (option parsing, `main`) and the resource constants beyond the ids the tray uses.
- `LegacyCommands.EnableRun`, `LegacyCommands.DisableRun`: HDRCmd/Subcommands.cpp is paired with hdr/HDR.cpp, the module that provides the `hdr::Display` listing it prints. common/HDR.cpp implements the same functions but re-queries after each set (common/HDR.cpp:101-102); with that pairing `on` and `off` could also exit with 1, as `HdrCommands.EnableRun` states for the newer tool.
- `SelectCmd.Run`: its exit code is that of the corrected `SelectCmd.ToggleDisplays` (the first store error), not the 0 that Select.cpp:71 yields through the as-written helper; `SelectCmd.RunAsWritten` models that as-written exit code.
- `DisplayConfigApi.Enumerable`: `modes.at(...)` in common/HDR.cpp:34 throws `std::out_of_range` when a path's mode index is outside the mode buffer; that exception is not modelled, and every operation over the enumeration assumes, through `Enumerable`, that the platform's indices are valid.
- `DisplayStatus.Tabulate`: widths count Unicode scalar values, while `std::wstring::size` counts UTF-16 units, so a name with characters outside the Basic Multilingual Plane gets a narrower column in the model than in the source.

## Findings

| source | as written | input that shows it | evidently intended | confidence | as-written member | corrected member |
|---|---|---|---|---|---|---|
| HDRCmd/subcommand/Select.cpp:47-49 | the store error is assigned through `*result` while `result` is an empty `std::optional` (undefined behaviour), so `value_or(0)` returns 0 | `select on 0` for a display with a stable id, when the configuration key cannot be created (status 5) | return the first store error | not executed | `SelectCmd.ToggleDisplaysAsWritten` (`SelectCmd.ToggleDisplaysAsWrittenLosesError`) | `SelectCmd.ToggleDisplays` |
| common/HDR.cpp:64-68 | both flags are reassigned for every display, so the aggregate is the last enumerated display's status | an HDR-on display followed by a display without HDR support: reported Unsupported, and the toggle issues no set call | `anySupported`/`anyEnabled` accumulate over all displays | not executed | `HdrCommon.GetWindowsHdrStatusAsWritten` (`HdrCommon.LastDisplayOverridesEarlierOnes`) | `HdrCommon.GetWindowsHdrStatus` |

=== FILE: ascii.dfy ===
/** Character-wise case handling of the C locale, as used by `_wcsicmp`,
    `stricmp` and `std::tolower`: only the ASCII letters change case. */
module Ascii {

  /** Lower-casing of one character: only `A`..`Z` change. */
  function AsciiLower(c: char): (l: char)
    ensures 'A' <= c <= 'Z' ==> 'a' <= l <= 'z' && l as int == c as int + 32
    ensures !('A' <= c <= 'Z') ==> l == c
  {
    if 'A' <= c <= 'Z' then (c as int + 32) as char else c
  }

  /** Lower-casing of a string, character by character. */
  function ToLower(s: string): (r: string)
    ensures |r| == |s| && forall i | 0 <= i < |s| :: r[i] == AsciiLower(s[i])
  {
    seq(|s|, i requires 0 <= i < |s| => AsciiLower(s[i]))
  }

  /** Case-insensitive equality (`_wcsicmp`/`stricmp` returning 0). */
  predicate EqualsIgnoreCase(a: string, b: string) {
    |a| == |b| && forall i | 0 <= i < |a| :: AsciiLower(a[i]) == AsciiLower(b[i])
  }

  /** The comparison is an equivalence, ignores ASCII case, and coincides
      with equality of the lower-cased strings. */
  lemma EqualsIgnoreCaseIsEquivalence(a: string, b: string, c: string)
    ensures EqualsIgnoreCase(a, a)
    ensures EqualsIgnoreCase(a, b) ==> EqualsIgnoreCase(b, a)
    ensures EqualsIgnoreCase(a, b) && EqualsIgnoreCase(b, c) ==> EqualsIgnoreCase(a, c)
    ensures EqualsIgnoreCase(a, b) <==> ToLower(a) == ToLower(b)
    ensures EqualsIgnoreCase("A", "a")
  {
    if ToLower(a) == ToLower(b) {
      assert forall i | 0 <= i < |a| :: ToLower(a)[i] == ToLower(b)[i];
    }
  }
}

=== FILE: autostart.dfy ===
/** The first autostart code of the tray (NotifyIcon.cpp): the quoted path
    of the running executable stored as a `REG_SZ` value under the per-user
    `Run` key, compared case-insensitively when read back. */
module Autostart {
  import opened Wrappers
  import opened Registry
  import opened Ascii

  const ValueName: string := "HDRTray"
  const Quote: char := '"'

  /** `get_autostart_value`: the running executable's path in one pair of
      double quotes. */
  function AutostartValue(exe: string): (v: string)
    ensures |v| == |exe| + 2
    ensures v[0] == Quote && v[|v| - 1] == Quote && v[1..|v| - 1] == exe
  {
    [Quote] + exe + [Quote]
  }

  /** `is_autostart_enabled` on an open key: the probe must answer
      `ERROR_SUCCESS` or `ERROR_MORE_DATA`, the value must be a `REG_SZ`, the
      read must succeed, and the characters up to the first NUL must equal
      `expected` ignoring ASCII case. */
  function IsEnabledIn(key: Key, expected: string): (enabled: bool)
    ensures enabled <==>
              ValueName in key.values
              && (key.probeStatus == ErrorSuccess || key.probeStatus == ErrorMoreData)
              && key.values[ValueName].Sz?
              && key.readStatus == ErrorSuccess
              && EqualsIgnoreCase(CString(key.values[ValueName].data), expected)
  {
    var probe := if ValueName in key.values then key.probeStatus else ErrorFileNotFound;
    var present := probe == ErrorSuccess || probe == ErrorMoreData;
    if !present then false
    else match key.values[ValueName]
      case Sz(data) => key.readStatus == ErrorSuccess && EqualsIgnoreCase(CString(data), expected)
      case _ => false
  }

  /** `IsAutostartEnabled`: false when the key cannot be opened for
      reading. */
  function IsAutostartEnabled(key: Key, exe: string): (enabled: bool)
    ensures key.openStatus != ErrorSuccess ==> !enabled
    ensures key.openStatus == ErrorSuccess ==> (enabled <==> IsEnabledIn(key, AutostartValue(exe)))
  {
    key.openStatus == ErrorSuccess && IsEnabledIn(key, AutostartValue(exe))
  }

  /** `ToggleAutostartEnabled`: nothing happens when the key cannot be
      created; otherwise the quoted path (with its terminator) is written when
      the entry does not match, and the value is deleted when it does; the
      write status is ignored. */
  function ToggleAutostartEnabled(key: Key, exe: string, writeLands: bool): (after: Key)
    ensures key.createStatus != ErrorSuccess || !writeLands ==> after == key
    ensures key.createStatus == ErrorSuccess && writeLands && !IsEnabledIn(key, AutostartValue(exe)) ==>
              after.values == key.values[ValueName := Sz(AutostartValue(exe) + [Nul])]
    ensures key.createStatus == ErrorSuccess && writeLands && IsEnabledIn(key, AutostartValue(exe)) ==>
              after.values == key.values - {ValueName}
    ensures after.openStatus == key.openStatus && after.createStatus == key.createStatus
            && after.probeStatus == key.probeStatus && after.readStatus == key.readStatus
  {
    if key.createStatus != ErrorSuccess || !writeLands then key
    else
      var value := AutostartValue(exe);
      if !IsEnabledIn(key, value) then key.(values := key.values[ValueName := Sz(value + [Nul])])
      else key.(values := key.values - {ValueName})
  }

  /** With both opens, the probe and the read succeeding, a landed toggle
      negates `IsAutostartEnabled`. */
  lemma ToggleNegates(key: Key, exe: string)
    requires key.openStatus == ErrorSuccess && key.createStatus == ErrorSuccess
    requires key.probeStatus == ErrorSuccess || key.probeStatus == ErrorMoreData
    requires key.readStatus == ErrorSuccess
    requires Nul !in exe
    ensures IsAutostartEnabled(ToggleAutostartEnabled(key, exe, true), exe) == !IsAutostartEnabled(key, exe)
  {
    var value := AutostartValue(exe);
    assert Nul !in value;
    CStringOfTerminated(value);
    EqualsIgnoreCaseIsEquivalence(value, value, value);
  }

  /** A present value that names another path, or the same path without
      quotes, counts as disabled, and a landed toggle overwrites it with the
      quoted path. */
  lemma MismatchIsOverwritten(key: Key, exe: string)
    requires key.openStatus == ErrorSuccess && key.createStatus == ErrorSuccess
    requires ValueName in key.values && key.values[ValueName] == Sz(exe)
    ensures !IsAutostartEnabled(key, exe)
    ensures ToggleAutostartEnabled(key, exe, true).values[ValueName] == Sz(AutostartValue(exe) + [Nul])
  {
    assert |CString(exe)| <= |exe| < |AutostartValue(exe)|;
  }
}

=== FILE: decimal.dfy ===
/** Decimal text of integers: `std::from_chars` for `int` (an optional minus
    sign, then at least one digit, parsed as far as digits go, rejected when
    out of the 32-bit range) and the decimal formatting of a natural number
    used by `std::format`. */
module Decimal {
  import opened Wrappers

  const Int32Min: int := -0x8000_0000
  const Int32Max: int := 0x7FFF_FFFF

  predicate IsDigit(c: char) {
    '0' <= c <= '9'
  }

  function DigitValue(c: char): nat
    requires IsDigit(c)
  {
    c as int - '0' as int
  }

  function DigitChar(d: nat): (c: char)
    requires d < 10
    ensures IsDigit(c) && DigitValue(c) == d
  {
    ('0' as int + d) as char
  }

  /** The longest prefix of `s` made of digits. */
  function LeadingDigits(s: string): (ds: string)
    ensures ds <= s
    ensures forall i | 0 <= i < |ds| :: IsDigit(ds[i])
    ensures |ds| < |s| ==> !IsDigit(s[|ds|])
    decreases |s|
  {
    if |s| == 0 || !IsDigit(s[0]) then [] else [s[0]] + LeadingDigits(s[1..])
  }

  /** The number a non-empty run of digits denotes, most significant first. */
  function DigitsValue(ds: string): nat
    requires forall i | 0 <= i < |ds| :: IsDigit(ds[i])
    decreases |ds|
  {
    if |ds| == 0 then 0
    else DigitsValue(ds[..|ds| - 1]) * 10 + DigitValue(ds[|ds| - 1])
  }

  /** `std::from_chars(first, last, int&)`: succeeds with the value of the
      leading (optionally negative) decimal number when it has at least one
      digit and fits in 32 bits; characters after the digits are ignored;
      no leading blanks or plus sign are accepted. */
  function ParseLeadingInt(s: string): (r: Option<int>)
    ensures r.Some? ==> Int32Min <= r.value <= Int32Max
    ensures r.Some? ==> |s| > 0 && (IsDigit(s[0]) || (s[0] == '-' && |s| > 1 && IsDigit(s[1])))
    ensures |s| == 0 || !(IsDigit(s[0]) || s[0] == '-') ==> r.None?
  {
    var negative := |s| > 0 && s[0] == '-';
    var rest := if negative then s[1..] else s;
    var ds := LeadingDigits(rest);
    if |ds| == 0 then None
    else
      var v := if negative then -(DigitsValue(ds) as int) else DigitsValue(ds);
      if Int32Min <= v <= Int32Max then Some(v) else None
  }

  /** The shortest decimal digits of `n`, as `std::format("{}", n)` writes
      them. */
  function DecimalString(n: nat): (s: string)
    ensures |s| > 0
    ensures forall i | 0 <= i < |s| :: IsDigit(s[i])
    ensures DigitsValue(s) == n
    decreases n
  {
    if n < 10 then [DigitChar(n)]
    else
      var prefix := DecimalString(n / 10);
      var s := prefix + [DigitChar(n % 10)];
      assert s[..|s| - 1] == prefix;
      s
  }

  /** The digits run through the end of the digits and stop at a non-digit. */
  lemma {:induction false} LeadingDigitsOfDigits(ds: string, rest: string)
    requires forall i | 0 <= i < |ds| :: IsDigit(ds[i])
    requires |rest| == 0 || !IsDigit(rest[0])
    ensures LeadingDigits(ds + rest) == ds
    decreases |ds|
  {
    if |ds| > 0 {
      assert (ds + rest)[1..] == ds[1..] + rest;
      LeadingDigitsOfDigits(ds[1..], rest);
    }
  }

  /** Parsing the decimal text of a number in the 32-bit range, followed by
      anything that does not start with a digit, gives the number back. */
  lemma ParseDecimalString(n: nat, rest: string)
    requires n <= Int32Max
    requires |rest| == 0 || !IsDigit(rest[0])
    ensures ParseLeadingInt(DecimalString(n) + rest) == Some(n)
  {
    var s := DecimalString(n);
    LeadingDigitsOfDigits(s, rest);
    assert (s + rest)[0] == s[0];
  }

  /** A run of digits followed by anything that does not start with a digit
      parses to the run's value exactly when that value fits in 32 bits. */
  lemma ParseDigits(ds: string, rest: string)
    requires |ds| > 0 && forall i | 0 <= i < |ds| :: IsDigit(ds[i])
    requires |rest| == 0 || !IsDigit(rest[0])
    ensures ParseLeadingInt(ds + rest) == if DigitsValue(ds) <= Int32Max then Some(DigitsValue(ds) as int) else None
  {
    LeadingDigitsOfDigits(ds, rest);
    assert (ds + rest)[0] == ds[0];
  }

  /** A minus sign, a run of digits and anything that does not start with a
      digit parse to the negated value exactly when it fits in 32 bits. */
  lemma ParseNegativeDigits(ds: string, rest: string)
    requires |ds| > 0 && forall i | 0 <= i < |ds| :: IsDigit(ds[i])
    requires |rest| == 0 || !IsDigit(rest[0])
    ensures DigitsValue(ds) <= -Int32Min ==> ParseLeadingInt("-" + (ds + rest)) == Some(-(DigitsValue(ds) as int))
    ensures DigitsValue(ds) > -Int32Min ==> ParseLeadingInt("-" + (ds + rest)) == None
  {
    LeadingDigitsOfDigits(ds, rest);
    ParseNegative("-" + (ds + rest), ds);
  }

  /** A minus sign followed by a non-empty run of digits parses to the
      negated value of the run when it fits in 32 bits. */
  lemma ParseNegative(s: string, ds: string)
    requires |s| > 0 && s[0] == '-'
    requires |ds| > 0 && LeadingDigits(s[1..]) == ds
    ensures DigitsValue(ds) <= -Int32Min ==> ParseLeadingInt(s) == Some(-(DigitsValue(ds) as int))
    ensures DigitsValue(ds) > -Int32Min ==> ParseLeadingInt(s) == None
  {
  }
}

=== FILE: display_config.dfy ===
/** The per-display selection store (common/DisplayConfig.cpp and .hpp): one
    `REG_DWORD` per display under `HKCU\SOFTWARE\HDRTray`, named after the
    display's stable id. */
module DisplayConfig {
  import opened Wrappers
  import opened Registry

  const ValuePrefix: string := "Display."

  /** `DisplayValueName`: the prefix followed by the stable id verbatim. */
  function DisplayValueName(stableId: string): (name: string)
    ensures |name| == |ValuePrefix| + |stableId|
    ensures name[..|ValuePrefix|] == ValuePrefix && name[|ValuePrefix|..] == stableId
  {
    ValuePrefix + stableId
  }

  /** Distinct stable ids are stored under distinct value names. */
  lemma DisplayValueNameInjective(a: string, b: string)
    requires a != b
    ensures DisplayValueName(a) != DisplayValueName(b)
  {
  }

  /** `GetEnabledFlag`: the status of the read-access create when the key
      cannot be created or opened that way; otherwise the status of
      `GetValue`, which is `ERROR_FILE_NOT_FOUND` for a missing value,
      `ERROR_UNSUPPORTED_TYPE` for a value that is not a `REG_DWORD` and the
      platform's read status for a `REG_DWORD`; after a successful read,
      whether the stored number is non-zero. */
  function GetEnabledFlag(key: Key, stableId: string): (r: Result<bool, int>)
    ensures key.readCreateStatus != ErrorSuccess ==> r == Err(key.readCreateStatus)
    ensures key.readCreateStatus == ErrorSuccess ==>
              (r.Ok? <==> DisplayValueName(stableId) in key.values
                          && key.values[DisplayValueName(stableId)].Dword?
                          && key.readStatus == ErrorSuccess)
    ensures key.readCreateStatus == ErrorSuccess && DisplayValueName(stableId) !in key.values ==>
              r == Err(ErrorFileNotFound)
    ensures (key.readCreateStatus == ErrorSuccess && DisplayValueName(stableId) in key.values
             && !key.values[DisplayValueName(stableId)].Dword?) ==> r == Err(ErrorUnsupportedType)
    ensures (key.readCreateStatus == ErrorSuccess && DisplayValueName(stableId) in key.values
             && key.values[DisplayValueName(stableId)].Dword? && key.readStatus != ErrorSuccess) ==>
              r == Err(key.readStatus)
    ensures r.Ok? ==> (r.value <==> key.values[DisplayValueName(stableId)].n != 0)
  {
    if key.readCreateStatus != ErrorSuccess then Err(key.readCreateStatus)
    else
      var name := DisplayValueName(stableId);
      if name !in key.values then Err(ErrorFileNotFound)
      else match key.values[name]
        case Dword(n) => if key.readStatus != ErrorSuccess then Err(key.readStatus) else Ok(n != 0)
        case _ => Err(ErrorUnsupportedType)
  }

  /** `SetEnabledFlag`: once the key is open, a `REG_DWORD` 1 or 0 is written
      under the display's name (when `writeLands`; the write status is
      ignored) and success is reported. */
  function SetEnabledFlag(key: Key, stableId: string, flag: bool, writeLands: bool): (w: Written)
    ensures w.result.Ok? <==> key.createStatus == ErrorSuccess
    ensures w.result.Err? ==> w.result.error == key.createStatus && w.key == key
    ensures w.key.values.Keys <= key.values.Keys + {DisplayValueName(stableId)}
    ensures forall name | name in key.values && name != DisplayValueName(stableId) ::
              name in w.key.values && w.key.values[name] == key.values[name]
    ensures w.result.Ok? && writeLands ==>
              DisplayValueName(stableId) in w.key.values &&
              w.key.values[DisplayValueName(stableId)] == Dword(if flag then 1 else 0)
    ensures !writeLands ==> w.key == key
    ensures w.key.createStatus == key.createStatus && w.key.readCreateStatus == key.readCreateStatus
            && w.key.readStatus == key.readStatus
  {
    if key.createStatus != ErrorSuccess then Written(Err(key.createStatus), key)
    else if !writeLands then Written(Ok(()), key)
    else Written(Ok(()), key.(values := key.values[DisplayValueName(stableId) := Dword(if flag then 1 else 0)]))
  }

  /** `IsEnabled`: the stored flag when it can be read, true otherwise. */
  function IsEnabled(key: Key, stableId: string): (enabled: bool)
    ensures !enabled <==> GetEnabledFlag(key, stableId) == Ok(false)
  {
    GetEnabledFlag(key, stableId).GetOr(true)
  }

  /** A landed write reads back as the flag written, once the key also
      opens with read access and the read succeeds. */
  lemma SetThenGet(key: Key, stableId: string, flag: bool)
    requires key.createStatus == ErrorSuccess && key.readCreateStatus == ErrorSuccess
    requires key.readStatus == ErrorSuccess
    ensures GetEnabledFlag(SetEnabledFlag(key, stableId, flag, true).key, stableId) == Ok(flag)
    ensures IsEnabled(SetEnabledFlag(key, stableId, flag, true).key, stableId) == flag
  {
  }

  /** A write for one display leaves every other display's flag as it was. */
  lemma SetLeavesOthers(key: Key, stableId: string, other: string, flag: bool, writeLands: bool)
    requires other != stableId
    ensures GetEnabledFlag(SetEnabledFlag(key, stableId, flag, writeLands).key, other)
            == GetEnabledFlag(key, other)
  {
    DisplayValueNameInjective(stableId, other);
  }

  /** A display never written to, whose key cannot be opened for reading, or
      whose stored value cannot be read, counts as selected. */
  lemma UnreadableMeansEnabled(key: Key, stableId: string)
    requires key.readCreateStatus != ErrorSuccess || DisplayValueName(stableId) !in key.values
             || key.readStatus != ErrorSuccess
    ensures IsEnabled(key, stableId)
  {
  }
}

=== FILE: display_config_api.dfy ===
/** The platform's display-configuration API as seen by the three HDR
    modules (HDR.cpp, hdr/HDR.cpp, common/HDR.cpp), reduced to an oracle:
    a snapshot of the active paths and modes, and for every mode the answers
    of the device-info queries and of the set call.

    The answers are fixed per mode: a query made after a set call on another
    path sees the same answer as before it. */
module DisplayConfigApi {
  import opened Wrappers
  import opened HdrApi

  /** `DISPLAYCONFIG_GET_ADVANCED_COLOR_INFO` as far as it is read. */
  datatype ColorInfo = ColorInfo(supported: bool, enabled: bool)

  /** `DISPLAYCONFIG_TARGET_DEVICE_NAME` as far as it is read. */
  datatype TargetName = TargetName(fromEdid: bool, friendlyName: string)

  /** Outcome of `DisplayConfigSetDeviceInfo` for one requested state:
      whether the call returned `ERROR_SUCCESS`, and the answer of a colour
      query issued right after it (`None` when that query fails). */
  datatype SetResponse = SetResponse(accepted: bool, requery: Option<ColorInfo>)

  /** One `DISPLAYCONFIG_MODE_INFO` together with the platform's answers
      about it. `None` stands for a query that does not return
      `ERROR_SUCCESS`. */
  datatype Mode = Mode(
    color: Option<ColorInfo>,
    targetName: Option<TargetName>,
    baseTechnology: Option<bv32>,
    onEnable: SetResponse,
    onDisable: SetResponse)

  function SetResponseFor(m: Mode, enable: bool): SetResponse {
    if enable then m.onEnable else m.onDisable
  }

  /** `DISPLAYCONFIG_PATH_INFO`, reduced to `targetInfo.modeInfoIdx`. */
  datatype Path = Path(modeInfoIdx: nat)

  /** One `QDC_ONLY_ACTIVE_PATHS` configuration: whether the buffer-size
      query and the configuration query succeed, the allocated path buffer
      and the mode buffer. */
  datatype Snapshot = Snapshot(bufferSizesOk: bool, queryOk: bool, paths: seq<Path>, modes: seq<Mode>)

  predicate Queried(cfg: Snapshot) {
    cfg.bufferSizesOk && cfg.queryOk
  }

  /** `modes.at(idx)` throws on an out-of-range index, so every path the loop
      reaches must name an existing mode. */
  predicate Enumerable(cfg: Snapshot) {
    Queried(cfg) ==> forall i | 0 <= i < |cfg.paths| :: cfg.paths[i].modeInfoIdx < |cfg.modes|
  }

  /** `ForEachDisplay`: the modes handed to the callback, in call order. */
  function ForEachDisplay(cfg: Snapshot): (visited: seq<Mode>)
    requires Enumerable(cfg)
    ensures !Queried(cfg) ==> visited == []
    ensures Queried(cfg) ==> |visited| == |cfg.paths|
    ensures Queried(cfg) ==>
              forall i | 0 <= i < |visited| :: visited[i] == cfg.modes[cfg.paths[i].modeInfoIdx]
  {
    if !Queried(cfg) then []
    else seq(|cfg.paths|, i requires 0 <= i < |cfg.paths| => cfg.modes[cfg.paths[i].modeInfoIdx])
  }

  /** The status a successful colour query describes. */
  function StatusOfColor(c: ColorInfo): (s: Status)
    ensures s == Unsupported <==> !c.supported
    ensures s == On <==> c.supported && c.enabled
  {
    if c.supported then (if c.enabled then On else Off) else Unsupported
  }

  /** The colour query succeeds and reports advanced colour as supported. */
  predicate Supported(m: Mode) {
    m.color.Some? && m.color.value.supported
  }

  /** `hdr::Display` of hdr/HDR.h: a name and a status. */
  datatype Display = Display(name: string, status: Status)

  /** A `DisplayConfigSetDeviceInfo` call issued for the display at
      `position` in enumeration order. */
  datatype SetCall = SetCall(position: nat, enable: bool)

  /** What a set or toggle loop returns, together with the set calls it
      issued in order. */
  datatype SetOutcome = SetOutcome(result: Option<Status>, calls: seq<SetCall>)

  /** The state a loop asks a supported display for: the opposite of its
      own state (`Flip`) or a fixed state for every display (`Force`). */
  datatype Request = Flip | Force(enable: bool)

  function Requested(m: Mode, req: Request): bool
    requires Supported(m)
  {
    match req
    case Flip => !m.color.value.enabled
    case Force(e) => e
  }

  /** The set calls of a loop that queries every visited display and issues
      one set call to each display whose query reports support: exactly the
      supported positions, in enumeration order, each with the requested
      state. */
  function CallsToSupported(vs: seq<Mode>, req: Request): (calls: seq<SetCall>)
    ensures forall k | 0 <= k < |calls| ::
              calls[k].position < |vs| && Supported(vs[calls[k].position])
              && calls[k].enable == Requested(vs[calls[k].position], req)
    ensures forall k, l | 0 <= k < l < |calls| :: calls[k].position < calls[l].position
    ensures forall i | 0 <= i < |vs| && Supported(vs[i]) ::
              exists k | 0 <= k < |calls| :: calls[k].position == i
    decreases |vs|
  {
    if |vs| == 0 then []
    else
      var n := |vs| - 1;
      var prev := CallsToSupported(vs[..n], req);
      assert forall i | 0 <= i < n :: vs[..n][i] == vs[i];
      if Supported(vs[n]) then
        var calls := prev + [SetCall(n, Requested(vs[n], req))];
        assert forall k | 0 <= k < |prev| :: calls[k] == prev[k];
        assert calls[|prev|].position == n;
        calls
      else prev
  }

  /** The optional accumulator of the set/toggle loops: the first value is
      taken as is, later ones are combined by `max`. */
  function Accumulate(acc: Option<Status>, s: Status): (r: Option<Status>)
    ensures r.Some?
    ensures acc.None? ==> r.value == s
    ensures acc.Some? ==> (r.value == acc.value || r.value == s)
    ensures acc.Some? ==> Ordinal(acc.value) <= Ordinal(r.value) && Ordinal(s) <= Ordinal(r.value)
  {
    if acc.None? then Some(s) else Some(MaxStatus(acc.value, s))
  }
}

=== FILE: display_name.dfy ===
/** The command-line tool's text conversions and `display_name`
    (HDRCmd/subcommand/display_name.hpp). */
module DisplayName {
  import opened Wrappers
  import opened HdrApi
  import opened Decimal

  /** The conversions the tool borrows from the platform and its CLI
      library, kept uninterpreted: `fold_string` (locale lower-casing through
      `LCMapStringEx`), `CLI::widen` and `CLI::narrow`. */
  datatype Text = Text(fold: string -> string, widen: string -> string, narrow: string -> string)

  const FallbackPrefix: string := "display "

  /** `display_name`: the narrowed display name when the name query succeeds,
      otherwise "display " followed by the display's index in decimal. */
  function DisplayName(d: DisplayInfo, text: Text): (name: string)
    ensures d.GetName().Ok? ==> name == text.narrow(d.GetName().value)
    ensures d.GetName().Err? ==>
              |name| > |FallbackPrefix| && name[..|FallbackPrefix|] == FallbackPrefix
              && name[|FallbackPrefix|..] == DecimalString(d.GetIndex())
  {
    match d.GetName()
    case Ok(n) => text.narrow(n)
    case Err(_) => FallbackPrefix + DecimalString(d.GetIndex())
  }

  /** The fallback name carries the index: parsing what follows the prefix
      gives it back. */
  lemma FallbackNameNamesIndex(d: DisplayInfo, text: Text)
    requires d.GetName().Err? && d.GetIndex() <= Int32Max
    ensures ParseLeadingInt(DisplayName(d, text)[|FallbackPrefix|..]) == Some(d.GetIndex())
  {
    assert DecimalString(d.GetIndex()) + [] == DecimalString(d.GetIndex());
    ParseDecimalString(d.GetIndex(), []);
  }

  /** The name depends on nothing but the name result and the index. */
  lemma DisplayNameDependsOnNameAndIndex(d: DisplayInfo, e: DisplayInfo, text: Text)
    requires d.GetName() == e.GetName() && d.GetIndex() == e.GetIndex()
    ensures DisplayName(d, text) == DisplayName(e, text)
  {
  }
}

=== FILE: display_status.dfy ===
/** Status text and the long status listing
    (HDRCmd/subcommand/display_status.cpp). */
module DisplayStatus {
  import opened Wrappers
  import opened HdrApi
  import opened DisplayName

  /** `status_string`. */
  function StatusString(s: Status): (str: string)
    ensures s == Off ==> str == "off"
    ensures s == On ==> str == "on"
    ensures s == Unsupported ==> str == "unsupported"
  {
    match s
    case Off => "off"
    case On => "on"
    case Unsupported => "unsupported"
  }

  /** Different statuses are printed differently. */
  lemma StatusStringInjective(a: Status, b: Status)
    requires a != b
    ensures StatusString(a) != StatusString(b)
  {
  }

  const NameHeading: string := "Name"
  const StatusHeading: string := "Status"

  /** A display is listed only when both its (cached, the default) status
      and its name can be queried. */
  predicate Listable(d: DisplayInfo) {
    d.cachedStatus.Ok? && d.name.Ok?
  }

  /** `std::erase_if` with the negation of `Listable`: the listable displays
      in their original order. */
  function Listed(ds: seq<DisplayInfo>): (r: seq<DisplayInfo>)
    ensures |r| <= |ds|
    ensures forall k | 0 <= k < |r| :: Listable(r[k]) && r[k] in ds
    ensures forall i | 0 <= i < |ds| && Listable(ds[i]) :: ds[i] in r
    decreases |ds|
  {
    if |ds| == 0 then []
    else
      var prev := Listed(ds[..|ds| - 1]);
      assert forall i | 0 <= i < |ds| - 1 :: ds[..|ds| - 1][i] == ds[i];
      if Listable(ds[|ds| - 1]) then prev + [ds[|ds| - 1]] else prev
  }

  /** Filtering a concatenation filters each part in turn, so the listed
      displays keep their original order. */
  lemma {:induction false} ListedAppend(ds: seq<DisplayInfo>, es: seq<DisplayInfo>)
    ensures Listed(ds + es) == Listed(ds) + Listed(es)
    decreases |es|
  {
    if |es| == 0 {
      assert ds + es == ds;
    } else {
      var n := |es| - 1;
      assert (ds + es)[..|ds + es| - 1] == ds + es[..n];
      assert (ds + es)[|ds + es| - 1] == es[n];
      ListedAppend(ds, es[..n]);
    }
  }

  /** One display is listed exactly when it is listable. */
  lemma ListedSingle(d: DisplayInfo)
    ensures Listed([d]) == if Listable(d) then [d] else []
  {
    assert [d][..0] == [];
  }

  /** A column width: the heading's length or the longest entry, whichever
      is larger. */
  function ColumnWidth(heading: nat, lengths: seq<nat>): (w: nat)
    ensures w >= heading && forall i | 0 <= i < |lengths| :: lengths[i] <= w
    ensures w == heading || exists i | 0 <= i < |lengths| :: w == lengths[i]
    decreases |lengths|
  {
    if |lengths| == 0 then heading
    else
      var n := |lengths| - 1;
      var prev := ColumnWidth(heading, lengths[..n]);
      assert forall i | 0 <= i < n :: lengths[..n][i] == lengths[i];
      if prev < lengths[n] then lengths[n] else prev
  }

  /** One printed row: its number, the narrowed name and the status text. */
  datatype Row = Row(number: nat, name: string, status: string)

  /** The table `print_status_long` prints, without its index-column width
      and padding. */
  datatype Listing = Listing(nameWidth: nat, statusWidth: nat, rows: seq<Row>)

  /** The lengths of the listed names, as the platform returns them. */
  function NameLengths(ds: seq<DisplayInfo>): (ls: seq<nat>)
    requires forall i | 0 <= i < |ds| :: ds[i].cachedStatus.Ok? && ds[i].name.Ok?
    ensures |ls| == |ds| && forall i | 0 <= i < |ds| :: ls[i] == |ds[i].name.value|
  {
    seq(|ds|, i requires 0 <= i < |ds| => |ds[i].name.value|)
  }

  /** The lengths of the listed status texts. */
  function StatusLengths(ds: seq<DisplayInfo>): (ls: seq<nat>)
    requires forall i | 0 <= i < |ds| :: ds[i].cachedStatus.Ok? && ds[i].name.Ok?
    ensures |ls| == |ds| && forall i | 0 <= i < |ds| :: ls[i] == |StatusString(ds[i].cachedStatus.value)|
  {
    seq(|ds|, i requires 0 <= i < |ds| => |StatusString(ds[i].cachedStatus.value)|)
  }

  /** The rows, numbered by their position in the filtered list. */
  function Rows(ds: seq<DisplayInfo>, text: Text): (rows: seq<Row>)
    requires forall i | 0 <= i < |ds| :: ds[i].cachedStatus.Ok? && ds[i].name.Ok?
    ensures |rows| == |ds|
    ensures forall i | 0 <= i < |ds| ::
              rows[i] == Row(i, text.narrow(ds[i].name.value), StatusString(ds[i].cachedStatus.value))
  {
    seq(|ds|, i requires 0 <= i < |ds| =>
      Row(i, text.narrow(ds[i].name.value), StatusString(ds[i].cachedStatus.value)))
  }

  /** The table over the listed displays: one row per display, numbered
      from 0 in list order, with the name column as wide as `Name` or the
      longest name and the status column as wide as `Status` or the longest
      status text. */
  function Tabulate(ds: seq<DisplayInfo>, text: Text): (l: Listing)
    requires forall i | 0 <= i < |ds| :: ds[i].cachedStatus.Ok? && ds[i].name.Ok?
    ensures |l.rows| == |ds|
    ensures forall i | 0 <= i < |ds| ::
              l.rows[i].number == i
              && l.rows[i].name == text.narrow(ds[i].name.value)
              && l.rows[i].status == StatusString(ds[i].cachedStatus.value)
    ensures l.nameWidth >= |NameHeading|
    ensures forall i | 0 <= i < |ds| :: |ds[i].name.value| <= l.nameWidth
    ensures l.nameWidth == |NameHeading| || exists i | 0 <= i < |ds| :: l.nameWidth == |ds[i].name.value|
    ensures l.statusWidth >= |StatusHeading|
    ensures forall i | 0 <= i < |ds| :: |l.rows[i].status| <= l.statusWidth
    ensures l.statusWidth == |StatusHeading| || exists i | 0 <= i < |ds| :: l.statusWidth == |l.rows[i].status|
  {
    Listing(ColumnWidth(|NameHeading|, NameLengths(ds)), ColumnWidth(|StatusHeading|, StatusLengths(ds)), Rows(ds, text))
  }

  /** `print_status_long` over the displays `GetDisplays` returns: one row
      per listable display, numbered from 0 in list order; no rows when no
      display is listable. */
  function PrintStatusLong(displays: seq<DisplayInfo>, text: Text): (l: Listing)
    ensures |l.rows| == |Listed(displays)|
    ensures forall i | 0 <= i < |l.rows| ::
              l.rows[i].number == i
              && l.rows[i].name == text.narrow(Listed(displays)[i].name.value)
              && l.rows[i].status == StatusString(Listed(displays)[i].cachedStatus.value)
    ensures (forall i | 0 <= i < |displays| :: !Listable(displays[i])) ==> l.rows == []
    ensures l.nameWidth >= |NameHeading|
    ensures forall i | 0 <= i < |Listed(displays)| :: |Listed(displays)[i].name.value| <= l.nameWidth
    ensures l.nameWidth == |NameHeading|
            || exists i | 0 <= i < |Listed(displays)| :: l.nameWidth == |Listed(displays)[i].name.value|
    ensures l.statusWidth >= |StatusHeading|
    ensures forall i | 0 <= i < |l.rows| :: |l.rows[i].status| <= l.statusWidth
    ensures l.statusWidth == |StatusHeading| || exists i | 0 <= i < |l.rows| :: l.statusWidth == |l.rows[i].status|
  {
    Tabulate(Listed(displays), text)
  }

  /** The status column is exactly as wide as the heading or "unsupported",
      whichever the rows need. */
  lemma StatusWidthIsFixed(displays: seq<DisplayInfo>, text: Text)
    ensures var l := PrintStatusLong(displays, text);
            l.statusWidth == |StatusHeading|
            || (l.statusWidth == |"unsupported"| && exists i | 0 <= i < |l.rows| :: l.rows[i].status == "unsupported")
  {
    var l := PrintStatusLong(displays, text);
    if l.statusWidth != |StatusHeading| {
      var i :| 0 <= i < |l.rows| && l.statusWidth == |l.rows[i].status|;
      assert l.rows[i].status == StatusString(Listed(displays)[i].cachedStatus.value);
    }
  }
}

=== FILE: display_using.dfy ===
/** `DisplayUsing::GetSelectedDisplays`
    (HDRCmd/subcommand/DisplayUsing.cpp): the displays named on the command
    line, resolved against the full list, each display at most once; the
    enabled displays when none is named. */
module DisplayUsing {
  import opened Wrappers
  import opened HdrApi
  import opened DisplayName
  import opened ResolveDisplay

  /** The ids of a list of displays, in order. */
  function Ids(ds: seq<DisplayInfo>): (r: seq<DisplayId>)
    ensures |r| == |ds| && forall k | 0 <= k < |ds| :: r[k] == ds[k].GetID()
  {
    seq(|ds|, k requires 0 <= k < |ds| => ds[k].GetID())
  }

  predicate NoDuplicateIds(ds: seq<DisplayInfo>) {
    forall k, l | 0 <= k < l < |ds| :: ds[k].GetID() != ds[l].GetID()
  }

  /** The displays the command-line ids resolve to, in argument order; ids
      that do not resolve are skipped. */
  function ResolvedDisplays(all: seq<DisplayInfo>, ids: seq<string>, text: Text): (rs: seq<DisplayInfo>)
    ensures |rs| <= |ids|
    ensures forall k | 0 <= k < |rs| :: rs[k] in all
    decreases |ids|
  {
    if |ids| == 0 then []
    else
      var prev := ResolvedDisplays(all, ids[..|ids| - 1], text);
      match Resolve(all, ids[|ids| - 1], text)
      case Some(p) => prev + [all[p]]
      case None => prev
  }

  /** Resolving one more id appends its display, if it resolves. */
  lemma ResolvedStep(all: seq<DisplayInfo>, ids: seq<string>, i: nat, text: Text)
    requires i < |ids|
    ensures ResolvedDisplays(all, ids[..i + 1], text)
            == match Resolve(all, ids[i], text)
               case Some(p) => ResolvedDisplays(all, ids[..i], text) + [all[p]]
               case None => ResolvedDisplays(all, ids[..i], text)
  {
    assert ids[..i + 1][..i] == ids[..i];
  }

  /** The reference selection: the displays in order, dropping any display
      whose id was already selected. */
  function Dedup(ds: seq<DisplayInfo>): (r: seq<DisplayInfo>)
    ensures NoDuplicateIds(r)
    ensures |r| <= |ds|
    decreases |ds|
  {
    if |ds| == 0 then []
    else
      var prev := Dedup(ds[..|ds| - 1]);
      var d := ds[|ds| - 1];
      if d.GetID() in Ids(prev) then prev
      else
        var r := prev + [d];
        assert forall k | 0 <= k < |prev| :: r[k] == prev[k];
        r
  }

  /** Every selected display is one of the given displays. */
  lemma {:induction false} DedupDrawsFromInput(ds: seq<DisplayInfo>)
    ensures forall k | 0 <= k < |Dedup(ds)| :: Dedup(ds)[k] in ds
    decreases |ds|
  {
    if |ds| > 0 {
      var n := |ds| - 1;
      DedupDrawsFromInput(ds[..n]);
      assert forall x | x in ds[..n] :: x in ds;
    }
  }

  /** Every given display is represented by a selected display with its
      id. */
  lemma {:induction false} DedupCoversInput(ds: seq<DisplayInfo>)
    ensures forall i | 0 <= i < |ds| :: ds[i].GetID() in Ids(Dedup(ds))
    decreases |ds|
  {
    if |ds| > 0 {
      var n := |ds| - 1;
      DedupCoversInput(ds[..n]);
      var prev := Dedup(ds[..n]);
      forall i | 0 <= i < n
        ensures ds[i].GetID() in Ids(Dedup(ds))
      {
        assert ds[..n][i] == ds[i];
        var k :| 0 <= k < |prev| && Ids(prev)[k] == ds[i].GetID();
        assert Ids(Dedup(ds))[k] == Ids(prev)[k];
      }
      if ds[n].GetID() !in Ids(prev) {
        assert Ids(Dedup(ds))[|prev|] == ds[n].GetID();
      }
    }
  }

  /** What `GetSelectedDisplays` returns. */
  function SelectedDisplays(core: Core, ids: seq<string>, text: Text): seq<DisplayInfo> {
    if |ids| == 0 then core.enabledDisplays
    else Dedup(ResolvedDisplays(core.displays, ids, text))
  }

  /** Appending one display to the input appends it to the selection
      unless its id is already selected. */
  lemma DedupStep(ds: seq<DisplayInfo>, d: DisplayInfo)
    ensures Dedup(ds + [d]) == if d.GetID() in Ids(Dedup(ds)) then Dedup(ds) else Dedup(ds) + [d]
  {
    assert (ds + [d])[..|ds|] == ds;
  }

  /** The linear search of the loop body: whether some selected display has
      the id. */
  method AlreadySelected(selected: seq<DisplayInfo>, id: DisplayId) returns (found: bool)
    ensures found <==> id in Ids(selected)
  {
    found := false;
    var j := 0;
    while j < |selected| && !found
      invariant 0 <= j <= |selected|
      invariant found <==> id in Ids(selected)[..j]
    {
      assert Ids(selected)[..j + 1] == Ids(selected)[..j] + [selected[j].GetID()];
      found := selected[j].GetID() == id;
      j := j + 1;
    }
    assert !found ==> Ids(selected)[..j] == Ids(selected);
  }

  /** `GetSelectedDisplays`: the loop over the ids, skipping ids that do not
      resolve and displays whose id is already selected. */
  method GetSelectedDisplays(core: Core, ids: seq<string>, text: Text) returns (selected: seq<DisplayInfo>)
    ensures selected == SelectedDisplays(core, ids, text)
    ensures |ids| == 0 ==> selected == core.enabledDisplays
    ensures |ids| > 0 ==> NoDuplicateIds(selected) && |selected| <= |ids|
  {
    if |ids| == 0 {
      return core.enabledDisplays;
    }
    var all := core.displays;
    selected := [];
    var i := 0;
    while i < |ids|
      invariant 0 <= i <= |ids|
      invariant selected == Dedup(ResolvedDisplays(all, ids[..i], text))
    {
      ResolvedStep(all, ids, i, text);
      var resolved := Resolve(all, ids[i], text);
      if resolved.Some? {
        var d := all[resolved.value];
        DedupStep(ResolvedDisplays(all, ids[..i], text), d);
        var found := AlreadySelected(selected, d.GetID());
        if !found {
          selected := selected + [d];
        }
      }
      i := i + 1;
    }
    assert ids[..|ids|] == ids;
  }

  /** A sequence without repeated elements has as many distinct elements as
      positions. */
  lemma {:induction false} DistinctCard<T>(s: seq<T>)
    requires forall i, j | 0 <= i < j < |s| :: s[i] != s[j]
    ensures |set x | x in s| == |s|
    decreases |s|
  {
    if |s| > 0 {
      var n := |s| - 1;
      DistinctCard(s[..n]);
      assert (set x | x in s) == (set x | x in s[..n]) + {s[n]};
      assert s[n] !in s[..n];
    }
  }

  /** A sequence has at most as many distinct elements as positions. */
  lemma {:induction false} CardAtMostLength<T>(s: seq<T>)
    ensures |set x | x in s| <= |s|
    decreases |s|
  {
    if |s| > 0 {
      var n := |s| - 1;
      CardAtMostLength(s[..n]);
      assert (set x | x in s) == (set x | x in s[..n]) + {s[n]};
    }
  }

  /** A selection of distinct ids drawn from a list is no longer than the
      list. */
  lemma SelectionFitsInList(all: seq<DisplayInfo>, ds: seq<DisplayInfo>)
    requires forall k | 0 <= k < |ds| :: ds[k] in all
    ensures |Dedup(ds)| <= |all|
  {
    var r := Dedup(ds);
    var rIds := Ids(r);
    var allIds := Ids(all);
    DistinctCard(rIds);
    CardAtMostLength(allIds);
    DedupDrawsFromInput(ds);
    forall x | x in rIds
      ensures x in allIds
    {
      var k :| 0 <= k < |rIds| && rIds[k] == x;
      assert r[k] in ds;
      var j :| 0 <= j < |all| && all[j] == r[k];
      assert allIds[j] == x;
    }
    SubsetCard(set x | x in rIds, set x | x in allIds);
  }

  lemma SubsetCard<T>(a: set<T>, b: set<T>)
    requires a <= b
    ensures |a| <= |b|
  {
    assert b == a + (b - a);
  }

  /** The selection is never longer than the full display list. */
  lemma SelectedFitsInDisplays(core: Core, ids: seq<string>, text: Text)
    requires |ids| > 0
    ensures |SelectedDisplays(core, ids, text)| <= |core.displays|
  {
    SelectionFitsInList(core.displays, ResolvedDisplays(core.displays, ids, text));
  }
}

=== FILE: hdr_api.dfy ===
/** The interface of the newest HDR module (common/HDR.h): the `Status`
    enumeration, the `DisplayID` identity with its equality and three-way
    comparison, the per-display `DisplayInfo` accessor object, and the
    no-argument convenience forms of the aggregate operations.

    The bodies of `DisplayInfo::GetName`, `GetStatus`, `GetStableID`, of
    `GetEnabledDisplays` and of the vector overloads of the aggregate
    operations are not part of this model; their results are carried as
    uninterpreted values (fields of `DisplayInfo`, members of `Core`). */
module HdrApi {
  import opened Wrappers

  /** `hdr::Status`. Callers combine statuses through the integer value of
      the enumerators, see `Ordinal`. */
  datatype Status = Unsupported | Off | On

  /** The enumerator's integer value: Unsupported = 0, Off = 1, On = 2. */
  function Ordinal(s: Status): nat {
    match s
    case Unsupported => 0
    case Off => 1
    case On => 2
  }

  /** `static_cast<Status>(n)` for an in-range integer. */
  function FromOrdinal(n: nat): (s: Status)
    requires n <= 2
    ensures Ordinal(s) == n
  {
    if n == 0 then Unsupported else if n == 1 then Off else On
  }

  /** `static_cast<Status>(std::max(int(a), int(b)))`, the combination step
      used by every aggregate in the repository. */
  function MaxStatus(a: Status, b: Status): (m: Status)
    ensures m == a || m == b
    ensures Ordinal(a) <= Ordinal(m) && Ordinal(b) <= Ordinal(m)
  {
    FromOrdinal(if Ordinal(a) < Ordinal(b) then Ordinal(b) else Ordinal(a))
  }

  /** The three statuses are strictly ordered Unsupported < Off < On, and
      the integer value identifies the status. */
  lemma StatusOrder()
    ensures Ordinal(Unsupported) == 0 && Ordinal(Off) == 1 && Ordinal(On) == 2
    ensures forall a: Status, b: Status :: Ordinal(a) == Ordinal(b) ==> a == b
  {
  }

  /** Raw bytes of a `LUID` as laid out in memory, compared by `memcmp`. */
  type Byte = x: int | 0 <= x < 256
  type UInt32 = x: int | 0 <= x < 0x1_0000_0000

  /** `sizeof(LUID)` */
  const LuidSize: nat := 8

  /** `hdr::DisplayID`: the adapter's LUID (as its eight raw bytes) plus the
      target id. */
  datatype DisplayId = DisplayId(adapter: seq<Byte>, id: UInt32)

  predicate WellFormedId(d: DisplayId) {
    |d.adapter| == LuidSize
  }

  /** `std::strong_ordering` */
  datatype Ordering = Less | Equal | Greater

  function Flip(o: Ordering): Ordering {
    match o
    case Less => Greater
    case Equal => Equal
    case Greater => Less
  }

  /** `memcmp` over two buffers of the same size: the first differing byte,
      read as unsigned, decides. */
  function MemCmp(a: seq<Byte>, b: seq<Byte>): (o: Ordering)
    requires |a| == |b|
    ensures o == Equal <==> a == b
    decreases |a|
  {
    if |a| == 0 then Equal
    else if a[0] < b[0] then Less
    else if a[0] > b[0] then Greater
    else
      assert a == [a[0]] + a[1..] && b == [b[0]] + b[1..];
      MemCmp(a[1..], b[1..])
  }

  /** `DisplayID::operator==`: all LUID bytes equal and the ids equal. */
  function IdEquals(a: DisplayId, b: DisplayId): (r: bool)
    requires WellFormedId(a) && WellFormedId(b)
    ensures r <==> a == b
  {
    MemCmp(a.adapter, b.adapter) == Equal && a.id == b.id
  }

  /** `DisplayID::operator<=>`: the LUID bytes by `memcmp`, then the id
      numerically. */
  function Compare(a: DisplayId, b: DisplayId): (o: Ordering)
    requires WellFormedId(a) && WellFormedId(b)
    ensures o == Equal <==> a == b
    ensures a.adapter != b.adapter ==> o == MemCmp(a.adapter, b.adapter)
    ensures a.adapter == b.adapter ==> (o == Less <==> a.id < b.id)
  {
    var luidCmp := MemCmp(a.adapter, b.adapter);
    if luidCmp == Less then Less
    else if luidCmp == Greater then Greater
    else if a.id < b.id then Less
    else if a.id > b.id then Greater
    else Equal
  }

  lemma {:induction false} MemCmpFlip(a: seq<Byte>, b: seq<Byte>)
    requires |a| == |b|
    ensures MemCmp(b, a) == Flip(MemCmp(a, b))
    decreases |a|
  {
    if |a| > 0 && a[0] == b[0] {
      MemCmpFlip(a[1..], b[1..]);
    }
  }

  lemma {:induction false} MemCmpLessTransitive(a: seq<Byte>, b: seq<Byte>, c: seq<Byte>)
    requires |a| == |b| == |c|
    requires MemCmp(a, b) == Less && MemCmp(b, c) == Less
    ensures MemCmp(a, c) == Less
    decreases |a|
  {
    if a[0] == b[0] && b[0] == c[0] {
      MemCmpLessTransitive(a[1..], b[1..], c[1..]);
    }
  }

  /** The three-way comparison yields `equal` exactly when `operator==`
      holds. */
  lemma CompareEqualIffEquals(a: DisplayId, b: DisplayId)
    requires WellFormedId(a) && WellFormedId(b)
    ensures Compare(a, b) == Equal <==> IdEquals(a, b)
  {
  }

  /** Swapping the operands flips the answer: the order is antisymmetric and
      total. */
  lemma CompareAntisymmetric(a: DisplayId, b: DisplayId)
    requires WellFormedId(a) && WellFormedId(b)
    ensures Compare(b, a) == Flip(Compare(a, b))
  {
    MemCmpFlip(a.adapter, b.adapter);
  }

  /** `less` is transitive. */
  lemma CompareTransitive(a: DisplayId, b: DisplayId, c: DisplayId)
    requires WellFormedId(a) && WellFormedId(b) && WellFormedId(c)
    requires Compare(a, b) == Less && Compare(b, c) == Less
    ensures Compare(a, c) == Less
  {
    var ab := MemCmp(a.adapter, b.adapter);
    var bc := MemCmp(b.adapter, c.adapter);
    if ab == Less && bc == Less {
      MemCmpLessTransitive(a.adapter, b.adapter, c.adapter);
    }
  }

  /** `DisplayInfo::ValueFreshness` */
  datatype ValueFreshness = Cached | ForceRefresh

  /** `hdr::DisplayInfo`: constructed from an index and a `DisplayID`. The
      answers of the name, status and stable-id queries are not derived
      here; they are carried as the uninterpreted results `name`,
      `cachedStatus`/`refreshedStatus` and `stableId`. */
  datatype DisplayInfo = DisplayInfo(
    index: nat,
    id: DisplayId,
    name: Result<string, int>,
    cachedStatus: Result<Status, int>,
    refreshedStatus: Result<Status, int>,
    stableId: Result<string, int>)
  {
    function GetIndex(): nat { index }

    function GetID(): DisplayId { id }

    function GetName(): Result<string, int> { name }

    /** The freshness argument defaults to `Cached`. */
    function GetStatus(freshness: ValueFreshness := Cached): Result<Status, int> {
      if freshness == ForceRefresh then refreshedStatus else cachedStatus
    }

    function GetStableID(): Result<string, int> { stableId }
  }

  /** A plain status query is a cached query. */
  lemma GetStatusDefaultsToCached(d: DisplayInfo)
    ensures d.GetStatus() == d.GetStatus(Cached) == d.cachedStatus
  {
  }

  /** The parts of the core whose bodies are not shown, as uninterpreted
      values: the two enumerations and the three vector overloads. */
  datatype Core = Core(
    displays: seq<DisplayInfo>,
    enabledDisplays: seq<DisplayInfo>,
    aggregate: seq<DisplayInfo> -> Status,
    setAggregate: (seq<DisplayInfo>, bool) -> Option<Status>,
    toggleAggregate: seq<DisplayInfo> -> Option<Status>)

  /** No-argument `GetWindowsHDRStatus()`: the vector form over every display
      `GetDisplays()` returns, not over the enabled subset. */
  function GetWindowsHdrStatusAll(core: Core): Status {
    core.aggregate(core.displays)
  }

  /** No-argument `SetWindowsHDRStatus(enable)`: over all displays. */
  function SetWindowsHdrStatusAll(core: Core, enable: bool): Option<Status> {
    core.setAggregate(core.displays, enable)
  }

  /** No-argument `ToggleHDRStatus()`: over all displays. */
  function ToggleHdrStatusAll(core: Core): Option<Status> {
    core.toggleAggregate(core.displays)
  }

  /** The no-argument forms never consult the enabled subset: replacing it
      changes none of their answers. */
  lemma NoArgumentFormsIgnoreEnabledSubset(core: Core, enabled: seq<DisplayInfo>)
    ensures GetWindowsHdrStatusAll(core.(enabledDisplays := enabled)) == GetWindowsHdrStatusAll(core)
    ensures forall enable: bool ::
              SetWindowsHdrStatusAll(core.(enabledDisplays := enabled), enable) == SetWindowsHdrStatusAll(core, enable)
    ensures ToggleHdrStatusAll(core.(enabledDisplays := enabled)) == ToggleHdrStatusAll(core)
  {
  }
}

=== FILE: hdr_commands.dfy ===
/** The `on` and `off` subcommands (HDRCmd/subcommand/Enable.cpp and
    HDRCmd/subcommand/Disable.cpp): one set request and its result mapped to
    an exit code. */
module HdrCommands {
  import opened Wrappers
  import opened HdrApi
  import opened DisplayName
  import opened DisplayUsing

  /** The exit code both subcommands derive from a set result: -1 when no
      display took the request, 0 when the reported state is the requested
      one, 1 for any other reported state. */
  function ExitCodeFor(r: Option<Status>, target: Status): (code: int)
    ensures code == -1 <==> r.None?
    ensures code == 0 <==> r == Some(target)
    ensures code == 1 <==> r.Some? && r.value != target
  {
    match r
    case None => -1
    case Some(s) => if s == target then 0 else 1
  }

  /** `Enable::run`: HDR requested on for the selected displays. */
  function EnableRun(core: Core, ids: seq<string>, text: Text): (code: int)
    ensures code == 0 <==> core.setAggregate(SelectedDisplays(core, ids, text), true) == Some(On)
    ensures code == -1 <==> core.setAggregate(SelectedDisplays(core, ids, text), true).None?
    ensures code == 1 <==> core.setAggregate(SelectedDisplays(core, ids, text), true).Some?
                           && core.setAggregate(SelectedDisplays(core, ids, text), true).value != On
    ensures |ids| == 0 ==> code == ExitCodeFor(core.setAggregate(core.enabledDisplays, true), On)
  {
    ExitCodeFor(core.setAggregate(SelectedDisplays(core, ids, text), true), On)
  }

  /** `Disable::run`: HDR requested off for every display, whatever the
      selection. */
  function DisableRun(core: Core): (code: int)
    ensures code == 0 <==> core.setAggregate(core.displays, false) == Some(Off)
    ensures code == -1 <==> core.setAggregate(core.displays, false).None?
    ensures code == 1 <==> core.setAggregate(core.displays, false).Some?
                           && core.setAggregate(core.displays, false).value != Off
  {
    ExitCodeFor(SetWindowsHdrStatusAll(core, false), Off)
  }

  /** The `off` subcommand does not look at the enabled subset: two cores
      that differ only there give the same exit code. */
  lemma DisableIgnoresSelection(core: Core, other: Core)
    requires other.displays == core.displays && other.setAggregate == core.setAggregate
    ensures DisableRun(other) == DisableRun(core)
  {
  }

  /** Neither subcommand ever reports success for the opposite request. */
  lemma SuccessMeansRequestedState(core: Core, ids: seq<string>, text: Text)
    ensures EnableRun(core, ids, text) == 0 ==> core.setAggregate(SelectedDisplays(core, ids, text), true) != Some(Off)
    ensures DisableRun(core) == 0 ==> core.setAggregate(core.displays, false) != Some(On)
  {
  }
}

=== FILE: hdr_common.dfy ===
/** The newest HDR module (common/HDR.cpp) against the `Display` record and
    the no-argument operations of hdr/HDR.h: a per-display status query, the
    aggregate status, a set loop that re-queries every display it changed,
    the toggle, and the display listing with its name fallback.

    The aggregate loop as written reassigns its two flags for every display,
    so it reports the last display's status (`GetWindowsHdrStatusAsWritten`).
    The evidently intended aggregate, `GetWindowsHdrStatus`, combines the
    per-display statuses by `max`; the toggle is modelled on it. */
module HdrCommon {
  import opened Wrappers
  import opened HdrApi
  import opened DisplayConfigApi

  /** `DISPLAYCONFIG_OUTPUT_TECHNOLOGY_OTHER` (all bits set). */
  const OutputTechnologyOther: bv32 := 0xFFFF_FFFF
  /** `DISPLAYCONFIG_OUTPUT_TECHNOLOGY_INTERNAL` (the top bit). */
  const OutputTechnologyInternal: bv32 := 0x8000_0000

  /** `GetDisplayHDRStatus`: a failed colour query and a display without
      support are both Unsupported; otherwise the enabled flag decides. */
  function GetDisplayHdrStatus(m: Mode): (s: Status)
    ensures s == Unsupported <==> !Supported(m)
    ensures s == On <==> Supported(m) && m.color.value.enabled
    ensures m.color.Some? ==> s == StatusOfColor(m.color.value)
  {
    if m.color.None? then Unsupported
    else if !m.color.value.supported then Unsupported
    else if m.color.value.enabled then On
    else Off
  }

  /** One step of the aggregate loop as written: both flags are assigned
      from the current display's status; the earlier flags are discarded. */
  function OverwriteFlags(earlier: (bool, bool), s: Status): (bool, bool) {
    (s != Unsupported, s == On)
  }

  /** The `(anySupported, anyEnabled)` flags after the loop as written. */
  function LastFlags(vs: seq<Mode>): (bool, bool)
    decreases |vs|
  {
    if |vs| == 0 then (false, false)
    else OverwriteFlags(LastFlags(vs[..|vs| - 1]), GetDisplayHdrStatus(vs[|vs| - 1]))
  }

  /** `GetWindowsHDRStatus` as written: the last enumerated display's status,
      Unsupported when no display is enumerated. */
  function GetWindowsHdrStatusAsWritten(cfg: Snapshot): (s: Status)
    requires Enumerable(cfg)
    ensures |ForEachDisplay(cfg)| == 0 ==> s == Unsupported
    ensures |ForEachDisplay(cfg)| > 0 ==>
              s == GetDisplayHdrStatus(ForEachDisplay(cfg)[|ForEachDisplay(cfg)| - 1])
  {
    var flags := LastFlags(ForEachDisplay(cfg));
    if flags.0 then (if flags.1 then On else Off) else Unsupported
  }

  /** The intended aggregate over the visited modes: the largest per-display
      status, Unsupported for no display. */
  function MaxStatusOf(vs: seq<Mode>): (s: Status)
    ensures forall i | 0 <= i < |vs| :: Ordinal(GetDisplayHdrStatus(vs[i])) <= Ordinal(s)
    ensures s == Unsupported || exists i | 0 <= i < |vs| :: GetDisplayHdrStatus(vs[i]) == s
    decreases |vs|
  {
    if |vs| == 0 then Unsupported
    else
      var n := |vs| - 1;
      var prev := MaxStatusOf(vs[..n]);
      assert forall i | 0 <= i < n :: vs[..n][i] == vs[i];
      MaxStatus(prev, GetDisplayHdrStatus(vs[n]))
  }

  /** `GetWindowsHDRStatus` as intended by its `anySupported`/`anyEnabled`
      flags: Unsupported iff no display reports support, otherwise On iff
      some supported display has HDR enabled. */
  function GetWindowsHdrStatus(cfg: Snapshot): (s: Status)
    requires Enumerable(cfg)
    ensures s == Unsupported <==>
              !exists i | 0 <= i < |ForEachDisplay(cfg)| :: Supported(ForEachDisplay(cfg)[i])
    ensures s == On <==>
              exists i | 0 <= i < |ForEachDisplay(cfg)| ::
                Supported(ForEachDisplay(cfg)[i]) && ForEachDisplay(cfg)[i].color.value.enabled
  {
    var vs := ForEachDisplay(cfg);
    var s := MaxStatusOf(vs);
    assert s == Unsupported ==> forall i | 0 <= i < |vs| :: GetDisplayHdrStatus(vs[i]) == Unsupported;
    assert s == Off ==> forall i | 0 <= i < |vs| :: GetDisplayHdrStatus(vs[i]) != On;
    s
  }

  /** Two displays, the first with HDR on and the second without HDR
      support: the loop as written reports Unsupported and so the toggle
      does nothing, while the intended aggregate reports On and the toggle
      turns the first display off. */
  lemma LastDisplayOverridesEarlierOnes()
    ensures var on := Mode(Some(ColorInfo(true, true)), None, None,
                           SetResponse(false, None), SetResponse(false, None));
            var plain := on.(color := Some(ColorInfo(false, false)));
            var cfg := Snapshot(true, true, [Path(0), Path(1)], [on, plain]);
            Enumerable(cfg)
            && GetWindowsHdrStatusAsWritten(cfg) == Unsupported
            && GetWindowsHdrStatus(cfg) == On
            && ToggleHdrStatusAsWritten(cfg) == SetOutcome(Some(Unsupported), [])
            && ToggleHdrStatus(cfg).calls == [SetCall(0, false)]
  {
    var on := Mode(Some(ColorInfo(true, true)), None, None,
                   SetResponse(false, None), SetResponse(false, None));
    var plain := on.(color := Some(ColorInfo(false, false)));
    var cfg := Snapshot(true, true, [Path(0), Path(1)], [on, plain]);
    assert ForEachDisplay(cfg)[0] == on;
    assert ForEachDisplay(cfg)[1] == plain;
    var vs := ForEachDisplay(cfg);
    assert vs == [on, plain];
    assert Supported(vs[0]) && vs[0].color.value.enabled;
    assert vs[..1] == [on] && [on][..0] == [];
    assert CallsToSupported([on], Force(false)) == [SetCall(0, false)];
  }

  /** With a single display, the loop as written and the intended aggregate
      agree. */
  lemma SingleDisplayAggregatesAgree(cfg: Snapshot)
    requires Enumerable(cfg) && |ForEachDisplay(cfg)| == 1
    ensures GetWindowsHdrStatusAsWritten(cfg) == GetWindowsHdrStatus(cfg)
  {
    var m := ForEachDisplay(cfg)[0];
    if Supported(m) {
      assert Supported(ForEachDisplay(cfg)[0]);
    }
  }

  /** `SetDisplayHDRStatus`: absent when the colour query fails, the display
      lacks support or the set call is refused; otherwise the status a fresh
      colour query reports afterwards. */
  function SetDisplayHdrStatus(m: Mode, enable: bool): (r: Option<Status>)
    ensures r.Some? <==> Supported(m) && SetResponseFor(m, enable).accepted
    ensures r.Some? ==>
              r.value == match SetResponseFor(m, enable).requery
                         case None => Unsupported
                         case Some(c) => StatusOfColor(c)
  {
    if m.color.None? then None
    else if !m.color.value.supported then None
    else if !SetResponseFor(m, enable).accepted then None
    else Some(GetDisplayHdrStatus(m.(color := SetResponseFor(m, enable).requery)))
  }

  /** The reported status is the observed one, not the requested one: an
      accepted request to enable can come back as Off. */
  lemma SetReportsObservedState()
    ensures var m := Mode(Some(ColorInfo(true, false)), None, None,
                          SetResponse(true, Some(ColorInfo(true, false))), SetResponse(false, None));
            SetDisplayHdrStatus(m, true) == Some(Off)
  {
  }

  /** The set loop's accumulator over the per-display results: absent while
      every result is absent, then the largest present result. */
  function SetResults(vs: seq<Mode>, enable: bool): (r: Option<Status>)
    ensures r.None? <==> forall i | 0 <= i < |vs| :: SetDisplayHdrStatus(vs[i], enable).None?
    ensures r.Some? ==> exists i | 0 <= i < |vs| :: SetDisplayHdrStatus(vs[i], enable) == r
    ensures r.Some? ==> forall i | 0 <= i < |vs| && SetDisplayHdrStatus(vs[i], enable).Some? ::
              Ordinal(SetDisplayHdrStatus(vs[i], enable).value) <= Ordinal(r.value)
    decreases |vs|
  {
    if |vs| == 0 then None
    else
      var n := |vs| - 1;
      var prev := SetResults(vs[..n], enable);
      assert forall i | 0 <= i < n :: vs[..n][i] == vs[i];
      match SetDisplayHdrStatus(vs[n], enable)
      case None => prev
      case Some(s) => Accumulate(prev, s)
  }

  /** A later display whose set fails never erases an earlier result, and the
      accumulated value never decreases as displays are appended. */
  lemma {:induction false} SetResultsMonotone(vs: seq<Mode>, ws: seq<Mode>, enable: bool)
    requires SetResults(vs, enable).Some?
    ensures SetResults(vs + ws, enable).Some?
    ensures Ordinal(SetResults(vs, enable).value) <= Ordinal(SetResults(vs + ws, enable).value)
  {
    var i :| 0 <= i < |vs| && SetDisplayHdrStatus(vs[i], enable) == SetResults(vs, enable);
    assert (vs + ws)[i] == vs[i];
  }

  /** `SetWindowsHDRStatus(enable)`: one set call per supported display; the
      result is absent iff every per-display call failed, otherwise the
      largest re-queried status. */
  function SetWindowsHdrStatus(cfg: Snapshot, enable: bool): (o: SetOutcome)
    requires Enumerable(cfg)
    ensures o.result.None? <==>
              forall i | 0 <= i < |ForEachDisplay(cfg)| :: SetDisplayHdrStatus(ForEachDisplay(cfg)[i], enable).None?
    ensures o.result.Some? ==>
              exists i | 0 <= i < |ForEachDisplay(cfg)| :: SetDisplayHdrStatus(ForEachDisplay(cfg)[i], enable) == o.result
    ensures o.result.Some? ==>
              forall i | 0 <= i < |ForEachDisplay(cfg)| && SetDisplayHdrStatus(ForEachDisplay(cfg)[i], enable).Some? ::
                Ordinal(SetDisplayHdrStatus(ForEachDisplay(cfg)[i], enable).value) <= Ordinal(o.result.value)
    ensures o.calls == CallsToSupported(ForEachDisplay(cfg), Force(enable))
  {
    var vs := ForEachDisplay(cfg);
    SetOutcome(SetResults(vs, enable), CallsToSupported(vs, Force(enable)))
  }

  /** The toggle given the aggregate it starts from. */
  function ToggleFrom(cfg: Snapshot, status: Status): (o: SetOutcome)
    requires Enumerable(cfg)
    ensures status == Unsupported ==> o == SetOutcome(Some(Unsupported), [])
    ensures status == Off ==> o == SetWindowsHdrStatus(cfg, true)
    ensures status == On ==> o == SetWindowsHdrStatus(cfg, false)
  {
    if status == Unsupported then SetOutcome(Some(Unsupported), [])
    else SetWindowsHdrStatus(cfg, status == Off)
  }

  /** `ToggleHDRStatus` over the intended aggregate: no set call when no
      display supports HDR; enable everything when no supported display has
      it on; disable everything otherwise. */
  function ToggleHdrStatus(cfg: Snapshot): (o: SetOutcome)
    requires Enumerable(cfg)
    ensures (!exists i | 0 <= i < |ForEachDisplay(cfg)| :: Supported(ForEachDisplay(cfg)[i])) ==>
              o == SetOutcome(Some(Unsupported), [])
    ensures (exists i | 0 <= i < |ForEachDisplay(cfg)| :: Supported(ForEachDisplay(cfg)[i])) ==>
              o.calls == CallsToSupported(ForEachDisplay(cfg),
                Force(!exists i | 0 <= i < |ForEachDisplay(cfg)| ::
                        Supported(ForEachDisplay(cfg)[i]) && ForEachDisplay(cfg)[i].color.value.enabled))
    ensures (exists i | 0 <= i < |ForEachDisplay(cfg)| :: Supported(ForEachDisplay(cfg)[i])) ==>
              o == SetWindowsHdrStatus(cfg, !exists i | 0 <= i < |ForEachDisplay(cfg)| ::
                                              Supported(ForEachDisplay(cfg)[i]) && ForEachDisplay(cfg)[i].color.value.enabled)
  {
    var vs := ForEachDisplay(cfg);
    var s := GetWindowsHdrStatus(cfg);
    var anyOn := exists i | 0 <= i < |vs| :: Supported(vs[i]) && vs[i].color.value.enabled;
    assert s != Unsupported ==> (s == Off <==> !anyOn);
    var o := ToggleFrom(cfg, s);
    assert s != Unsupported ==> o == SetWindowsHdrStatus(cfg, !anyOn);
    o
  }

  /** `ToggleHDRStatus` as written, over the last-display aggregate. */
  function ToggleHdrStatusAsWritten(cfg: Snapshot): (o: SetOutcome)
    requires Enumerable(cfg)
    ensures GetWindowsHdrStatusAsWritten(cfg) == Unsupported ==> o == SetOutcome(Some(Unsupported), [])
    ensures GetWindowsHdrStatusAsWritten(cfg) != Unsupported ==>
              o == SetWindowsHdrStatus(cfg, GetWindowsHdrStatusAsWritten(cfg) == Off)
  {
    ToggleFrom(cfg, GetWindowsHdrStatusAsWritten(cfg))
  }

  /** `GetFallbackDisplayName`: "Internal Display" exactly when the base-type
      query succeeds with a technology that is not OTHER and has the INTERNAL
      bit; "Unnamed" otherwise. */
  function GetFallbackDisplayName(m: Mode): (name: string)
    ensures name == "Internal Display" <==>
              m.baseTechnology.Some?
              && m.baseTechnology.value != OutputTechnologyOther
              && m.baseTechnology.value & OutputTechnologyInternal != 0
    ensures name == "Internal Display" || name == "Unnamed"
  {
    match m.baseTechnology
    case Some(t) =>
      if t != OutputTechnologyOther && t & OutputTechnologyInternal != 0 then "Internal Display"
      else "Unnamed"
    case None => "Unnamed"
  }

  /** One listed display: both the colour and the name query must succeed;
      the EDID name is used when it comes from the EDID, otherwise the
      fallback name. */
  function DisplayFor(m: Mode): (d: Option<Display>)
    ensures d.Some? <==> m.color.Some? && m.targetName.Some?
    ensures d.Some? && m.targetName.value.fromEdid ==> d.value.name == m.targetName.value.friendlyName
    ensures d.Some? && !m.targetName.value.fromEdid ==> d.value.name == GetFallbackDisplayName(m)
    ensures d.Some? ==> d.value.status == GetDisplayHdrStatus(m)
  {
    match (m.color, m.targetName)
    case (Some(c), Some(t)) =>
      Some(Display(if t.fromEdid then t.friendlyName else GetFallbackDisplayName(m), StatusOfColor(c)))
    case _ => None
  }

  /** `GetDisplays`: the displays whose two queries succeed, in enumeration
      order, never more than there are paths. */
  function GetDisplays(cfg: Snapshot): (ds: seq<Display>)
    requires Enumerable(cfg)
    ensures |ds| <= |ForEachDisplay(cfg)|
    ensures forall k | 0 <= k < |ds| ::
              exists i | 0 <= i < |ForEachDisplay(cfg)| :: DisplayFor(ForEachDisplay(cfg)[i]) == Some(ds[k])
    ensures (forall i | 0 <= i < |ForEachDisplay(cfg)| :: DisplayFor(ForEachDisplay(cfg)[i]).Some?) ==>
              |ds| == |ForEachDisplay(cfg)|
              && forall i | 0 <= i < |ds| :: Some(ds[i]) == DisplayFor(ForEachDisplay(cfg)[i])
    ensures |ds| == |PresentAt(ForEachDisplay(cfg), DisplayFor)|
    ensures forall k | 0 <= k < |ds| ::
              Some(ds[k]) == DisplayFor(ForEachDisplay(cfg)[PresentAt(ForEachDisplay(cfg), DisplayFor)[k]])
  {
    Collect(ForEachDisplay(cfg), DisplayFor)
  }
}

=== FILE: hdr_display.dfy ===
/** One display as the configuration application presents it
    (HDRTrayConfig/HDRDisplay.cpp): its name, whether HDR is available and
    whether it is selected for toggling. */
module HdrDisplay {
  import opened Wrappers
  import opened HdrApi
  import opened Registry
  import DisplayConfig

  /** The display and the properties shown for it. */
  datatype HdrDisplay = HdrDisplay(display: DisplayInfo, name: string, isHdrAvailable: bool, isSelected: bool)

  /** `UpdateSelected`: selected exactly when the display has a stable id
      and the store does not record it as deselected. */
  function Selected(d: DisplayInfo, key: Key): (selected: bool)
    ensures selected <==> d.GetStableID().Ok? && DisplayConfig.IsEnabled(key, d.GetStableID().value)
  {
    match d.GetStableID()
    case Ok(id) => DisplayConfig.IsEnabled(key, id)
    case Err(_) => false
  }

  /** The constructor: a failed name query throws its error code; HDR is
      available when the (cached) status query succeeds with a status other
      than Unsupported. */
  function Construct(d: DisplayInfo, key: Key): (r: Result<HdrDisplay, int>)
    ensures r.Err? <==> d.GetName().Err?
    ensures r.Err? ==> r.error == d.GetName().error
    ensures r.Ok? ==> r.value.display == d && r.value.name == d.GetName().value
    ensures r.Ok? ==> (r.value.isHdrAvailable <==> d.GetStatus().Ok? && d.GetStatus().value != Unsupported)
    ensures r.Ok? ==> r.value.isSelected == Selected(d, key)
  {
    match d.GetName()
    case Err(e) => Err(e)
    case Ok(name) =>
      var status := d.GetStatus();
      Ok(HdrDisplay(d, name, status.Ok? && status.value != Unsupported, Selected(d, key)))
  }

  /** `RequestIsSelected`: nothing happens without a stable id; otherwise
      the flag is stored, and only a failed store re-reads the selection
      (a successful one is left to the store watcher). */
  function RequestIsSelected(h: HdrDisplay, flag: bool, key: Key, writeLands: bool): (r: (HdrDisplay, Key))
    ensures h.display.GetStableID().Err? ==> r == (h, key)
    ensures h.display.GetStableID().Ok? ==>
              r.1 == DisplayConfig.SetEnabledFlag(key, h.display.GetStableID().value, flag, writeLands).key
    ensures h.display.GetStableID().Ok? && key.createStatus == ErrorSuccess ==> r.0 == h
    ensures h.display.GetStableID().Ok? && key.createStatus != ErrorSuccess ==>
              r.0 == h.(isSelected := Selected(h.display, r.1))
  {
    match h.display.GetStableID()
    case Err(_) => (h, key)
    case Ok(id) =>
      var w := DisplayConfig.SetEnabledFlag(key, id, flag, writeLands);
      if w.result.Err? then (h.(isSelected := Selected(h.display, w.key)), w.key) else (h, w.key)
  }

  /** A failed request leaves the store as it was and shows what the store
      then reads with read access: when that access fails too, the display
      shows as selected, even after a request to deselect it. */
  lemma FailedRequestShowsSelected(h: HdrDisplay, flag: bool, key: Key, writeLands: bool)
    requires h.display.GetStableID().Ok? && key.createStatus != ErrorSuccess
    ensures RequestIsSelected(h, flag, key, writeLands).1 == key
    ensures RequestIsSelected(h, flag, key, writeLands).0.isSelected
            == DisplayConfig.IsEnabled(key, h.display.GetStableID().value)
    ensures key.readCreateStatus != ErrorSuccess ==> RequestIsSelected(h, flag, key, writeLands).0.isSelected
  {
  }

  /** The write-access create can fail while the read-access create
      succeeds: a request to select a display whose stored flag is 0 then
      fails and shows the display as not selected. */
  lemma FailedRequestCanShowDeselected(text: string)
    ensures var d := DisplayInfo(0, DisplayId([0, 0, 0, 0, 0, 0, 0, 0], 0), Err(1), Err(1), Err(1), Ok("S"));
            var key := Key(0, 5, 0, 0, 0, map[DisplayConfig.DisplayValueName("S") := Dword(0)]);
            !RequestIsSelected(HdrDisplay(d, text, false, true), true, key, true).0.isSelected
  {
  }

  /** A landed request, once the watcher re-reads the selection, shows the
      requested flag. */
  lemma LandedRequestShowsFlag(h: HdrDisplay, flag: bool, key: Key)
    requires h.display.GetStableID().Ok? && key.createStatus == ErrorSuccess
    requires key.readCreateStatus == ErrorSuccess && key.readStatus == ErrorSuccess
    ensures Selected(h.display, RequestIsSelected(h, flag, key, true).1) == flag
  {
    DisplayConfig.SetThenGet(key, h.display.GetStableID().value, flag);
  }
}

=== FILE: hdr_lib.dfy ===
/** The middle HDR module (hdr/HDR.cpp): the same OR-aggregated status query
    as HDR.cpp, a set loop that reports the requested state without
    re-querying, a toggle through the aggregate, and the display listing. */
module HdrLib {
  import opened Wrappers
  import opened HdrApi
  import opened DisplayConfigApi
  import HdrRoot

  /** `GetWindowsHDRStatus`: the loop and the final decision are those of
      HDR.cpp. */
  function GetWindowsHdrStatus(cfg: Snapshot): (s: Status)
    requires Enumerable(cfg)
    ensures s == Unsupported <==>
              !exists i | 0 <= i < |ForEachDisplay(cfg)| :: Supported(ForEachDisplay(cfg)[i])
    ensures s == On <==>
              (exists i | 0 <= i < |ForEachDisplay(cfg)| :: Supported(ForEachDisplay(cfg)[i]))
              && exists i | 0 <= i < |ForEachDisplay(cfg)| :: HdrRoot.ReportsEnabled(ForEachDisplay(cfg)[i])
  {
    HdrRoot.GetWindowsHdrStatus(cfg)
  }

  /** A display whose colour query fails sets neither flag: removing it from
      the enumeration leaves both flags, hence the status, unchanged. */
  lemma FailedQueryContributesNothing(vs: seq<Mode>, i: nat)
    requires i < |vs| && vs[i].color.None?
    ensures HdrRoot.OrFlags(vs[..i] + vs[i + 1..]) == HdrRoot.OrFlags(vs)
  {
    var ws := vs[..i] + vs[i + 1..];
    assert forall j | 0 <= j < i :: ws[j] == vs[j];
    assert forall j | i <= j < |ws| :: ws[j] == vs[j + 1];
    SupportedSurvivesRemoval(vs, ws, i);
    EnabledSurvivesRemoval(vs, ws, i);
  }

  lemma SupportedSurvivesRemoval(vs: seq<Mode>, ws: seq<Mode>, i: nat)
    requires i < |vs| && vs[i].color.None? && |ws| == |vs| - 1
    requires forall j | 0 <= j < i :: ws[j] == vs[j]
    requires forall j | i <= j < |ws| :: ws[j] == vs[j + 1]
    ensures (exists j | 0 <= j < |vs| :: Supported(vs[j])) <==> (exists j | 0 <= j < |ws| :: Supported(ws[j]))
  {
    if j :| 0 <= j < |vs| && Supported(vs[j]) {
      if j < i { assert Supported(ws[j]); } else { assert Supported(ws[j - 1]); }
    }
    if j :| 0 <= j < |ws| && Supported(ws[j]) {
      if j < i { assert Supported(vs[j]); } else { assert Supported(vs[j + 1]); }
    }
  }

  lemma EnabledSurvivesRemoval(vs: seq<Mode>, ws: seq<Mode>, i: nat)
    requires i < |vs| && vs[i].color.None? && |ws| == |vs| - 1
    requires forall j | 0 <= j < i :: ws[j] == vs[j]
    requires forall j | i <= j < |ws| :: ws[j] == vs[j + 1]
    ensures (exists j | 0 <= j < |vs| :: HdrRoot.ReportsEnabled(vs[j]))
            <==> (exists j | 0 <= j < |ws| :: HdrRoot.ReportsEnabled(ws[j]))
  {
    if j :| 0 <= j < |vs| && HdrRoot.ReportsEnabled(vs[j]) {
      if j < i { assert HdrRoot.ReportsEnabled(ws[j]); } else { assert HdrRoot.ReportsEnabled(ws[j - 1]); }
    }
    if j :| 0 <= j < |ws| && HdrRoot.ReportsEnabled(ws[j]) {
      if j < i { assert HdrRoot.ReportsEnabled(vs[j]); } else { assert HdrRoot.ReportsEnabled(vs[j + 1]); }
    }
  }

  function Target(enable: bool): Status {
    if enable then On else Off
  }

  /** A display that reports support and accepts the set call for `enable`. */
  predicate SetLands(m: Mode, enable: bool) {
    Supported(m) && SetResponseFor(m, enable).accepted
  }

  /** The result of the set loop: the requested state as soon as one set call
      is accepted, never a re-queried answer. */
  function SetResult(vs: seq<Mode>, enable: bool): (r: Option<Status>)
    ensures r.None? <==> !exists i | 0 <= i < |vs| :: SetLands(vs[i], enable)
    ensures r.Some? ==> r.value == Target(enable)
    decreases |vs|
  {
    if |vs| == 0 then None
    else
      var n := |vs| - 1;
      var prev := SetResult(vs[..n], enable);
      assert forall i | 0 <= i < n :: vs[..n][i] == vs[i];
      if SetLands(vs[n], enable) then Accumulate(prev, Target(enable))
      else prev
  }

  /** `SetWindowsHDRStatus(enable)`: a set call to every supported display,
      and the requested state reported when at least one was accepted. */
  function SetWindowsHdrStatus(cfg: Snapshot, enable: bool): (o: SetOutcome)
    requires Enumerable(cfg)
    ensures o.result.Some? <==>
              exists i | 0 <= i < |ForEachDisplay(cfg)| :: SetLands(ForEachDisplay(cfg)[i], enable)
    ensures o.result == None || o.result == Some(Target(enable))
    ensures forall k | 0 <= k < |o.calls| ::
              o.calls[k].position < |ForEachDisplay(cfg)|
              && Supported(ForEachDisplay(cfg)[o.calls[k].position]) && o.calls[k].enable == enable
    ensures forall i | 0 <= i < |ForEachDisplay(cfg)| && !Supported(ForEachDisplay(cfg)[i]) ::
              forall k | 0 <= k < |o.calls| :: o.calls[k].position != i
  {
    var vs := ForEachDisplay(cfg);
    SetOutcome(SetResult(vs, enable), CallsToSupported(vs, Force(enable)))
  }

  /** The set loop ignores the answer of any query made after the set call:
      two snapshots that differ only in those answers give the same result. */
  lemma SetIgnoresRequery(vs: seq<Mode>, ws: seq<Mode>, enable: bool)
    requires |vs| == |ws|
    requires forall i | 0 <= i < |vs| ::
               ws[i].color == vs[i].color
               && SetResponseFor(ws[i], enable).accepted == SetResponseFor(vs[i], enable).accepted
    ensures SetResult(ws, enable) == SetResult(vs, enable)
  {
    assert forall i | 0 <= i < |vs| :: SetLands(vs[i], enable) == SetLands(ws[i], enable);
  }

  /** `ToggleHDRStatus`: Unsupported is reported as is without any set call;
      otherwise the set loop runs with the opposite of the aggregate, and
      only the supported displays get a set call. */
  function ToggleHdrStatus(cfg: Snapshot): (o: SetOutcome)
    requires Enumerable(cfg)
    ensures GetWindowsHdrStatus(cfg) == Unsupported ==> o == SetOutcome(Some(Unsupported), [])
    ensures GetWindowsHdrStatus(cfg) != Unsupported ==>
              o == SetWindowsHdrStatus(cfg, GetWindowsHdrStatus(cfg) == Off)
    ensures GetWindowsHdrStatus(cfg) == Off ==> o.result != Some(Off)
    ensures GetWindowsHdrStatus(cfg) == On ==> o.result != Some(On)
  {
    var status := GetWindowsHdrStatus(cfg);
    if status == Unsupported then SetOutcome(Some(Unsupported), [])
    else SetWindowsHdrStatus(cfg, status == Off)
  }

  /** One listed display: both the colour and the name query must succeed;
      the name is always the monitor's friendly name. */
  function DisplayFor(m: Mode): (d: Option<Display>)
    ensures d.Some? <==> m.color.Some? && m.targetName.Some?
    ensures d.Some? ==> d.value.name == m.targetName.value.friendlyName
    ensures d.Some? ==> d.value.status == StatusOfColor(m.color.value)
  {
    match (m.color, m.targetName)
    case (Some(c), Some(t)) => Some(Display(t.friendlyName, StatusOfColor(c)))
    case _ => None
  }

  /** `GetDisplays`: the displays whose two queries succeed, in enumeration
      order, never more than there are paths. */
  function GetDisplays(cfg: Snapshot): (ds: seq<Display>)
    requires Enumerable(cfg)
    ensures |ds| <= |ForEachDisplay(cfg)|
    ensures forall k | 0 <= k < |ds| ::
              exists i | 0 <= i < |ForEachDisplay(cfg)| :: DisplayFor(ForEachDisplay(cfg)[i]) == Some(ds[k])
    ensures (forall i | 0 <= i < |ForEachDisplay(cfg)| :: DisplayFor(ForEachDisplay(cfg)[i]).Some?) ==>
              |ds| == |ForEachDisplay(cfg)|
              && forall i | 0 <= i < |ds| :: Some(ds[i]) == DisplayFor(ForEachDisplay(cfg)[i])
    ensures |ds| == |PresentAt(ForEachDisplay(cfg), DisplayFor)|
    ensures forall k | 0 <= k < |ds| ::
              Some(ds[k]) == DisplayFor(ForEachDisplay(cfg)[PresentAt(ForEachDisplay(cfg), DisplayFor)[k]])
  {
    Collect(ForEachDisplay(cfg), DisplayFor)
  }
}

=== FILE: hdr_root.dfy ===
/** The oldest HDR module (HDR.cpp): an OR-aggregated status query and a
    toggle that flips every supported display according to its own state. */
module HdrRoot {
  import opened Wrappers
  import opened HdrApi
  import opened DisplayConfigApi

  /** The colour query succeeds and reports advanced colour as enabled
      (whether or not it is also reported as supported). */
  predicate ReportsEnabled(m: Mode) {
    m.color.Some? && m.color.value.enabled
  }

  /** The two flags the status loop sets. */
  datatype Flags = Flags(anySupported: bool, anyEnabled: bool)

  /** The status loop over the visited modes: each successful colour query
      may set either flag; no flag is ever cleared. */
  function OrFlags(vs: seq<Mode>): (f: Flags)
    ensures f.anySupported <==> exists i | 0 <= i < |vs| :: Supported(vs[i])
    ensures f.anyEnabled <==> exists i | 0 <= i < |vs| :: ReportsEnabled(vs[i])
    decreases |vs|
  {
    if |vs| == 0 then Flags(false, false)
    else
      var prev := OrFlags(vs[..|vs| - 1]);
      assert forall i | 0 <= i < |vs| - 1 :: vs[..|vs| - 1][i] == vs[i];
      var m := vs[|vs| - 1];
      if m.color.Some? then
        Flags(prev.anySupported || m.color.value.supported, prev.anyEnabled || m.color.value.enabled)
      else prev
  }

  /** `GetWindowsHDRStatus`: Unsupported unless some successful query
      reported support; otherwise On exactly when some successful query
      reported HDR enabled, even one from a display without support. */
  function GetWindowsHdrStatus(cfg: Snapshot): (s: Status)
    requires Enumerable(cfg)
    ensures s == Unsupported <==>
              !exists i | 0 <= i < |ForEachDisplay(cfg)| :: Supported(ForEachDisplay(cfg)[i])
    ensures s == On <==>
              (exists i | 0 <= i < |ForEachDisplay(cfg)| :: Supported(ForEachDisplay(cfg)[i]))
              && exists i | 0 <= i < |ForEachDisplay(cfg)| :: ReportsEnabled(ForEachDisplay(cfg)[i])
  {
    var f := OrFlags(ForEachDisplay(cfg));
    if !f.anySupported then Unsupported
    else if f.anyEnabled then On
    else Off
  }

  /** A display whose own flip request (`enable := !enabled`) is accepted by
      the set call. */
  predicate FlipLands(m: Mode) {
    Supported(m) && SetResponseFor(m, !m.color.value.enabled).accepted
  }

  /** The result of the toggle loop: the targets of the accepted flip
      requests combined by `max`, absent when no request was accepted. */
  function ToggleResult(vs: seq<Mode>): (r: Option<Status>)
    ensures r.None? <==> !exists i | 0 <= i < |vs| :: FlipLands(vs[i])
    ensures r != Some(Unsupported)
    ensures r == Some(On) <==> exists i | 0 <= i < |vs| :: FlipLands(vs[i]) && !vs[i].color.value.enabled
    decreases |vs|
  {
    if |vs| == 0 then None
    else
      var n := |vs| - 1;
      var prev := ToggleResult(vs[..n]);
      assert forall i | 0 <= i < n :: vs[..n][i] == vs[i];
      var m := vs[n];
      if FlipLands(m) then Accumulate(prev, if m.color.value.enabled then Off else On)
      else prev
  }

  /** `ToggleHDRStatus`: the per-display toggle over the enumerated modes. */
  function ToggleHdrStatus(cfg: Snapshot): (o: SetOutcome)
    requires Enumerable(cfg)
    ensures !Queried(cfg) ==> o == SetOutcome(None, [])
    ensures o.result.None? <==>
              !exists i | 0 <= i < |ForEachDisplay(cfg)| :: FlipLands(ForEachDisplay(cfg)[i])
    ensures o.result.Some? ==> o.result.value != Unsupported
    ensures o.result == Some(On) <==>
              exists i | 0 <= i < |ForEachDisplay(cfg)| ::
                FlipLands(ForEachDisplay(cfg)[i]) && !ForEachDisplay(cfg)[i].color.value.enabled
    ensures o.result == ToggleResult(ForEachDisplay(cfg))
    ensures o.calls == CallsToSupported(ForEachDisplay(cfg), Flip)
  {
    var vs := ForEachDisplay(cfg);
    SetOutcome(ToggleResult(vs), CallsToSupported(vs, Flip))
  }

  /** When an enumeration call fails, no display is visited: the status is
      Unsupported and the toggle issues no set call and reports failure. */
  lemma NothingVisitedWithoutEnumeration(cfg: Snapshot)
    requires Enumerable(cfg) && !Queried(cfg)
    ensures GetWindowsHdrStatus(cfg) == Unsupported
    ensures ToggleHdrStatus(cfg) == SetOutcome(None, [])
  {
  }
}

=== FILE: l10n.dfy ===
/** String resources (common/l10n.cpp): a string table block is a run of
    UTF-16 entries, each a 16-bit length followed by that many code units;
    a string is looked up in the language-neutral table first and in the
    US English one when that gives nothing, and can be copied into a fixed
    buffer with truncation. */
module L10n {
  /** A UTF-16 code unit, and the 16-bit length prefix read from one. */
  type Unit = x: int | 0 <= x < 0x1_0000

  type Int32 = x: int | -0x8000_0000 <= x < 0x8000_0000

  /** `MAKELANGID(LANG_NEUTRAL, SUBLANG_NEUTRAL)` and
      `MAKELANGID(LANG_ENGLISH, SUBLANG_ENGLISH_US)`. */
  const LangNeutral: int := 0x0000
  const LangEnglishUs: int := 0x0409

  const StringsPerBlock: int := 16

  /** C++ `/` on `int`: the quotient truncated toward zero. */
  function CDiv(a: int, b: int): (q: int)
    requires b > 0
    ensures a >= 0 ==> q == a / b
    ensures a < 0 ==> q == -((-a) / b)
  {
    if a >= 0 then a / b else -((-a) / b)
  }

  /** C++ `%` on `int`: the remainder takes the sign of the dividend. */
  function CRem(a: int, b: int): (r: int)
    requires b > 0
    ensures a == CDiv(a, b) * b + r
    ensures a >= 0 ==> 0 <= r < b
    ensures a < 0 ==> -b < r <= 0
  {
    a - CDiv(a, b) * b
  }

  /** The block searched for a resource id: `MAKEINTRESOURCEW` keeps the
      low 16 bits of `id / 16 + 1`. */
  function BlockId(id: Int32): (b: int)
    ensures 0 <= b < 0x1_0000
    ensures 0 <= id < 0xFFFF * StringsPerBlock ==> b == id / StringsPerBlock + 1
  {
    (CDiv(id, StringsPerBlock) + 1) % 0x1_0000
  }

  /** The position of the string inside its block; negative for a negative
      id. */
  function EntryIndex(id: Int32): (i: int)
    ensures id >= 0 ==> 0 <= i < StringsPerBlock && i == id % StringsPerBlock
    ensures id < 0 ==> i <= 0
  {
    CRem(id, StringsPerBlock)
  }

  /** Every entry the walk passes before reaching entry `idx` (and that
      entry itself) lies within the block. The source does not check this;
      it is required here. */
  predicate Fits(block: seq<Unit>, pos: nat, idx: int)
    decreases |block| - pos
  {
    pos >= |block| ||
      (var len := block[pos];
       if idx == 0 then pos + 1 + len <= |block| else Fits(block, pos + 1 + len, idx - 1))
  }

  /** The entry with index `idx` counted from offset `pos`; empty when the
      block ends first, or when `idx` is negative. */
  function EntryAt(block: seq<Unit>, pos: nat, idx: int): (e: seq<Unit>)
    requires Fits(block, pos, idx)
    ensures |e| < 0x1_0000
    decreases |block| - pos
  {
    if pos >= |block| then []
    else
      var len := block[pos];
      if idx == 0 then block[pos + 1..pos + 1 + len] else EntryAt(block, pos + 1 + len, idx - 1)
  }

  /** The loop of `LoadStringLang` over a located, non-empty block. */
  method WalkBlock(block: seq<Unit>, idx: int) returns (s: seq<Unit>)
    requires Fits(block, 0, idx)
    ensures s == EntryAt(block, 0, idx)
  {
    var pos: nat := 0;
    var current := 0;
    while pos < |block|
      invariant Fits(block, pos, idx - current)
      invariant EntryAt(block, 0, idx) == EntryAt(block, pos, idx - current)
      decreases |block| - pos
    {
      var len := block[pos];
      pos := pos + 1;
      if current == idx {
        return block[pos..pos + len];
      }
      pos := pos + len;
      current := current + 1;
    }
    return [];
  }

  /** A block entry of the resource section: whether loading and locking it
      succeed, and its data. `FindResourceExW` failing is the absence of the
      entry; a zero `SizeofResource` is empty data. */
  datatype Block = Block(loads: bool, units: seq<Unit>)

  /** The string-table blocks of the module, by block id and language. */
  type Resources = map<(int, int), Block>

  /** The walk of the block for `id` in `lang` stays within the block. */
  predicate Walkable(res: Resources, id: Int32, lang: int) {
    (BlockId(id), lang) in res ==> Fits(res[(BlockId(id), lang)].units, 0, EntryIndex(id))
  }

  /** `LoadStringLang`: empty when the block is missing, empty or fails to
      load; otherwise the entry at the id's position. */
  function LoadStringLang(res: Resources, id: Int32, lang: int): (s: seq<Unit>)
    requires Walkable(res, id, lang)
    ensures (BlockId(id), lang) !in res ==> s == []
    ensures (BlockId(id), lang) in res && !res[(BlockId(id), lang)].loads ==> s == []
    ensures (BlockId(id), lang) in res && res[(BlockId(id), lang)].loads ==>
              s == EntryAt(res[(BlockId(id), lang)].units, 0, EntryIndex(id))
  {
    var key := (BlockId(id), lang);
    if key !in res then []
    else
      var block := res[key];
      if |block.units| == 0 || !block.loads then [] else EntryAt(block.units, 0, EntryIndex(id))
  }

  /** `LoadString(id)`: the neutral string, or the US English one when the
      neutral one is empty. */
  function LoadString(res: Resources, id: Int32): (s: seq<Unit>)
    requires Walkable(res, id, LangNeutral)
    requires LoadStringLang(res, id, LangNeutral) == [] ==> Walkable(res, id, LangEnglishUs)
    ensures |LoadStringLang(res, id, LangNeutral)| > 0 ==> s == LoadStringLang(res, id, LangNeutral)
    ensures LoadStringLang(res, id, LangNeutral) == [] ==> s == LoadStringLang(res, id, LangEnglishUs)
  {
    var neutral := LoadStringLang(res, id, LangNeutral);
    if |neutral| == 0 then LoadStringLang(res, id, LangEnglishUs) else neutral
  }

  /** `LoadString(id, dest)`: nothing for an empty buffer; otherwise as many
      units as fit before a terminating 0, the rest of the buffer untouched. */
  function LoadStringInto(str: seq<Unit>, dest: seq<Unit>): (r: seq<Unit>)
    ensures |r| == |dest|
    ensures |dest| == 0 ==> r == dest
    ensures |dest| > 0 && |str| < |dest| ==> r[..|str|] == str && r[|str|] == 0 && r[|str| + 1..] == dest[|str| + 1..]
    ensures |dest| > 0 && |str| >= |dest| ==> r[..|dest| - 1] == str[..|dest| - 1] && r[|dest| - 1] == 0
  {
    if |dest| == 0 then dest
    else
      var n := if |dest| - 1 < |str| then |dest| - 1 else |str|;
      str[..n] + [0] + dest[n + 1..]
  }

  /** The encoding of a list of entries as a string-table block. */
  function Encode(entries: seq<seq<Unit>>): seq<Unit>
    requires forall k | 0 <= k < |entries| :: |entries[k]| < 0x1_0000
  {
    if |entries| == 0 then [] else [|entries[0]| as Unit] + entries[0] + Encode(entries[1..])
  }

  /** Prepending data does not change the walk from the same relative
      offset. */
  lemma {:induction false} EntryAtShift(p: seq<Unit>, rest: seq<Unit>, pos: nat, idx: int)
    ensures Fits(p + rest, |p| + pos, idx) == Fits(rest, pos, idx)
    ensures Fits(rest, pos, idx) ==> EntryAt(p + rest, |p| + pos, idx) == EntryAt(rest, pos, idx)
    decreases |rest| - pos
  {
    if pos < |rest| {
      assert (p + rest)[|p| + pos] == rest[pos];
      var len := rest[pos];
      if idx == 0 {
        if pos + 1 + len <= |rest| {
          assert (p + rest)[|p| + pos + 1..|p| + pos + 1 + len] == rest[pos + 1..pos + 1 + len];
        }
      } else {
        EntryAtShift(p, rest, pos + 1 + len, idx - 1);
      }
    }
  }

  /** Walking an encoded block finds exactly the entries that were
      encoded, and nothing past the last one. */
  lemma {:induction false} EntryAtEncode(entries: seq<seq<Unit>>, idx: int)
    requires forall k | 0 <= k < |entries| :: |entries[k]| < 0x1_0000
    ensures Fits(Encode(entries), 0, idx)
    ensures 0 <= idx < |entries| ==> EntryAt(Encode(entries), 0, idx) == entries[idx]
    ensures !(0 <= idx < |entries|) ==> EntryAt(Encode(entries), 0, idx) == []
    decreases |entries|
  {
    if |entries| > 0 {
      var head := [|entries[0]| as Unit] + entries[0];
      var tail := entries[1..];
      assert Encode(entries) == head + Encode(tail);
      assert Encode(entries)[0] == |entries[0]|;
      if idx == 0 {
        assert Encode(entries)[1..1 + |entries[0]|] == entries[0];
      } else {
        EntryAtEncode(tail, idx - 1);
        EntryAtShift(head, Encode(tail), 0, idx - 1);
        assert |head| == 1 + |entries[0]|;
      }
    }
  }

  /** A negative id never finds a string: its position in the block is
      never reached. */
  lemma {:induction false} NegativeIndexFindsNothing(block: seq<Unit>, pos: nat, idx: int)
    requires idx < 0 && Fits(block, pos, idx)
    ensures EntryAt(block, pos, idx) == []
    decreases |block| - pos
  {
    if pos < |block| {
      NegativeIndexFindsNothing(block, pos + 1 + block[pos], idx - 1);
    }
  }

  /** A missing neutral block makes the lookup the US English one. */
  lemma MissingNeutralFallsBack(res: Resources, id: Int32)
    requires Walkable(res, id, LangNeutral) && Walkable(res, id, LangEnglishUs)
    requires (BlockId(id), LangNeutral) !in res
    ensures LoadString(res, id) == LoadStringLang(res, id, LangEnglishUs)
  {
  }
}

=== FILE: legacy_commands.dfy ===
/** The subcommands of the first command-line tool (HDRCmd/Subcommands.cpp),
    built on the middle HDR module: `status` over all displays with an
    unfiltered listing, and `on` / `off` over all displays. */
module LegacyCommands {
  import opened Wrappers
  import opened HdrApi
  import opened Ascii
  import opened DisplayConfigApi
  import opened DisplayStatus
  import opened HdrCommands
  import StatusCmd
  import HdrLib

  function NameLengths(ds: seq<Display>): (ls: seq<nat>)
    ensures |ls| == |ds| && forall i | 0 <= i < |ds| :: ls[i] == |ds[i].name|
  {
    seq(|ds|, i requires 0 <= i < |ds| => |ds[i].name|)
  }

  function StatusLengths(ds: seq<Display>): (ls: seq<nat>)
    ensures |ls| == |ds| && forall i | 0 <= i < |ds| :: ls[i] == |StatusString(ds[i].status)|
  {
    seq(|ds|, i requires 0 <= i < |ds| => |StatusString(ds[i].status)|)
  }

  function Rows(ds: seq<Display>, narrow: string -> string): (rows: seq<Row>)
    ensures |rows| == |ds|
    ensures forall i | 0 <= i < |ds| :: rows[i] == Row(i, narrow(ds[i].name), StatusString(ds[i].status))
  {
    seq(|ds|, i requires 0 <= i < |ds| => Row(i, narrow(ds[i].name), StatusString(ds[i].status)))
  }

  /** The listing of `print_status_long`: every display `GetDisplays`
      returns, numbered from 0, the name column as wide as `Name` or the
      longest (unnarrowed) name, the status column as wide as `Status` or the
      longest status text. */
  function LegacyTabulate(ds: seq<Display>, narrow: string -> string): (l: Listing)
    ensures |l.rows| == |ds|
    ensures forall i | 0 <= i < |ds| ::
              l.rows[i] == Row(i, narrow(ds[i].name), StatusString(ds[i].status))
    ensures l.nameWidth >= |NameHeading| && forall i | 0 <= i < |ds| :: |ds[i].name| <= l.nameWidth
    ensures l.nameWidth == |NameHeading| || exists i | 0 <= i < |ds| :: l.nameWidth == |ds[i].name|
    ensures l.statusWidth >= |StatusHeading| && forall i | 0 <= i < |ds| :: |l.rows[i].status| <= l.statusWidth
    ensures l.statusWidth == |StatusHeading| || exists i | 0 <= i < |ds| :: l.statusWidth == |l.rows[i].status|
  {
    Listing(ColumnWidth(|NameHeading|, NameLengths(ds)), ColumnWidth(|StatusHeading|, StatusLengths(ds)),
            Rows(ds, narrow))
  }

  /** `Status::run`: the same mode dispatch as the newer subcommand, with
      the status of all displays and the listing of all displays. */
  function StatusRun(mode: string, cfg: Snapshot, narrow: string -> string): (r: StatusCmd.StatusRun)
    requires Enumerable(cfg)
    ensures |mode| == 0 || EqualsIgnoreCase(mode, StatusCmd.Short) ==>
              r == StatusCmd.StatusRun(0, Some(HdrLib.GetWindowsHdrStatus(cfg)), None)
    ensures !(|mode| == 0 || EqualsIgnoreCase(mode, StatusCmd.Short)) && EqualsIgnoreCase(mode, StatusCmd.Long) ==>
              r.code == 0 && r.shortLine == Some(HdrLib.GetWindowsHdrStatus(cfg))
              && r.listing == Some(LegacyTabulate(HdrLib.GetDisplays(cfg), narrow))
    ensures !(|mode| == 0 || EqualsIgnoreCase(mode, StatusCmd.Short) || EqualsIgnoreCase(mode, StatusCmd.Long))
            && EqualsIgnoreCase(mode, StatusCmd.ExitCodeMode) ==>
              r == StatusCmd.StatusRun(StatusCmd.StatusExitCode(HdrLib.GetWindowsHdrStatus(cfg)), None, None)
    ensures r.code == -1 <==>
              !(|mode| == 0 || EqualsIgnoreCase(mode, StatusCmd.Short) || EqualsIgnoreCase(mode, StatusCmd.Long)
                || EqualsIgnoreCase(mode, StatusCmd.ExitCodeMode))
  {
    var status := HdrLib.GetWindowsHdrStatus(cfg);
    if |mode| == 0 || EqualsIgnoreCase(mode, StatusCmd.Short) then StatusCmd.StatusRun(0, Some(status), None)
    else if EqualsIgnoreCase(mode, StatusCmd.Long) then
      StatusCmd.StatusRun(0, Some(status), Some(LegacyTabulate(HdrLib.GetDisplays(cfg), narrow)))
    else if EqualsIgnoreCase(mode, StatusCmd.ExitCodeMode) then
      StatusCmd.StatusRun(StatusCmd.StatusExitCode(status), None, None)
    else StatusCmd.StatusRun(-1, None, None)
  }

  /** `Enable::run` over the middle HDR module: because its set loop
      reports the requested state rather than re-querying, the exit code is
      never 1; it is 0 exactly when some supported display accepted the
      request. */
  function EnableRun(cfg: Snapshot): (code: int)
    requires Enumerable(cfg)
    ensures code == 0 || code == -1
    ensures code == 0 <==>
              exists i | 0 <= i < |ForEachDisplay(cfg)| :: HdrLib.SetLands(ForEachDisplay(cfg)[i], true)
  {
    ExitCodeFor(HdrLib.SetWindowsHdrStatus(cfg, true).result, On)
  }

  /** `Disable::run` over the middle HDR module: likewise never 1. */
  function DisableRun(cfg: Snapshot): (code: int)
    requires Enumerable(cfg)
    ensures code == 0 || code == -1
    ensures code == 0 <==>
              exists i | 0 <= i < |ForEachDisplay(cfg)| :: HdrLib.SetLands(ForEachDisplay(cfg)[i], false)
  {
    ExitCodeFor(HdrLib.SetWindowsHdrStatus(cfg, false).result, Off)
  }
}

=== FILE: login_startup_cmd.dfy ===
/** The `startup` subcommand (HDRCmd/subcommand/LoginStartup.cpp): turning
    "Start when logging in" on or off and reporting its state. */
module LoginStartupCmd {
  import opened Wrappers
  import opened Registry
  import opened LoginStartupConfig

  /** The status line: the state, and whether it is worded as the result of
      a change ("is now ON"). */
  datatype StatusLine = StatusLine(now: bool, on: bool)

  /** What `print_status` prints and returns. */
  datatype Printed = Printed(line: Option<StatusLine>, code: int)

  /** `print_status(active)`: a failed state query prints no status line
      and returns its error code; otherwise ON or OFF is printed, worded
      with "now" exactly when `active`, and 0 returned. */
  function PrintStatus(active: bool, state: Result<bool, int>): (p: Printed)
    ensures p.line.None? <==> state.Err?
    ensures state.Err? ==> p.code == state.error
    ensures p.line.Some? ==> p.code == 0 && p.line.value.now == active && Ok(p.line.value.on) == state
  {
    match state
    case Err(e) => Printed(None, e)
    case Ok(on) => Printed(Some(StatusLine(active, on)), 0)
  }

  /** What `run` does: whether help is printed, the status line, the exit
      code and the key afterwards. */
  datatype StartupRun = StartupRun(help: bool, line: Option<StatusLine>, code: int, key: Key)

  /** `LoginStartup::run`: `on` or `off` first store the setting (`on`
      winning when both are given) and a store failure returns its code at
      once; help is printed when no subcommand is given; the state is then
      read back and printed. */
  function Run(hasStatus: bool, hasOn: bool, hasOff: bool, key: Key, exe: string, equivalent: Equivalence,
               writeLands: bool): (r: StartupRun)
    ensures (hasOn || hasOff) && key.createStatus != ErrorSuccess ==>
              r == StartupRun(false, None, key.createStatus, key)
    ensures r.help <==> !hasStatus && !hasOn && !hasOff
    ensures !hasOn && !hasOff ==> r.key == key && Printed(r.line, r.code) == PrintStatus(false, IsEnabled(key, exe, equivalent))
    ensures (hasOn || hasOff) && key.createStatus == ErrorSuccess ==>
              r.key == SetEnabled(key, exe, hasOn, writeLands).key
              && Printed(r.line, r.code) == PrintStatus(true, IsEnabled(r.key, exe, equivalent))
  {
    if (hasOn || hasOff) && SetEnabled(key, exe, hasOn, writeLands).result.Err? then
      StartupRun(false, None, SetEnabled(key, exe, hasOn, writeLands).result.error, key)
    else
      var after := if hasOn || hasOff then SetEnabled(key, exe, hasOn, writeLands).key else key;
      var help := !hasStatus && !hasOn && !hasOff;
      var p := PrintStatus(hasOn || hasOff, IsEnabled(after, exe, equivalent));
      StartupRun(help, p.line, p.code, after)
  }

  /** `startup off` with a key that opens and a delete that lands reports
      "now OFF" and exits with 0. */
  lemma OffReportsNowOff(hasStatus: bool, key: Key, exe: string, equivalent: Equivalence)
    requires key.createStatus == ErrorSuccess && key.readCreateStatus == ErrorSuccess
    ensures Run(hasStatus, false, true, key, exe, equivalent, true).line == Some(StatusLine(true, false))
    ensures Run(hasStatus, false, true, key, exe, equivalent, true).code == 0
  {
    DisableRoundTrip(key, exe, equivalent);
  }

  /** `startup on` with a key that opens, reads and writes reports "now ON"
      exactly when the platform judges the expected executable equivalent
      to itself. */
  lemma OnReportsNowOn(hasStatus: bool, hasOff: bool, key: Key, runningExe: string, equivalent: Equivalence)
    requires key.createStatus == ErrorSuccess && key.readCreateStatus == ErrorSuccess
    requires key.readStatus == ErrorSuccess
    requires key.probeStatus == ErrorSuccess || key.probeStatus == ErrorMoreData
    requires Nul !in runningExe
    requires equivalent(ExpectedExe(runningExe), ExpectedExe(runningExe)) == Ok(true)
    ensures Run(hasStatus, true, hasOff, key, ExpectedExe(runningExe), equivalent, true).line == Some(StatusLine(true, true))
    ensures Run(hasStatus, true, hasOff, key, ExpectedExe(runningExe), equivalent, true).code == 0
  {
    EnableRoundTrip(key, runningExe, equivalent);
  }
}

=== FILE: login_startup_config.dfy ===
/** The login-startup entry (common/LoginStartupConfig.cpp): a `REG_SZ`
    value named `HDRTray` under the per-user `Run` key, holding the quoted
    path of the tray executable. */
module LoginStartupConfig {
  import opened Wrappers
  import opened Registry

  const ValueName: string := "HDRTray"
  const TrayExe: string := "HDRTray.exe"
  const Quote: char := '"'

  /** The directory part of a path, separator included: everything up to and
      including the last backslash, empty when there is none. */
  function DirPrefix(path: string): (dir: string)
    ensures dir <= path
    ensures |dir| > 0 ==> dir[|dir| - 1] == '\\'
    ensures forall i | |dir| <= i < |path| :: path[i] != '\\'
    decreases |path|
  {
    if |path| == 0 then []
    else if path[|path| - 1] == '\\' then path
    else DirPrefix(path[..|path| - 1])
  }

  /** Appending a name without separators to a directory prefix keeps the
      directory. */
  lemma {:induction false} DirPrefixOfAppend(dir: string, name: string)
    requires |dir| == 0 || dir[|dir| - 1] == '\\'
    requires '\\' !in name
    ensures DirPrefix(dir + name) == dir
    decreases |name|
  {
    if |name| > 0 {
      var n := |name| - 1;
      assert (dir + name)[..|dir + name| - 1] == dir + name[..n];
      assert (dir + name)[|dir + name| - 1] == name[n];
      DirPrefixOfAppend(dir, name[..n]);
    }
  }

  /** The constructor's `loginstartup_exe`: `HDRTray.exe` in the directory of
      the running executable, whichever executable that is. */
  function ExpectedExe(runningExe: string): (exe: string)
    ensures DirPrefix(exe) == DirPrefix(runningExe)
    ensures |exe| >= |TrayExe| && exe[|exe| - |TrayExe|..] == TrayExe
    ensures |exe| == |DirPrefix(runningExe)| + |TrayExe|
    ensures Nul !in runningExe ==> Nul !in exe
  {
    var dir := DirPrefix(runningExe);
    DirPrefixOfAppend(dir, TrayExe);
    dir + TrayExe
  }

  /** The stored form of a path: the path between two quote characters. */
  function Quoted(s: string): (q: string)
    ensures |q| == |s| + 2
    ensures q[0] == Quote && q[|q| - 1] == Quote
    ensures q[1..|q| - 1] == s
  {
    [Quote] + s + [Quote]
  }

  /** Removes one pair of surrounding quotes, only when the string has at
      least two characters and starts and ends with a quote. */
  function Unquote(s: string): (r: string)
    ensures |s| >= 2 && s[0] == Quote && s[|s| - 1] == Quote ==> Quoted(r) == s
    ensures !(|s| >= 2 && s[0] == Quote && s[|s| - 1] == Quote) ==> r == s
  {
    if |s| >= 2 && s[0] == Quote && s[|s| - 1] == Quote then s[1..|s| - 1] else s
  }

  /** Unquoting undoes quoting, whatever the quoted string holds. */
  lemma UnquoteQuoted(s: string)
    ensures Unquote(Quoted(s)) == s
  {
    assert Quoted(s)[1..|Quoted(s)| - 1] == s;
  }

  /** `std::filesystem::equivalent` as an uninterpreted relation with an
      error outcome. */
  type Equivalence = (string, string) -> Result<bool, int>

  /** The status of the size probe: `ERROR_FILE_NOT_FOUND` for a missing
      value, the platform's answer otherwise. */
  function ProbeStatus(key: Key): int {
    if ValueName in key.values then key.probeStatus else ErrorFileNotFound
  }

  /** The path the value names: the stored characters up to the first NUL,
      with one pair of surrounding quotes removed. */
  function StoredPath(data: string): string {
    Unquote(CString(data))
  }

  /** `IsEnabled`: errors of the read-access key open, of the probe (other than a
      missing value or `ERROR_MORE_DATA`), of the read and of the
      equivalence test are reported; a missing value, a value of another
      type and an empty path are `false`; otherwise the stored path is
      compared with `exe`. */
  function IsEnabled(key: Key, exe: string, equivalent: Equivalence): (r: Result<bool, int>)
    ensures key.readCreateStatus != ErrorSuccess ==> r == Err(key.readCreateStatus)
    ensures key.readCreateStatus == ErrorSuccess && ValueName !in key.values ==> r == Ok(false)
    ensures (key.readCreateStatus == ErrorSuccess && ValueName in key.values
             && key.probeStatus !in {ErrorSuccess, ErrorMoreData, ErrorFileNotFound}) ==>
              r == Err(key.probeStatus)
    ensures (key.readCreateStatus == ErrorSuccess && ProbeStatus(key) in {ErrorSuccess, ErrorMoreData}
             && !key.values[ValueName].Sz?) ==> r == Ok(false)
    ensures r == Ok(true) ==>
              key.readCreateStatus == ErrorSuccess && ValueName in key.values && key.values[ValueName].Sz?
              && key.readStatus == ErrorSuccess
              && |StoredPath(key.values[ValueName].data)| > 0
              && equivalent(exe, StoredPath(key.values[ValueName].data)) == Ok(true)
    ensures (key.readCreateStatus == ErrorSuccess && ProbeStatus(key) in {ErrorSuccess, ErrorMoreData}
             && key.values[ValueName].Sz? && key.readStatus != ErrorSuccess) ==> r == Err(key.readStatus)
    ensures (key.readCreateStatus == ErrorSuccess && ProbeStatus(key) in {ErrorSuccess, ErrorMoreData}
             && key.values[ValueName].Sz? && key.readStatus == ErrorSuccess) ==>
              r == if |StoredPath(key.values[ValueName].data)| == 0 then Ok(false)
                   else equivalent(exe, StoredPath(key.values[ValueName].data))
  {
    if key.readCreateStatus != ErrorSuccess then Err(key.readCreateStatus)
    else
      var probe := ProbeStatus(key);
      if probe == ErrorFileNotFound then Ok(false)
      else if probe != ErrorSuccess && probe != ErrorMoreData then Err(probe)
      else match key.values[ValueName]
        case Sz(data) =>
          if key.readStatus != ErrorSuccess then Err(key.readStatus)
          else
            var path := StoredPath(data);
            if |path| == 0 then Ok(false) else equivalent(exe, path)
        case _ => Ok(false)
  }

  /** `SetEnabled`: once the key is open, `true` stores the quoted path with
      its terminator and `false` deletes the value (when `writeLands`; the
      write status is ignored); success is reported. */
  function SetEnabled(key: Key, exe: string, flag: bool, writeLands: bool): (w: Written)
    ensures w.result.Ok? <==> key.createStatus == ErrorSuccess
    ensures w.result.Err? ==> w.result.error == key.createStatus && w.key == key
    ensures !writeLands ==> w.key == key
    ensures w.result.Ok? && writeLands && flag ==>
              ValueName in w.key.values && w.key.values[ValueName] == Sz(Quoted(exe) + [Nul])
    ensures w.result.Ok? && writeLands && !flag ==> ValueName !in w.key.values
    ensures forall name | name in key.values && name != ValueName ::
              name in w.key.values && w.key.values[name] == key.values[name]
    ensures w.key.createStatus == key.createStatus && w.key.probeStatus == key.probeStatus
            && w.key.readStatus == key.readStatus
    ensures w.key.values.Keys <= key.values.Keys + {ValueName}
    ensures w.key == key.(values := w.key.values)
  {
    if key.createStatus != ErrorSuccess then Written(Err(key.createStatus), key)
    else if !writeLands then Written(Ok(()), key)
    else if flag then Written(Ok(()), key.(values := key.values[ValueName := Sz(Quoted(exe) + [Nul])]))
    else Written(Ok(()), key.(values := key.values - {ValueName}))
  }

  /** The stored value reads back as exactly the executable path. */
  lemma StoredPathOfQuoted(exe: string)
    requires Nul !in exe
    ensures StoredPath(Quoted(exe) + [Nul]) == exe
  {
    assert Nul !in Quoted(exe);
    CStringOfTerminated(Quoted(exe));
    UnquoteQuoted(exe);
  }

  /** After a landed `SetEnabled(true)`, `IsEnabled` asks whether the
      expected executable is equivalent to itself. */
  lemma EnableRoundTrip(key: Key, runningExe: string, equivalent: Equivalence)
    requires key.createStatus == ErrorSuccess && key.readCreateStatus == ErrorSuccess
    requires key.readStatus == ErrorSuccess
    requires key.probeStatus == ErrorSuccess || key.probeStatus == ErrorMoreData
    requires Nul !in runningExe
    ensures var exe := ExpectedExe(runningExe);
            IsEnabled(SetEnabled(key, exe, true, true).key, exe, equivalent) == equivalent(exe, exe)
  {
    StoredPathOfQuoted(ExpectedExe(runningExe));
  }

  /** After a landed `SetEnabled(false)`, `IsEnabled` reports `false`. */
  lemma DisableRoundTrip(key: Key, exe: string, equivalent: Equivalence)
    requires key.createStatus == ErrorSuccess && key.readCreateStatus == ErrorSuccess
    ensures IsEnabled(SetEnabled(key, exe, false, true).key, exe, equivalent) == Ok(false)
  {
  }
}

=== FILE: md2html.dfy ===
/** The documentation build step (build/md2html.py): relative links of a
    parsed Markdown document get an `.html` extension, and the title is
    taken from the first heading. The Markdown parser and renderer and the
    URL splitter are not modelled: the document enters as a tree and the
    splitter as a pair of functions. */
module Md2Html {
  import opened Wrappers

  /** The element classes the script tests for; any other class is
      `Other`. */
  datatype Kind = Document | SetextHeading | Heading | Link | RawText | Other

  /** A parsed element: its class, a link's destination, a raw text's
      characters and the child elements. */
  datatype Element = Element(kind: Kind, dest: string, text: string, children: seq<Element>)

  /** The five parts `urllib.parse.urlsplit` yields. */
  datatype SplitUrl = SplitUrl(scheme: string, netloc: string, path: string, query: string, fragment: string)

  /** `urlsplit` and `urlunsplit`, kept uninterpreted. */
  datatype UrlCodec = UrlCodec(split: string -> SplitUrl, unsplit: SplitUrl -> string)

  const HtmlSuffix: string := ".html"

  /** A link destination is relative when it names no host and its path
      does not start at the root. */
  predicate IsRelative(u: SplitUrl) {
    |u.netloc| == 0 && !(|u.path| > 0 && u.path[0] == '/')
  }

  /** The destination rule of `fixup_links`: a relative link gets `.html`
      appended to its path, even an empty path; the other four parts are
      kept; any other destination is left exactly as it was. */
  function FixDest(dest: string, codec: UrlCodec): (r: string)
    ensures !IsRelative(codec.split(dest)) ==> r == dest
    ensures IsRelative(codec.split(dest)) ==>
              r == codec.unsplit(SplitUrl(codec.split(dest).scheme, codec.split(dest).netloc,
                                          codec.split(dest).path + HtmlSuffix, codec.split(dest).query,
                                          codec.split(dest).fragment))
  {
    var u := codec.split(dest);
    if IsRelative(u) then codec.unsplit(u.(path := u.path + HtmlSuffix)) else dest
  }

  /** `fixup_links`: each link child gets its destination fixed and is not
      descended into; every other child is fixed up recursively. */
  function FixupLinks(e: Element, codec: UrlCodec): (r: Element)
    ensures r.kind == e.kind && r.dest == e.dest && r.text == e.text
    ensures |r.children| == |e.children|
    ensures forall i | 0 <= i < |e.children| :: r.children[i].kind == e.children[i].kind
    ensures forall i | 0 <= i < |e.children| && e.children[i].kind == Link ::
              r.children[i] == e.children[i].(dest := FixDest(e.children[i].dest, codec))
    ensures forall i | 0 <= i < |e.children| && e.children[i].kind != Link ::
              r.children[i] == FixupLinks(e.children[i], codec)
    decreases e, 1
  {
    e.(children := seq(|e.children|, i requires 0 <= i < |e.children| => FixupChild(e.children[i], codec)))
  }

  function FixupChild(c: Element, codec: UrlCodec): (r: Element)
    ensures r.kind == c.kind && r.text == c.text
    decreases c, 2
  {
    if c.kind == Link then c.(dest := FixDest(c.dest, codec)) else FixupLinks(c, codec)
  }

  /** The child-level rule, stated per child. */
  lemma FixupLinksChildren(e: Element, codec: UrlCodec, i: nat)
    requires i < |e.children|
    ensures e.children[i].kind == Link ==>
              FixupLinks(e, codec).children[i] == e.children[i].(dest := FixDest(e.children[i].dest, codec))
    ensures e.children[i].kind != Link ==> FixupLinks(e, codec).children[i] == FixupLinks(e.children[i], codec)
  {
  }

  /** The tree with every link destination blanked: what the fix-up must
      leave alone. */
  function Erase(e: Element): Element
    decreases e
  {
    Element(e.kind, if e.kind == Link then "" else e.dest, e.text,
            seq(|e.children|, i requires 0 <= i < |e.children| => Erase(e.children[i])))
  }

  /** The fix-up changes nothing but link destinations: the tree's shape,
      classes and texts are those of the input. */
  lemma {:induction false} FixupPreservesShape(e: Element, codec: UrlCodec)
    requires e.kind != Link
    ensures Erase(FixupLinks(e, codec)) == Erase(e)
    decreases e
  {
    var r := FixupLinks(e, codec);
    forall i | 0 <= i < |e.children|
      ensures Erase(r.children[i]) == Erase(e.children[i])
    {
      FixupLinksChildren(e, codec, i);
      var c := e.children[i];
      if c.kind != Link {
        FixupPreservesShape(c, codec);
      } else {
        assert Erase(r.children[i]) == Element(Link, "", c.text, Erase(c).children);
      }
    }
    assert Erase(r).children == Erase(e).children;
  }

  /** The class list argument of `first_child_of_type`: a single class is
      wrapped into a one-element list. */
  datatype Types = OneType(kind: Kind) | TypeList(kinds: seq<Kind>)

  function AsList(t: Types): (ks: seq<Kind>)
    ensures t.OneType? ==> ks == [t.kind]
    ensures t.TypeList? ==> ks == t.kinds
  {
    match t
    case OneType(k) => [k]
    case TypeList(ks) => ks
  }

  /** The position of the first child whose class is one of `kinds`. */
  function FirstMatch(children: seq<Element>, kinds: seq<Kind>): (r: Option<nat>)
    ensures r.Some? ==> r.value < |children| && children[r.value].kind in kinds
                        && forall j | 0 <= j < r.value :: children[j].kind !in kinds
    ensures r.None? <==> forall j | 0 <= j < |children| :: children[j].kind !in kinds
    decreases |children|
  {
    if |children| == 0 then None
    else if children[0].kind in kinds then Some(0)
    else match FirstMatch(children[1..], kinds)
      case None => None
      case Some(k) => Some(k + 1)
  }

  /** `first_child_of_type`: none for a missing element; otherwise the first
      child, in order, of one of the classes. */
  function FirstChildOfType(e: Option<Element>, types: Types): (r: Option<Element>)
    ensures e.None? ==> r.None?
    ensures e.Some? ==> (r.None? <==> forall j | 0 <= j < |e.value.children| :: e.value.children[j].kind !in AsList(types))
    ensures r.Some? ==> exists i | 0 <= i < |e.value.children| ::
              r.value == e.value.children[i] && e.value.children[i].kind in AsList(types)
              && forall j | 0 <= j < i :: e.value.children[j].kind !in AsList(types)
  {
    match e
    case None => None
    case Some(el) =>
      match FirstMatch(el.children, AsList(types))
      case None => None
      case Some(i) => Some(el.children[i])
  }

  /** Only the classes of the children decide which one is found. */
  lemma FirstMatchByKinds(a: seq<Element>, b: seq<Element>, kinds: seq<Kind>)
    requires |a| == |b| && forall j | 0 <= j < |a| :: a[j].kind == b[j].kind
    ensures FirstMatch(a, kinds) == FirstMatch(b, kinds)
  {
    if FirstMatch(a, kinds).Some? {
      var i := FirstMatch(a, kinds).value;
      assert a[i].kind == b[i].kind;
    }
  }

  /** The title: the text of the first raw text inside the first heading of
      either kind, if there is one. */
  function Title(doc: Element): (t: Option<string>)
    ensures FirstMatch(doc.children, [SetextHeading, Heading]).None? ==> t.None?
    ensures FirstMatch(doc.children, [SetextHeading, Heading]).Some? ==>
              var h := doc.children[FirstMatch(doc.children, [SetextHeading, Heading]).value];
              (t.None? <==> forall j | 0 <= j < |h.children| :: h.children[j].kind != RawText)
              && (t.Some? ==> exists j | 0 <= j < |h.children| ::
                                h.children[j].kind == RawText && t.value == h.children[j].text
                                && forall k | 0 <= k < j :: h.children[k].kind != RawText)
  {
    var heading := FirstChildOfType(Some(doc), TypeList([SetextHeading, Heading]));
    var titleBlock := FirstChildOfType(heading, OneType(RawText));
    match titleBlock
    case Some(b) => Some(b.text)
    case None => None
  }

  /** Fixing up the links, as the script does before looking for the title,
      does not change the title. */
  lemma TitleUnchangedByFixup(doc: Element, codec: UrlCodec)
    requires doc.kind != Link
    ensures Title(FixupLinks(doc, codec)) == Title(doc)
  {
    var fixed := FixupLinks(doc, codec);
    var kinds := [SetextHeading, Heading];
    FirstMatchByKinds(doc.children, fixed.children, kinds);
    match FirstMatch(doc.children, kinds)
    case None =>
    case Some(i) =>
      FixupLinksChildren(doc, codec, i);
      HeadingTextUnchanged(doc.children[i], codec);
  }

  /** Inside a heading, the fix-up keeps the first raw text child. */
  lemma HeadingTextUnchanged(h: Element, codec: UrlCodec)
    requires h.kind != Link
    ensures FirstMatch(FixupLinks(h, codec).children, [RawText]) == FirstMatch(h.children, [RawText])
    ensures FirstMatch(h.children, [RawText]).Some? ==>
              FixupLinks(h, codec).children[FirstMatch(h.children, [RawText]).value].text
              == h.children[FirstMatch(h.children, [RawText]).value].text
  {
    var fh := FixupLinks(h, codec);
    FirstMatchByKinds(h.children, fh.children, [RawText]);
  }
}

=== FILE: registry.dfy ===
/** The per-user registry as the configuration code sees it: one key holding
    named values, the status codes of the calls made on it, and the string
    convention of NUL-terminated buffers used when reading a value back. */
module Registry {
  import opened Wrappers

  /** Win32 status codes that the configuration code tests for. */
  const ErrorSuccess: int := 0
  const ErrorFileNotFound: int := 2
  const ErrorMoreData: int := 234
  const ErrorUnsupportedType: int := 1630

  type DWord = x: int | 0 <= x < 0x1_0000_0000

  /** A registry value: a `REG_DWORD`, a `REG_SZ` with its raw character
      data (terminator included when the writer stored one), or any other
      type. */
  datatype RegValue = Dword(n: DWord) | Sz(data: string) | Other

  type Values = map<string, RegValue>

  /** One key and the platform's answers about it: the status of opening it
      for reading (`RegOpenKeyExW`), of creating or opening it with write
      access (`RegCreateKeyExW` with `KEY_WRITE`), of creating or opening it
      with read access only (`RegCreateKeyExW` with `KEY_READ`), of a size
      probe on an existing value, and of reading an existing value. */
  datatype Key = Key(openStatus: int, createStatus: int, readCreateStatus: int, probeStatus: int, readStatus: int,
                     values: Values)

  /** The key after a call that may write to it, and what the call
      returned. */
  datatype Written = Written(result: Result<(), int>, key: Key)

  const Nul: char := '\0'

  /** The string a NUL-terminated buffer holds: everything before the first
      NUL, or the whole buffer when it has none. */
  function CString(s: string): (r: string)
    ensures r <= s
    ensures Nul !in r
    ensures |r| < |s| ==> s[|r|] == Nul
    decreases |s|
  {
    if |s| == 0 || s[0] == Nul then [] else [s[0]] + CString(s[1..])
  }

  /** A string without NUL reads back unchanged from a buffer that holds it
      followed by a terminator. */
  lemma {:induction false} CStringOfTerminated(s: string)
    requires Nul !in s
    ensures CString(s + [Nul]) == s
    decreases |s|
  {
    if |s| > 0 {
      assert (s + [Nul])[0] == s[0] && (s + [Nul])[1..] == s[1..] + [Nul];
      CStringOfTerminated(s[1..]);
    }
  }
}

=== FILE: resolve_display.dfy ===
/** `resolve_display` (HDRCmd/subcommand/resolve_display.cpp): a display
    given on the command line is found by index, then by case-folded exact
    name, then by case-folded substring; a stage with several candidates
    yields nothing. The result is a position in the display list. */
module ResolveDisplay {
  import opened Wrappers
  import opened HdrApi
  import opened Decimal
  import opened DisplayName

  /** `haystack.find(needle) != npos`: the needle occurs at some offset; the
      empty needle occurs everywhere. */
  predicate Contains(haystack: string, needle: string) {
    exists k | 0 <= k <= |haystack| - |needle| :: OccursAt(haystack, needle, k)
  }

  predicate OccursAt(haystack: string, needle: string, k: nat)
    requires k + |needle| <= |haystack|
  {
    haystack[k..k + |needle|] == needle
  }

  lemma ContainsItself(s: string)
    ensures Contains(s, s)
  {
    assert OccursAt(s, s, 0);
  }

  datatype Match = Exact | Substring

  /** The name test of a stage on a display whose name query succeeded. */
  predicate NameMatches(foldName: string, foldId: string, kind: Match) {
    match kind
    case Exact => foldName == foldId
    case Substring => Contains(foldName, foldId)
  }

  /** A display takes part in a name stage only when its name query
      succeeds; its folded name is then tested. */
  predicate IsCandidate(d: DisplayInfo, foldId: string, kind: Match, text: Text) {
    d.GetName().Ok? && NameMatches(text.fold(d.GetName().value), foldId, kind)
  }

  /** The candidates of one stage: the positions of all matching displays,
      in list order. */
  function Candidates(ds: seq<DisplayInfo>, foldId: string, kind: Match, text: Text): (c: seq<nat>)
    ensures forall k | 0 <= k < |c| :: c[k] < |ds| && IsCandidate(ds[c[k]], foldId, kind, text)
    ensures forall k, l | 0 <= k < l < |c| :: c[k] < c[l]
    ensures forall i | 0 <= i < |ds| && IsCandidate(ds[i], foldId, kind, text) :: i in c
    decreases |ds|
  {
    if |ds| == 0 then []
    else
      var n := |ds| - 1;
      var prev := Candidates(ds[..n], foldId, kind, text);
      assert forall i | 0 <= i < n :: ds[..n][i] == ds[i];
      if IsCandidate(ds[n], foldId, kind, text) then prev + [n] else prev
  }

  /** The stage's answer: its only candidate, nothing when there are none or
      several. */
  function Unique(c: seq<nat>): (r: Option<nat>)
    ensures r.Some? <==> |c| == 1
    ensures r.Some? ==> r.value == c[0]
  {
    if |c| == 1 then Some(c[0]) else None
  }

  /** The index stage: a leading integer, trailing characters ignored, that
      is a valid position. */
  function IndexHit(ds: seq<DisplayInfo>, id: string): (r: Option<nat>)
    ensures r.Some? <==> ParseLeadingInt(id).Some? && 0 <= ParseLeadingInt(id).value < |ds|
    ensures r.Some? ==> r.value == ParseLeadingInt(id).value
  {
    match ParseLeadingInt(id)
    case Some(i) => if 0 <= i < |ds| then Some(i) else None
    case None => None
  }

  /** `resolve_display`. */
  function Resolve(ds: seq<DisplayInfo>, id: string, text: Text): (r: Option<nat>)
    ensures r.Some? ==> r.value < |ds|
    ensures IndexHit(ds, id).Some? ==> r == IndexHit(ds, id)
    ensures IndexHit(ds, id).None? && r.Some? ==>
              ds[r.value].GetName().Ok?
              && (Candidates(ds, text.fold(text.widen(id)), Exact, text) == [r.value]
                  || (Candidates(ds, text.fold(text.widen(id)), Exact, text) == []
                      && Candidates(ds, text.fold(text.widen(id)), Substring, text) == [r.value]))
    ensures IndexHit(ds, id).None? && |Candidates(ds, text.fold(text.widen(id)), Exact, text)| == 1 ==>
              r == Some(Candidates(ds, text.fold(text.widen(id)), Exact, text)[0])
    ensures IndexHit(ds, id).None? && Candidates(ds, text.fold(text.widen(id)), Exact, text) == []
            && |Candidates(ds, text.fold(text.widen(id)), Substring, text)| == 1 ==>
              r == Some(Candidates(ds, text.fold(text.widen(id)), Substring, text)[0])
  {
    match IndexHit(ds, id)
    case Some(i) => Some(i)
    case None =>
      var foldId := text.fold(text.widen(id));
      AmbiguousExactIsAmbiguousSubstring(ds, foldId, text);
      match Unique(Candidates(ds, foldId, Exact, text))
      case Some(i) => Some(i)
      case None => Unique(Candidates(ds, foldId, Substring, text))
  }

  /** An exact match is also a substring match. */
  lemma ExactIsSubstring(d: DisplayInfo, foldId: string, text: Text)
    requires IsCandidate(d, foldId, Exact, text)
    ensures IsCandidate(d, foldId, Substring, text)
  {
    ContainsItself(foldId);
  }

  /** Two exact matches are also two substring matches. */
  lemma AmbiguousExactIsAmbiguousSubstring(ds: seq<DisplayInfo>, foldId: string, text: Text)
    ensures |Candidates(ds, foldId, Exact, text)| > 1 ==> |Candidates(ds, foldId, Substring, text)| > 1
  {
    var exact := Candidates(ds, foldId, Exact, text);
    var sub := Candidates(ds, foldId, Substring, text);
    if |exact| > 1 {
      ExactIsSubstring(ds[exact[0]], foldId, text);
      ExactIsSubstring(ds[exact[1]], foldId, text);
      assert exact[0] in sub && exact[1] in sub && exact[0] != exact[1];
    }
  }

  /** An ambiguous exact stage leaves the whole resolution without a result,
      because the substring stage sees the same names and more. */
  lemma AmbiguousExactMatchResolvesToNothing(ds: seq<DisplayInfo>, id: string, text: Text)
    requires IndexHit(ds, id).None?
    requires |Candidates(ds, text.fold(text.widen(id)), Exact, text)| > 1
    ensures Resolve(ds, id, text).None?
  {
  }

  /** Without an index hit, a display whose name query fails is never the
      result. */
  lemma NamelessNeverMatched(ds: seq<DisplayInfo>, id: string, text: Text, i: nat)
    requires i < |ds| && ds[i].GetName().Err?
    requires IndexHit(ds, id).None?
    ensures Resolve(ds, id, text) != Some(i)
  {
  }
}

=== FILE: select_cmd.dfy ===
/** The `select` subcommand (HDRCmd/subcommand/Select.cpp): storing whether
    the displays named on the command line take part in HDR toggling, and
    the dispatch of `run`. */
module SelectCmd {
  import opened Wrappers
  import opened HdrApi
  import opened Registry
  import opened Decimal
  import opened DisplayName
  import opened ResolveDisplay
  import opened DisplayStatus
  import DisplayConfig

  /** The stable id a command-line id leads to: none when the id does not
      resolve or the display has no stable id. */
  function TargetOf(all: seq<DisplayInfo>, id: string, text: Text): (t: Option<string>)
    ensures t.Some? <==> Resolve(all, id, text).Some? && all[Resolve(all, id, text).value].GetStableID().Ok?
    ensures t.Some? ==> t.value == all[Resolve(all, id, text).value].GetStableID().value
  {
    match Resolve(all, id, text)
    case None => None
    case Some(p) =>
      match all[p].GetStableID()
      case Ok(s) => Some(s)
      case Err(_) => None
  }

  /** `TargetOf` over one display list, as a function of the id. */
  function TargetFor(all: seq<DisplayInfo>, text: Text): string -> Option<string> {
    id => TargetOf(all, id, text)
  }

  /** The stable ids the loop writes, in argument order: one per id that
      leads to a stable id, at that id's position among them. */
  function Targets(all: seq<DisplayInfo>, ids: seq<string>, text: Text): (ts: seq<string>)
    ensures |ts| <= |ids|
    ensures forall k | 0 <= k < |ts| :: exists i | 0 <= i < |ids| :: TargetOf(all, ids[i], text) == Some(ts[k])
    ensures forall i | 0 <= i < |ids| && TargetOf(all, ids[i], text).Some? :: TargetOf(all, ids[i], text).value in ts
    ensures |ts| == |PresentAt(ids, TargetFor(all, text))|
    ensures forall k | 0 <= k < |ts| :: Some(ts[k]) == TargetOf(all, ids[PresentAt(ids, TargetFor(all, text))[k]], text)
  {
    Collect(ids, TargetFor(all, text))
  }

  /** The selection writes in order; the result is the first write's
      error, if any. Every write sees the key as the earlier writes left
      it. */
  function StoreFlags(key: Key, ts: seq<string>, flag: bool, writeLands: bool): (w: Written)
    ensures w.result.Err? <==> |ts| > 0 && key.createStatus != ErrorSuccess
    ensures w.result.Err? ==> w.result.error == key.createStatus
    ensures w.key.createStatus == key.createStatus && w.key.readCreateStatus == key.readCreateStatus
            && w.key.readStatus == key.readStatus
    ensures forall name | name in key.values && forall k | 0 <= k < |ts| :: name != DisplayConfig.DisplayValueName(ts[k]) ::
              name in w.key.values && w.key.values[name] == key.values[name]
    decreases |ts|
  {
    if |ts| == 0 then Written(Ok(()), key)
    else
      var n := |ts| - 1;
      var prev := StoreFlags(key, ts[..n], flag, writeLands);
      assert forall k | 0 <= k < n :: ts[..n][k] == ts[k];
      var step := DisplayConfig.SetEnabledFlag(prev.key, ts[n], flag, writeLands);
      if prev.result.Err? then Written(prev.result, step.key) else step
  }

  /** Once the key opens both ways, the writes land and reads succeed,
      every written display reads back with the requested flag, whatever was stored before. */
  lemma {:induction false} StoredFlagsReadBack(key: Key, ts: seq<string>, flag: bool)
    requires key.createStatus == ErrorSuccess && key.readCreateStatus == ErrorSuccess
    requires key.readStatus == ErrorSuccess
    ensures forall k | 0 <= k < |ts| ::
              DisplayConfig.GetEnabledFlag(StoreFlags(key, ts, flag, true).key, ts[k]) == Ok(flag)
    decreases |ts|
  {
    if |ts| > 0 {
      var n := |ts| - 1;
      var prevKey := StoreFlags(key, ts[..n], flag, true).key;
      StoredFlagsReadBack(key, ts[..n], flag);
      assert StoreFlags(key, ts, flag, true).key == DisplayConfig.SetEnabledFlag(prevKey, ts[n], flag, true).key;
      DisplayConfig.SetThenGet(prevKey, ts[n], flag);
      forall k | 0 <= k < n
        ensures DisplayConfig.GetEnabledFlag(StoreFlags(key, ts, flag, true).key, ts[k]) == Ok(flag)
      {
        assert ts[..n][k] == ts[k];
        if ts[k] != ts[n] {
          DisplayConfig.SetLeavesOthers(prevKey, ts[n], ts[k], flag, true);
        }
      }
    }
  }

  /** What `toggle_displays` returns, and the key after it. */
  datatype Toggled = Toggled(code: int, key: Key)

  /** `toggle_displays` as evidently intended: the first store error is
      returned, 0 when every store succeeded. */
  function ToggleDisplays(all: seq<DisplayInfo>, ids: seq<string>, text: Text, key: Key, flag: bool, writeLands: bool): (t: Toggled)
    ensures t.code != ErrorSuccess <==> key.createStatus != ErrorSuccess && |Targets(all, ids, text)| > 0
    ensures t.code != ErrorSuccess ==> t.code == key.createStatus
    ensures t.key == StoreFlags(key, Targets(all, ids, text), flag, writeLands).key
  {
    var w := StoreFlags(key, Targets(all, ids, text), flag, writeLands);
    Toggled(match w.result case Ok(_) => 0 case Err(e) => e, w.key)
  }

  /** `toggle_displays` as written: the store error is written through an
      empty `std::optional` (undefined behaviour that leaves it empty), so
      `value_or(0)` always yields 0. The writes are the same. */
  function ToggleDisplaysAsWritten(all: seq<DisplayInfo>, ids: seq<string>, text: Text, key: Key, flag: bool, writeLands: bool): (t: Toggled)
    ensures t.code == ErrorSuccess
    ensures t.key == ToggleDisplays(all, ids, text, key, flag, writeLands).key
  {
    var w := StoreFlags(key, Targets(all, ids, text), flag, writeLands);
    var result: Option<int> := None;
    Toggled(result.GetOr(0), w.key)
  }

  /** A key that cannot be created, with one display addressed by index 0
      that has a stable id: the store fails with status 5, yet the code as
      written exits with 0. */
  lemma ToggleDisplaysAsWrittenLosesError(text: Text)
    ensures var d := DisplayInfo(0, DisplayId([0, 0, 0, 0, 0, 0, 0, 0], 0), Err(1), Err(1), Err(1), Ok("S"));
            var key := Key(0, 5, 0, 0, 0, map[]);
            ToggleDisplaysAsWritten([d], ["0"], text, key, true, true).code == 0
            && ToggleDisplays([d], ["0"], text, key, true, true).code == 5
  {
    var d := DisplayInfo(0, DisplayId([0, 0, 0, 0, 0, 0, 0, 0], 0), Err(1), Err(1), Err(1), Ok("S"));
    ParseDecimalString(0, "");
    assert DecimalString(0) + "" == "0";
    assert TargetOf([d], "0", text) == Some("S");
    assert ["0"][0] == "0";
  }

  /** What `run` does: whether help is printed, the exit code, the key
      afterwards and the final listing. */
  datatype SelectRun = SelectRun(help: bool, code: int, key: Key, listing: Listing)

  /** `Select::run`: help without any subcommand; the flags stored only for
      `on` or `off`, with `on` winning when both are given; the listing
      always printed last. */
  function Run(hasList: bool, hasOn: bool, hasOff: bool, core: Core, ids: seq<string>, text: Text,
               key: Key, writeLands: bool): (r: SelectRun)
    ensures r.help <==> !hasOn && !hasOff && !hasList
    ensures !hasOn && !hasOff ==> r.code == 0 && r.key == key
    ensures hasOn || hasOff ==>
              Toggled(r.code, r.key) == ToggleDisplays(core.displays, ids, text, key, hasOn, writeLands)
    ensures r.listing == PrintStatusLong(core.displays, text)
  {
    var help := !hasOn && !hasOff && !hasList;
    var t := if hasOn || hasOff then ToggleDisplays(core.displays, ids, text, key, hasOn, writeLands)
             else Toggled(0, key);
    SelectRun(help, t.code, t.key, PrintStatusLong(core.displays, text))
  }

  /** `Select::run` as written: the exit code comes from the as-written
      `toggle_displays` and is therefore always 0; help, the stored flags
      and the listing are those of `Run`. */
  function RunAsWritten(hasList: bool, hasOn: bool, hasOff: bool, core: Core, ids: seq<string>, text: Text,
                        key: Key, writeLands: bool): (r: SelectRun)
    ensures r.code == ErrorSuccess
    ensures r == Run(hasList, hasOn, hasOff, core, ids, text, key, writeLands).(code := ErrorSuccess)
  {
    var help := !hasOn && !hasOff && !hasList;
    var t := if hasOn || hasOff then ToggleDisplaysAsWritten(core.displays, ids, text, key, hasOn, writeLands)
             else Toggled(0, key);
    SelectRun(help, t.code, t.key, PrintStatusLong(core.displays, text))
  }

  /** After `select on` (or `off`) with a key that opens both ways, writes
      that land and reads that succeed, every display the ids lead to counts as selected (or not) for
      toggling. */
  lemma RunStoresSelection(hasOn: bool, hasOff: bool, core: Core, ids: seq<string>, text: Text, key: Key, i: nat)
    requires hasOn || hasOff
    requires key.createStatus == ErrorSuccess && key.readCreateStatus == ErrorSuccess
    requires key.readStatus == ErrorSuccess
    requires i < |ids| && TargetOf(core.displays, ids[i], text).Some?
    ensures DisplayConfig.IsEnabled(Run(false, hasOn, hasOff, core, ids, text, key, true).key,
                                    TargetOf(core.displays, ids[i], text).value) == hasOn
    ensures Run(false, hasOn, hasOff, core, ids, text, key, true).code == 0
  {
    var ts := Targets(core.displays, ids, text);
    StoredFlagsReadBack(key, ts, hasOn);
    var k :| 0 <= k < |ts| && ts[k] == TargetOf(core.displays, ids[i], text).value;
  }
}

=== FILE: status_cmd.dfy ===
/** The `status` subcommand (HDRCmd/subcommand/Status.cpp): the validator
    of its `--mode` option and the exit code of `run`. */
module StatusCmd {
  import opened Wrappers
  import opened HdrApi
  import opened Ascii
  import opened DisplayName
  import opened DisplayStatus

  const Short: string := "short"
  const Long: string := "long"
  const ExitCodeMode: string := "exitcode"
  const ModesDescription: string := "(s)hort,(l)ong,e(x)itcode"

  /** No ASCII upper-case letter occurs. */
  predicate NoUpper(s: string) {
    forall c | c in s :: !('A' <= c <= 'Z')
  }

  /** `CLI::detail::remove_underscore`: `RemoveUnderscoreContents` says
      every other character is kept as often as it occurs, and
      `RemoveUnderscoreAppend` with `RemoveUnderscoreSingle` pin the order. */
  function RemoveUnderscore(s: string): (r: string)
    ensures '_' !in r
    ensures forall c | c in r :: c in s
    ensures '_' !in s ==> r == s
    decreases |s|
  {
    if |s| == 0 then []
    else
      var rest := RemoveUnderscore(s[1..]);
      assert forall c | c in s[1..] :: c in s;
      assert s == [s[0]] + s[1..];
      if s[0] == '_' then rest else [s[0]] + rest
  }

  /** Exactly the underscores are dropped: every other character is kept as
      often as it occurs. */
  lemma {:induction false} RemoveUnderscoreContents(s: string)
    ensures multiset(RemoveUnderscore(s)) == multiset(s)['_' := 0]
    ensures |RemoveUnderscore(s)| == |s| - multiset(s)['_']
    decreases |s|
  {
    if |s| > 0 {
      RemoveUnderscoreContents(s[1..]);
      assert s == [s[0]] + s[1..];
    }
  }

  /** Removing underscores from a concatenation removes them from each part
      in turn: the kept characters stay in their order. */
  lemma {:induction false} RemoveUnderscoreAppend(a: string, b: string)
    ensures RemoveUnderscore(a + b) == RemoveUnderscore(a) + RemoveUnderscore(b)
    decreases |a|
  {
    if |a| > 0 {
      assert (a + b)[1..] == a[1..] + b;
      RemoveUnderscoreAppend(a[1..], b);
    } else {
      assert a + b == b;
    }
  }

  /** One character is dropped iff it is an underscore. */
  lemma RemoveUnderscoreSingle(c: char)
    ensures RemoveUnderscore([c]) == if c == '_' then [] else [c]
  {
    assert [c][1..] == [];
  }

  /** The item as the validator tests it: lower-cased, underscores removed.
      `NormalizeAppend` and `NormalizeSingle` give it character by
      character. */
  function Normalize(item: string): (n: string)
    ensures '_' !in n
    ensures NoUpper(n)
  {
    RemoveUnderscore(ToLower(item))
  }

  /** Normalising drops exactly the underscores of the item. */
  lemma NormalizeLength(item: string)
    ensures |Normalize(item)| == |item| - multiset(item)['_']
  {
    UnderscoresKeptByLower(item);
    RemoveUnderscoreContents(ToLower(item));
  }

  /** Lower-casing neither adds nor removes underscores. */
  lemma {:induction false} UnderscoresKeptByLower(s: string)
    ensures multiset(ToLower(s))['_'] == multiset(s)['_']
    decreases |s|
  {
    if |s| > 0 {
      var n := |s| - 1;
      UnderscoresKeptByLower(s[..n]);
      assert s == s[..n] + [s[n]];
      assert ToLower(s) == ToLower(s[..n]) + [AsciiLower(s[n])];
    }
  }

  /** Normalising a concatenation normalises each part in turn. */
  lemma NormalizeAppend(a: string, b: string)
    ensures Normalize(a + b) == Normalize(a) + Normalize(b)
  {
    assert ToLower(a + b) == ToLower(a) + ToLower(b);
    RemoveUnderscoreAppend(ToLower(a), ToLower(b));
  }

  /** One character normalises to nothing when it is an underscore, and to
      its lower-case form otherwise. */
  lemma NormalizeSingle(c: char)
    ensures Normalize([c]) == if c == '_' then [] else [AsciiLower(c)]
  {
    assert ToLower([c]) == [AsciiLower(c)];
    RemoveUnderscoreSingle(AsciiLower(c));
  }

  /** A string already in normal form is left unchanged. */
  lemma NormalizeFixed(s: string)
    requires NoUpper(s) && '_' !in s
    ensures Normalize(s) == s
  {
    assert forall i | 0 <= i < |s| :: ToLower(s)[i] == s[i] by {
      assert forall i | 0 <= i < |s| :: s[i] in s;
    }
  }

  /** `StatusModeValidator::validate_func`: the first of `short`, `long`,
      `exitcode` that the normalised item is a prefix of (or `exitcode` for
      `x`), else an error message. */
  function Validate(item: string): (r: Result<string, string>)
    ensures r.Ok? ==> r.value == Short || r.value == Long || r.value == ExitCodeMode
    ensures r.Ok? <==> (Normalize(item) <= Short || Normalize(item) <= Long
                        || Normalize(item) <= ExitCodeMode || Normalize(item) == "x")
    ensures r == Ok(Short) <==> Normalize(item) <= Short
    ensures r == Ok(Long) <==> Normalize(item) <= Long && !(Normalize(item) <= Short)
    ensures r.Err? ==> |r.error| > 0
  {
    var n := Normalize(item);
    if n <= Short then Ok(Short)
    else if n <= Long then Ok(Long)
    else if n <= ExitCodeMode || n == "x" then Ok(ExitCodeMode)
    else Err("\"" + n + "\" not in " + ModesDescription + " (abbreviation is allowed)")
  }

  /** Every canonical mode validates to itself, so validating twice is the
      same as validating once. */
  lemma ValidateIdempotent(item: string)
    ensures Validate(item).Ok? ==> Validate(Validate(item).value) == Validate(item)
  {
    NormalizeFixed(Short);
    NormalizeFixed(Long);
    NormalizeFixed(ExitCodeMode);
  }

  /** The empty item is `short`, and `x` in either case is `exitcode`. */
  lemma ValidateExamples()
    ensures Validate("") == Ok(Short)
    ensures Validate("x") == Ok(ExitCodeMode)
    ensures Validate("X") == Ok(ExitCodeMode)
  {
    NormalizeFixed("x");
    assert ToLower("X") == "x";
  }

  /** Underscores anywhere in the item are ignored: `_L` is `long` and
      `e_x` is `exitcode`. */
  lemma ValidateUnderscoreExamples()
    ensures Validate("_L") == Ok(Long)
    ensures Validate("e_x") == Ok(ExitCodeMode)
  {
    NormalizeUnderscoreL();
    NormalizeEUnderscoreX();
  }

  lemma NormalizeUnderscoreL()
    ensures Normalize("_L") == "l"
  {
    NormalizeAppend("_", "L");
    NormalizeSingle('_');
    NormalizeSingle('L');
    assert "_" + "L" == "_L";
  }

  lemma NormalizeEUnderscoreX()
    ensures Normalize("e_x") == "ex"
  {
    NormalizeAppend("e_", "x");
    NormalizeAppend("e", "_");
    NormalizeSingle('e');
    NormalizeSingle('_');
    NormalizeSingle('x');
    assert "e" + "_" == "e_" && "e_" + "x" == "e_x";
  }

  /** The exit code of `exitcode` mode: 0 for On, 1 for Off, 2 for
      Unsupported. */
  function StatusExitCode(s: Status): (code: int)
    ensures code == 2 - Ordinal(s)
  {
    match s
    case On => 0
    case Off => 1
    case Unsupported => 2
  }

  /** What `run` prints and returns. */
  datatype StatusRun = StatusRun(code: int, shortLine: Option<Status>, listing: Option<Listing>)

  /** `Status::run`: the mode compared case-insensitively; the aggregate is
      taken over the enabled displays, the listing over all displays. */
  function Run(mode: string, core: Core, text: Text): (r: StatusRun)
    ensures |mode| == 0 || EqualsIgnoreCase(mode, Short) ==>
              r == StatusRun(0, Some(core.aggregate(core.enabledDisplays)), None)
    ensures !(|mode| == 0 || EqualsIgnoreCase(mode, Short)) && EqualsIgnoreCase(mode, Long) ==>
              r == StatusRun(0, Some(core.aggregate(core.enabledDisplays)), Some(PrintStatusLong(core.displays, text)))
    ensures !(|mode| == 0 || EqualsIgnoreCase(mode, Short) || EqualsIgnoreCase(mode, Long))
            && EqualsIgnoreCase(mode, ExitCodeMode) ==>
              r == StatusRun(StatusExitCode(core.aggregate(core.enabledDisplays)), None, None)
    ensures r.code == -1 <==>
              !(|mode| == 0 || EqualsIgnoreCase(mode, Short) || EqualsIgnoreCase(mode, Long)
                || EqualsIgnoreCase(mode, ExitCodeMode))
  {
    var status := core.aggregate(core.enabledDisplays);
    if |mode| == 0 || EqualsIgnoreCase(mode, Short) then StatusRun(0, Some(status), None)
    else if EqualsIgnoreCase(mode, Long) then StatusRun(0, Some(status), Some(PrintStatusLong(core.displays, text)))
    else if EqualsIgnoreCase(mode, ExitCodeMode) then StatusRun(StatusExitCode(status), None, None)
    else StatusRun(-1, None, None)
  }

  /** A mode that passed the validator never reaches the final `-1`. */
  lemma ValidatedModeNeverFails(item: string, core: Core, text: Text)
    requires Validate(item).Ok?
    ensures 0 <= Run(Validate(item).value, core, text).code <= 2
  {
    EqualsIgnoreCaseIsEquivalence(Validate(item).value, Validate(item).value, Validate(item).value);
  }
}

=== FILE: tray_icon.dfy ===
/** The notification-area icon of the tray application
    (HDRTray/NotifyIcon.cpp): its state fields and the choices made from
    them. The shell, menu and icon calls themselves are not modelled; their
    outcome enters as a parameter where the state depends on it. */
module TrayIcon {
  import opened Wrappers
  import opened HdrApi
  import opened Registry
  import LoginStartupConfig

  /** Menu command ids (HDRTray/Resource.h). */
  const IdmExit: int := 101
  const IdmLoginStartup: int := 102
  const IdmEnableHdr: int := 103
  const IdmConfiguration: int := 104

  /** String ids (HDRTray/Resource.h). */
  const IdsHdrUnsupported: int := 102
  const IdsHdrOn: int := 103
  const IdsHdrOff: int := 104

  /** Icon ids (HDRTray/Resource.h). The dark icon set comes first, the
      light one follows each. */
  const IdiHdrOffDarkMode: int := 101
  const IdiHdrOffLightMode: int := 102
  const IdiHdrOnDarkMode: int := 103
  const IdiHdrOnLightMode: int := 104

  /** The fields of `NotifyIcon` that decide its behaviour. */
  datatype State = State(added: bool, darkModeIcons: bool, hdrStatus: Status)

  /** A freshly constructed icon: not added, light icons, Unsupported. */
  const Initial: State := State(false, false, Unsupported)

  /** The taskbar colouring `GetSysPartsMode` reports. */
  datatype SysPartsMode = Light | Dark | Accented

  /** `FetchHDRStatus`: the status of the displays selected for toggling. */
  function FetchHdrStatus(st: State, core: Core): (r: State)
    ensures r.hdrStatus == core.aggregate(core.enabledDisplays)
    ensures r.added == st.added && r.darkModeIcons == st.darkModeIcons
  {
    st.(hdrStatus := core.aggregate(core.enabledDisplays))
  }

  /** `FetchDarkMode`: dark icons unless the taskbar is light; a failed
      query changes nothing. */
  function FetchDarkMode(st: State, mode: Option<SysPartsMode>): (r: State)
    ensures mode.None? ==> r == st
    ensures mode.Some? ==> (r.darkModeIcons <==> mode.value != Light)
    ensures r.added == st.added && r.hdrStatus == st.hdrStatus
  {
    match mode
    case None => st
    case Some(m) => st.(darkModeIcons := m != Light)
  }

  /** What the icon shows: its icon resource and its tooltip string. */
  datatype Shown = Shown(icon: int, tooltip: int)

  /** `UpdateIcon` with `GetCurrentIconSet`: the "on" icon exactly for On,
      from the dark set exactly when `darkModeIcons`; one tooltip per
      status. */
  function ShownIcon(st: State): (s: Shown)
    ensures s.icon in {IdiHdrOnDarkMode, IdiHdrOnLightMode} <==> st.hdrStatus == On
    ensures s.icon in {IdiHdrOffDarkMode, IdiHdrOnDarkMode} <==> st.darkModeIcons
    ensures s.tooltip == (match st.hdrStatus case Unsupported => IdsHdrUnsupported case Off => IdsHdrOff case On => IdsHdrOn)
  {
    var iconSet := if st.darkModeIcons then 0 else 1;
    match st.hdrStatus
    case On => Shown(IdiHdrOnDarkMode + iconSet, IdsHdrOn)
    case Off => Shown(IdiHdrOffDarkMode + iconSet, IdsHdrOff)
    case Unsupported => Shown(IdiHdrOffDarkMode + iconSet, IdsHdrUnsupported)
  }

  /** Different statuses show different tooltips, and the icon tells On
      from the other two. */
  lemma ShownIconDistinguishesStatus(a: State, b: State)
    requires a.darkModeIcons == b.darkModeIcons
    ensures ShownIcon(a) == ShownIcon(b) <==> a.hdrStatus == b.hdrStatus
    ensures ShownIcon(a).icon == ShownIcon(b).icon <==> (a.hdrStatus == On <==> b.hdrStatus == On)
  {
  }

  /** `UpdateHDRStatus`: the status refreshed; whether it changed. */
  function UpdateHdrStatus(st: State, core: Core): (r: (State, bool))
    ensures r.0 == FetchHdrStatus(st, core)
    ensures r.1 <==> core.aggregate(core.enabledDisplays) != st.hdrStatus
  {
    var refreshed := FetchHdrStatus(st, core);
    (refreshed, refreshed.hdrStatus != st.hdrStatus)
  }

  /** A second refresh against unchanged displays reports no change. */
  lemma UpdateHdrStatusSettles(st: State, core: Core)
    ensures var r := UpdateHdrStatus(st, core);
            UpdateHdrStatus(r.0, core) == (r.0, false)
  {
  }

  /** `Add`: status and dark mode are fetched first; `added` is set only
      when the shell accepts the icon and is otherwise left as it was. */
  function Add(st: State, core: Core, mode: Option<SysPartsMode>, accepted: bool): (r: (State, bool))
    ensures r.1 == accepted
    ensures r.0.added == (accepted || st.added)
    ensures r.0.hdrStatus == core.aggregate(core.enabledDisplays)
    ensures r.0.darkModeIcons == FetchDarkMode(st, mode).darkModeIcons
  {
    var fetched := FetchDarkMode(FetchHdrStatus(st, core), mode);
    if !accepted then (fetched, false) else (fetched.(added := true), true)
  }

  /** `Remove`: `added` is cleared whatever the shell answers. */
  function Remove(st: State): (r: State)
    ensures !r.added
    ensures r.darkModeIcons == st.darkModeIcons && r.hdrStatus == st.hdrStatus
  {
    st.(added := false)
  }

  /** Re-adding after a removal leaves the icon added exactly when the
      shell accepts it. */
  lemma ReaddAddedIffAccepted(st: State, core: Core, mode: Option<SysPartsMode>, accepted: bool)
    ensures Add(Remove(st), core, mode, accepted).0.added == accepted
  {
  }

  /** `ToggleHDR`: the toggle over the selected displays; its result
      becomes the status, and a failed toggle leaves the state alone. */
  function ToggleHdr(st: State, core: Core): (r: State)
    ensures core.toggleAggregate(core.enabledDisplays).None? ==> r == st
    ensures core.toggleAggregate(core.enabledDisplays).Some? ==>
              r == st.(hdrStatus := core.toggleAggregate(core.enabledDisplays).value)
  {
    match core.toggleAggregate(core.enabledDisplays)
    case None => st
    case Some(s) => st.(hdrStatus := s)
  }

  /** The state of the HDR item of the popup menu. */
  datatype HdrItem = HdrItem(disabled: bool, isDefault: bool, checked: bool, relabelled: bool)

  /** `PopupIconMenu`, HDR item: disabled and relabelled "unsupported" for
      Unsupported; otherwise the default item, checked exactly for On. */
  function HdrMenuItem(status: Status): (item: HdrItem)
    ensures item.disabled <==> status == Unsupported
    ensures item.relabelled <==> status == Unsupported
    ensures item.isDefault <==> status != Unsupported
    ensures item.checked <==> status == On
  {
    if status == Unsupported then HdrItem(true, false, false, true)
    else HdrItem(false, true, status == On, false)
  }

  /** `PopupIconMenu` on a menu that was shown before: the state is set
      afresh, but the text is only ever replaced, never put back, so once
      relabelled "unsupported" the item keeps that text for good. */
  function ShowHdrMenuItem(prev: HdrItem, status: Status): (item: HdrItem)
    ensures item.relabelled <==> prev.relabelled || status == Unsupported
    ensures item.disabled == HdrMenuItem(status).disabled
    ensures item.isDefault == HdrMenuItem(status).isDefault
    ensures item.checked == HdrMenuItem(status).checked
  {
    HdrMenuItem(status).(relabelled := prev.relabelled || status == Unsupported)
  }

  /** The item as loaded from the menu resource, before any show. */
  const LoadedHdrItem := HdrItem(false, false, false, false)

  /** The first show of a freshly loaded menu gives `HdrMenuItem`. */
  lemma FirstShowIsHdrMenuItem(status: Status)
    ensures ShowHdrMenuItem(LoadedHdrItem, status) == HdrMenuItem(status)
  {
  }

  /** After a run of shows the item is relabelled exactly when it already
      was or some show found HDR unsupported: once relabelled, it stays so
      even with HDR available again. */
  lemma {:induction false} RelabelPersists(prev: HdrItem, statuses: seq<Status>)
    ensures ShowAll(prev, statuses).relabelled <==> prev.relabelled || Unsupported in statuses
    decreases |statuses|
  {
    if |statuses| > 0 {
      RelabelPersists(ShowHdrMenuItem(prev, statuses[0]), statuses[1..]);
      assert statuses == [statuses[0]] + statuses[1..];
    }
  }

  /** The item after a run of shows with the given statuses. */
  function ShowAll(prev: HdrItem, statuses: seq<Status>): HdrItem
    decreases |statuses|
  {
    if |statuses| == 0 then prev else ShowAll(ShowHdrMenuItem(prev, statuses[0]), statuses[1..])
  }

  /** `PopupIconMenu`, login item: checked exactly when the state could be
      read and is on. */
  function LoginItemChecked(state: Result<bool, int>): (checked: bool)
    ensures checked <==> state == Ok(true)
  {
    state.Ok? && state.value
  }

  /** `ToggleLoginStartupEnabled`: the negation of the checked state is
      stored; a failure (reported in a balloon tip) leaves the key as it
      was. */
  function ToggleLoginStartup(checked: bool, key: Key, exe: string, writeLands: bool): (w: Written)
    ensures w.result.Err? <==> key.createStatus != ErrorSuccess
    ensures w.result.Err? ==> w.result.error == key.createStatus && w.key == key
    ensures w.result.Ok? && writeLands && checked ==> LoginStartupConfig.ValueName !in w.key.values
    ensures w.result.Ok? && writeLands && !checked ==>
              LoginStartupConfig.ValueName in w.key.values
              && w.key.values[LoginStartupConfig.ValueName] == Sz(LoginStartupConfig.Quoted(exe) + [Nul])
  {
    LoginStartupConfig.SetEnabled(key, exe, !checked, writeLands)
  }

  /** Choosing the login item when it shows checked turns the setting off
      (once the key opens and the delete lands). */
  lemma CheckedLoginItemTurnsOff(key: Key, exe: string, equivalent: LoginStartupConfig.Equivalence)
    requires key.createStatus == ErrorSuccess
    requires LoginItemChecked(LoginStartupConfig.IsEnabled(key, exe, equivalent))
    ensures LoginStartupConfig.IsEnabled(ToggleLoginStartup(true, key, exe, true).key, exe, equivalent) == Ok(false)
  {
    LoginStartupConfig.DisableRoundTrip(key, exe, equivalent);
  }

  /** `HandleCommand`: the HDR item toggles HDR; the login and
      configuration items are handled without touching the state; any
      other command is left to the window. */
  function HandleCommand(st: State, command: int, core: Core): (r: (State, bool))
    ensures r.1 <==> command in {IdmEnableHdr, IdmLoginStartup, IdmConfiguration}
    ensures command == IdmEnableHdr ==> r.0 == ToggleHdr(st, core)
    ensures command != IdmEnableHdr ==> r.0 == st
  {
    if command == IdmEnableHdr then (ToggleHdr(st, core), true)
    else if command == IdmLoginStartup || command == IdmConfiguration then (st, true)
    else (st, false)
  }
}

=== FILE: tray_window.dfy ===
/** The hidden window of the tray application (HDRTray/HDRTray.cpp): how
    it reacts to display changes, its two timers and a restarted taskbar.
    Each event carries the platform's answers at the time it arrives. */
module TrayWindow {
  import opened Wrappers
  import opened HdrApi
  import TrayIcon

  /** How many re-checks follow a display change that did not show up at
      once. */
  const RecheckCount: nat := 10

  /** The window's state: the icon, the re-check counter, which timers run
      and whether the window has been destroyed. */
  datatype Window = Window(
    icon: TrayIcon.State,
    recheckCount: nat,
    recheckTimer: bool,
    waitTimer: bool,
    destroyed: bool)

  /** `WM_CREATE`: the icon is added; only when that fails is the timer
      armed that waits for the taskbar. */
  function Create(core: Core, mode: Option<TrayIcon.SysPartsMode>, accepted: bool): (w: Window)
    ensures w.waitTimer <==> !accepted
    ensures w.icon.added == accepted
    ensures w.icon == TrayIcon.Add(TrayIcon.Initial, core, mode, accepted).0
    ensures w.recheckCount == 0 && !w.recheckTimer && !w.destroyed
  {
    var (icon, ok) := TrayIcon.Add(TrayIcon.Initial, core, mode, accepted);
    Window(icon, 0, false, !ok, false)
  }

  /** `WM_DISPLAYCHANGE`: the status is refreshed; when it seems unchanged
      the counter is set to 10 and the re-check timer (re)started. */
  function DisplayChange(w: Window, core: Core): (r: Window)
    ensures TrayIcon.UpdateHdrStatus(w.icon, core).1 ==>
              r == w.(icon := TrayIcon.UpdateHdrStatus(w.icon, core).0)
    ensures !TrayIcon.UpdateHdrStatus(w.icon, core).1 ==>
              r.recheckCount == RecheckCount && r.recheckTimer
    ensures !TrayIcon.UpdateHdrStatus(w.icon, core).1 ==>
              r == w.(icon := TrayIcon.UpdateHdrStatus(w.icon, core).0, recheckCount := RecheckCount, recheckTimer := true)
    ensures r.icon.hdrStatus == core.aggregate(core.enabledDisplays)
  {
    var (icon, changed) := TrayIcon.UpdateHdrStatus(w.icon, core);
    if changed then w.(icon := icon)
    else w.(icon := icon, recheckCount := RecheckCount, recheckTimer := true)
  }

  /** One re-check timer tick, and whether it refreshed the status. */
  function RecheckTick(w: Window, core: Core): (r: (Window, bool))
    ensures w.recheckCount == 0 ==> r == (w.(recheckTimer := false), false)
    ensures w.recheckCount > 0 ==> r.1 && r.0.icon == TrayIcon.UpdateHdrStatus(w.icon, core).0
    ensures w.recheckCount > 0 ==>
              r.0.recheckCount == (if TrayIcon.UpdateHdrStatus(w.icon, core).1 then 0 else w.recheckCount - 1)
    ensures r.0.recheckCount <= w.recheckCount
    ensures r.0.waitTimer == w.waitTimer && r.0.destroyed == w.destroyed
    ensures w.recheckCount > 0 ==> r.0.recheckTimer == w.recheckTimer
  {
    if w.recheckCount > 0 then
      var (icon, changed) := TrayIcon.UpdateHdrStatus(w.icon, core);
      (w.(icon := icon, recheckCount := if changed then 0 else w.recheckCount - 1), true)
    else (w.(recheckTimer := false), false)
  }

  /** A run of re-check ticks, one per answer of the platform, and how many
      of them refreshed the status. */
  function RecheckTicks(w: Window, cores: seq<Core>): (r: (Window, nat))
    decreases |cores|
  {
    if |cores| == 0 then (w, 0)
    else
      var (next, refreshed) := RecheckTick(w, cores[0]);
      var (last, n) := RecheckTicks(next, cores[1..]);
      (last, n + if refreshed then 1 else 0)
  }

  /** However many ticks arrive, they refresh the status at most as often
      as the counter allowed: at most 10 times after one display change. */
  lemma {:induction false} RecheckTicksBounded(w: Window, cores: seq<Core>)
    ensures RecheckTicks(w, cores).1 + RecheckTicks(w, cores).0.recheckCount <= w.recheckCount
    decreases |cores|
  {
    if |cores| > 0 {
      RecheckTicksBounded(RecheckTick(w, cores[0]).0, cores[1..]);
    }
  }

  /** The counter never exceeds 10 (it starts at 0 and is only ever set
      to 10, 0 or decremented), so after a display change the re-checks
      refresh the status at most ten times. */
  lemma DisplayChangeRechecksAtMostTen(w: Window, core: Core, cores: seq<Core>)
    requires w.recheckCount <= RecheckCount
    ensures RecheckTicks(DisplayChange(w, core), cores).1 <= RecheckCount
  {
    RecheckTicksBounded(DisplayChange(w, core), cores);
  }

  /** The wait timer expires: it is stopped, and the window is destroyed
      when the icon still has not been added. */
  function WaitTimerExpired(w: Window): (r: Window)
    ensures !r.waitTimer
    ensures r.destroyed <==> w.destroyed || !w.icon.added
    ensures r.icon == w.icon && r.recheckCount == w.recheckCount && r.recheckTimer == w.recheckTimer
  {
    w.(waitTimer := false, destroyed := w.destroyed || !w.icon.added)
  }

  /** `TaskbarCreated`: the icon is removed and added again; the window is
      destroyed when the new add fails. */
  function TaskbarCreated(w: Window, core: Core, mode: Option<TrayIcon.SysPartsMode>, accepted: bool): (r: Window)
    ensures r.icon.added == accepted
    ensures r.destroyed <==> w.destroyed || !accepted
    ensures r.icon.hdrStatus == core.aggregate(core.enabledDisplays)
    ensures r.icon == TrayIcon.Add(TrayIcon.Remove(w.icon), core, mode, accepted).0
    ensures r.recheckCount == w.recheckCount && r.recheckTimer == w.recheckTimer && r.waitTimer == w.waitTimer
  {
    var (icon, ok) := TrayIcon.Add(TrayIcon.Remove(w.icon), core, mode, accepted);
    w.(icon := icon, destroyed := w.destroyed || !ok)
  }

  /** An icon whose first add failed but that was added on a later
      `TaskbarCreated` keeps the window alive when the wait timer
      expires. */
  lemma LateAddSurvivesWaitTimer(core: Core, later: Core, mode: Option<TrayIcon.SysPartsMode>)
    ensures var w := TaskbarCreated(Create(core, mode, false), later, mode, true);
            w.waitTimer && !WaitTimerExpired(w).destroyed
  {
  }
}

=== FILE: wrappers.dfy ===
/** Failure-carrying datatypes shared by the whole model: `Option` for the
    source's `std::optional` and null pointers, `Result` for its
    `std::expected<T, code>` returns. */
module Wrappers {

  /** `std::optional<T>`: absent or holding a value. */
  datatype Option<T> = None | Some(value: T) {

    /** `value_or(default)` */
    function GetOr(default: T): T {
      match this
      case Some(v) => v
      case None => default
    }
  }

  /** `std::expected<T, E>`: a value or an error code. */
  datatype Result<T, E> = Ok(value: T) | Err(error: E) {

    /** `value_or(default)` */
    function GetOr(default: T): T {
      match this
      case Ok(v) => v
      case Err(_) => default
    }
  }

  /** The present answers of `f` over `xs`, in order: the shape of every
      loop that appends to its output only when a query succeeds. */
  function Collect<S, T>(xs: seq<S>, f: S -> Option<T>): (r: seq<T>)
    ensures |r| <= |xs|
    ensures forall k | 0 <= k < |r| :: exists i | 0 <= i < |xs| :: f(xs[i]) == Some(r[k])
    ensures forall i | 0 <= i < |xs| && f(xs[i]).Some? :: f(xs[i]).value in r
    ensures (forall i | 0 <= i < |xs| :: f(xs[i]).Some?) ==>
              |r| == |xs| && forall i | 0 <= i < |xs| :: Some(r[i]) == f(xs[i])
    ensures (forall i | 0 <= i < |xs| :: f(xs[i]).None?) ==> r == []
    ensures |r| == |PresentAt(xs, f)| && forall k | 0 <= k < |r| :: Some(r[k]) == f(xs[PresentAt(xs, f)[k]])
  {
    CollectInOrder(xs, f);
    CollectSound(xs, f);
    CollectComplete(xs, f);
    CollectAllPresent(xs, f);
    CollectNonePresent(xs, f);
    Collected(xs, f)
  }

  /** The loop itself: the answers of the prefix, then the last answer if
      it is present. */
  function Collected<S, T>(xs: seq<S>, f: S -> Option<T>): seq<T>
    decreases |xs|
  {
    if |xs| == 0 then []
    else
      var prev := Collected(xs[..|xs| - 1], f);
      match f(xs[|xs| - 1])
      case Some(x) => prev + [x]
      case None => prev
  }

  /** Every collected value is a present answer, and there are never more
      of them than inputs. */
  lemma {:induction false} CollectSound<S, T>(xs: seq<S>, f: S -> Option<T>)
    ensures |Collected(xs, f)| <= |xs|
    ensures forall k | 0 <= k < |Collected(xs, f)| :: exists i | 0 <= i < |xs| :: f(xs[i]) == Some(Collected(xs, f)[k])
    decreases |xs|
  {
    if |xs| > 0 {
      var n := |xs| - 1;
      CollectSound(xs[..n], f);
      assert forall i | 0 <= i < n :: xs[..n][i] == xs[i];
    }
  }

  /** Every present answer is collected. */
  lemma {:induction false} CollectComplete<S, T>(xs: seq<S>, f: S -> Option<T>)
    ensures forall i | 0 <= i < |xs| && f(xs[i]).Some? :: f(xs[i]).value in Collected(xs, f)
    decreases |xs|
  {
    if |xs| > 0 {
      var n := |xs| - 1;
      CollectComplete(xs[..n], f);
      assert forall i | 0 <= i < n :: xs[..n][i] == xs[i];
    }
  }

  /** When every answer is present, they are all collected in order. */
  lemma {:induction false} CollectAllPresent<S, T>(xs: seq<S>, f: S -> Option<T>)
    ensures (forall i | 0 <= i < |xs| :: f(xs[i]).Some?) ==>
              |Collected(xs, f)| == |xs| && forall i | 0 <= i < |xs| :: Some(Collected(xs, f)[i]) == f(xs[i])
    decreases |xs|
  {
    if |xs| > 0 && forall i | 0 <= i < |xs| :: f(xs[i]).Some? {
      var n := |xs| - 1;
      assert forall i | 0 <= i < n :: xs[..n][i] == xs[i];
      CollectAllPresent(xs[..n], f);
    }
  }

  /** When no answer is present, nothing is collected. */
  lemma {:induction false} CollectNonePresent<S, T>(xs: seq<S>, f: S -> Option<T>)
    ensures (forall i | 0 <= i < |xs| :: f(xs[i]).None?) ==> Collected(xs, f) == []
    decreases |xs|
  {
    if |xs| > 0 && forall i | 0 <= i < |xs| :: f(xs[i]).None? {
      var n := |xs| - 1;
      assert forall i | 0 <= i < n :: xs[..n][i] == xs[i];
      CollectNonePresent(xs[..n], f);
    }
  }

  /** The positions of the present answers of `f` over `xs`: each one in
      range and present, strictly increasing, and none left out. */
  function PresentAt<S, T>(xs: seq<S>, f: S -> Option<T>): (ps: seq<nat>)
    ensures forall k | 0 <= k < |ps| :: ps[k] < |xs| && f(xs[ps[k]]).Some?
    ensures forall k, l | 0 <= k < l < |ps| :: ps[k] < ps[l]
    ensures forall i | 0 <= i < |xs| && f(xs[i]).Some? :: i in ps
    decreases |xs|
  {
    if |xs| == 0 then []
    else
      var n := |xs| - 1;
      var prev := PresentAt(xs[..n], f);
      assert forall i | 0 <= i < n :: xs[..n][i] == xs[i];
      if f(xs[n]).Some? then prev + [n] else prev
  }

  /** The collected values are the answers at the present positions, in
      the order of those positions. */
  lemma {:induction false} CollectInOrder<S, T>(xs: seq<S>, f: S -> Option<T>)
    ensures |Collected(xs, f)| == |PresentAt(xs, f)|
    ensures forall k | 0 <= k < |Collected(xs, f)| :: Some(Collected(xs, f)[k]) == f(xs[PresentAt(xs, f)[k]])
    decreases |xs|
  {
    if |xs| > 0 {
      var n := |xs| - 1;
      var c, p := Collected(xs[..n], f), PresentAt(xs[..n], f);
      CollectInOrder(xs[..n], f);
      assert forall k | 0 <= k < |p| :: xs[..n][p[k]] == xs[p[k]];
      if f(xs[n]).Some? {
        assert Collected(xs, f) == c + [f(xs[n]).value];
        assert PresentAt(xs, f) == p + [n];
      } else {
        assert Collected(xs, f) == c;
        assert PresentAt(xs, f) == p;
      }
    }
  }

  /** Collecting over a concatenation collects each part in turn. */
  lemma {:induction false} CollectAppend<S, T>(xs: seq<S>, ys: seq<S>, f: S -> Option<T>)
    ensures Collect(xs + ys, f) == Collect(xs, f) + Collect(ys, f)
    decreases |ys|
  {
    if |ys| == 0 {
      assert xs + ys == xs;
    } else {
      var n := |ys| - 1;
      assert (xs + ys)[..|xs + ys| - 1] == xs + ys[..n];
      assert (xs + ys)[|xs + ys| - 1] == ys[n];
      CollectAppend(xs, ys[..n], f);
    }
  }

  /** A single input contributes its answer when present and nothing
      otherwise. */
  lemma CollectSingle<S, T>(x: S, f: S -> Option<T>)
    ensures Collect([x], f) == if f(x).Some? then [f(x).value] else []
  {
    assert [x][..0] == [];
  }
}
